=== FILE: README.md ===
# restack-gen pipeline compiler, in Dafny

This project models the core of restack-gen, a generator for Restack
agent projects. Its core is a small compiler for a pipeline operator
language, with three operators:

- `A → B` runs A and then B (sequence);
- `A ⇄ B` runs A and B side by side (parallel);
- `c →?(T, F)` runs T when the result has key `c` set, and F otherwise (conditional).

The model follows the compiler's four stages:

- **IR** (`ir.dfy`): the tree of `Resource`, `Sequence`, `Parallel` and
  `Conditional` nodes, with:
  - their constructor checks;
  - their `__str__` rendering;
  - the `flatten_sequence` and `flatten_parallel` passes.
- **Lexer and parser** (`lexer.dfy`, `parser.dfy`): `tokenize`, the
  recursive-descent `Parser` and `parse`. The parser's mutable cursor is
  an explicit token index. Termination uses the number of tokens left.
  `render.dfy` adds a printer from trees to tokens and proves that the
  parser reads every tree it can build back from its printed form.
- **Resource resolution** (`resources.dfy`): how `get_project_resources`
  derives a name table from module file names, and `validate_ir`, which
  fills in leaf types from that table or reports the first leaf it refuses.
- **Structural analysis** (`validator.dfy`): the `PipelineValidator`
  walks:
  - the resource set;
  - the cycle and unreachable checks;
  - the execution order;
  - the dependency map;
  - the graph metrics.
- **Code generation** (`codegen.dfy`): the generated workflow module as
  exact text. A statement-level view (`Stmt`) states the shape of each
  generated line.

It also models five small rules that sit inside I/O code. Each takes the
data its I/O would have produced as a parameter:

- migration bookkeeping (`migration.dfy`). The state file's contents and
  the directory listing are parameters, and each migration's `up()` and
  `down()` is an oracle that succeeds or fails.
- the project-name check (`project.dfy`);
- the doctor's status priority, version check and summary (`doctor.dfy`);
- the `.env` loader and the service environment merge (`runner.dfy`),
  over a list of lines and the process environment as a map;
- the file categoriser and totals of the stats report (`stats.dfy`),
  over a list of relative paths with their line counts.

Two support modules are shared:

- `wrappers.dfy` holds `Option`, `Result` and `Outcome`;
- `text.dfy` holds Python's `str` builtins on ASCII text: `strip`,
  `split`, `rfind`, `lower`, `capitalize`, `join`, `str(int)`, sorting of
  strings, and pathlib's `stem` and `suffix` of a file name.

Where the module docstrings and the code disagree, the model follows the code:

- The real precedence is primary, then `⇄`, then `→?`, then `→`
  (`restack_gen/parser.py:228-299`). The grammar in the docstring
  (`restack_gen/parser.py:6-10`) leaves out the conditional level.
- An invalid character raises `ParseError` (`restack_gen/parser.py:170`).
- The validator has no warnings, no strict mode and no result record.
  `validate_pipeline` either raises or returns nothing.
- `get_dependencies` fails with a `NameError` on any tree that contains a
  `Conditional` (`restack_gen/validator.py:229`). The model returns that
  error as an `Err`.
- The generator never emits an `asyncio` import, although parallel code
  calls `asyncio.gather`.

## Model

| member | source | states |
|---|---|---|
| IR.NewResource | restack_gen/ir.py:51-58 | a leaf is built exactly when its type is agent, workflow, function or unknown; the name is never checked |
| IR.NewSequence | restack_gen/ir.py:77-80 | a Sequence is built exactly when it has at least two children, which it keeps as given |
| IR.NewParallel | restack_gen/ir.py:100-103 | a Parallel is built exactly when it has at least two children, which it keeps as given |
| IR.NewConditional | restack_gen/ir.py:123-130 | a Conditional is refused exactly when its condition is empty or whitespace; the false branch defaults to absent |
| IR.StrResource | restack_gen/ir.py:60-62 | a leaf renders as its capitalised type around its name, e.g. `Agent(x)` |
| IR.CapitalizedTypes | restack_gen/ir.py:60-62 | the four accepted types capitalise to Agent, Workflow, Function and Unknown |
| IR.StrChildren | restack_gen/ir.py:82-85 | a Sequence renders every child in its own display form with one ` → ` between neighbours, for any number of children; a Parallel does the same with ` ⇄ ` (lines 105-108) |
| IR.StrAllElements | restack_gen/ir.py:82-85 | the list of child display forms holds each child's own display form, in order |
| IR.StrTwoChildren | restack_gen/ir.py:82-85 | with two children X and Y, the display forms are `Sequence([X → Y])` and `Parallel([X ⇄ Y])` |
| IR.FlattenSequence | restack_gen/ir.py:149-174 | anything but a Sequence comes back unchanged; a Sequence keeps its leaves in order, keeps every child that is not a Sequence, has no Sequence child afterwards and never loses children |
| IR.SpliceSequencesLeaves | restack_gen/ir.py:164-174 | splicing Sequence children keeps every leaf and their order |
| IR.SpliceSequencesShape | restack_gen/ir.py:164-174 | splicing never shortens the child list and keeps every constructor check satisfied |
| IR.FlattenParallel | restack_gen/ir.py:187-212 | anything but a Parallel comes back unchanged; a Parallel keeps its leaves in order, keeps every child that is not a Parallel, has no Parallel child afterwards and never loses children |
| IR.SpliceParallelsLeaves | restack_gen/ir.py:202-212 | splicing Parallel children keeps every leaf and their order |
| IR.SpliceParallelsShape | restack_gen/ir.py:202-212 | splicing never shortens the child list and keeps every constructor check satisfied |
| IR.FlattenSequenceIdempotent | restack_gen/ir.py:164-174 | flattening a Sequence twice gives the same tree as flattening it once |
| IR.FlattenParallelIdempotent | restack_gen/ir.py:202-212 | flattening a Parallel twice gives the same tree as flattening it once |
| IR.FlattenKeepsCanonical | restack_gen/ir.py:164-174 | flattening a node whose children are canonical leaves no Sequence in a Sequence and no Parallel in a Parallel anywhere |
| IR.FlattenExample | restack_gen/ir.py:149-158 | `Sequence([A, Sequence([B, C]), D])` flattens to `Sequence([A, B, C, D])` |
| IR.SpliceSequencesAppend | restack_gen/ir.py:164-172 | the child loop handles each child on its own: splicing a concatenation is the concatenation of the splices |
| IR.SpliceSequencesSingle | restack_gen/ir.py:166-172 | a Sequence child is replaced by its own flattened children; any other child is kept as it is, with nothing inside it touched |
| IR.FlattenSequenceInPlace | restack_gen/ir.py:160-174 | a child that is not a Sequence stays unchanged in its place, between the splices of the children before and after it |
| IR.SpliceParallelsAppend | restack_gen/ir.py:202-210 | the Parallel splice distributes over concatenation |
| IR.SpliceParallelsSingle | restack_gen/ir.py:204-210 | a Parallel child is replaced by its own flattened children; any other child is kept as it is, with nothing inside it touched |
| IR.FlattenParallelInPlace | restack_gen/ir.py:198-212 | a child that is not a Parallel stays unchanged in its place, between the splices of the children before and after it |
| IR.FlattenParallelExample | restack_gen/ir.py:187-212 | `Parallel([A, Parallel([B, C]), D])` flattens to `Parallel([A, B, C, D])` for any non-Parallel A, B, C, D |
| Lexer.TokenizeFrom | restack_gen/parser.py:112-174 | the lexer loop yields a token list ending in one EOF at the input length; every other token's text is found in the input at its offset; offsets strictly increase; names are maximal runs; an error lies inside the input |
| Lexer.Tokenize | restack_gen/parser.py:93-174 | `tokenize` yields such a token list, and no NAME token is blank |
| Lexer.TokenizeAcceptance | restack_gen/parser.py:116-170 | lexing succeeds exactly when every character is acceptable (whitespace, an operator, `(`, `)`, `,` or a name character); otherwise the error is at the first character that is not, with the "Invalid character" message |
| Lexer.TokensSpellInput | restack_gen/parser.py:116-168 | the token texts concatenated give back the input without its whitespace: the lexer drops only whitespace and invents nothing |
| Parser.Advance | restack_gen/parser.py:190-194 | the cursor moves forward by at most one and stays inside the list; it stays put exactly when it is on the last token |
| Parser.AdvanceMoves | restack_gen/parser.py:190-194 | on a token list that ends in EOF, any token other than EOF is followed by another |
| Parser.Expect | restack_gen/parser.py:196-216 | `expect` succeeds exactly when the current token has the wanted kind, and then advances; otherwise the error is at that token's offset |
| Parser.ParseExpression | restack_gen/parser.py:218-226 | a successful parse never moves the cursor back and yields a constructor-valid, flattened tree whose leaves are all "unknown"; an error points at a token |
| Parser.ParseSequence | restack_gen/parser.py:228-244 | `parse_sequence` never moves the cursor back on success and yields a constructor-valid, flattened tree with untyped, non-blank leaves; a failure points at a token of the list |
| Parser.SequenceLoop | restack_gen/parser.py:228-244 | the `→` loop never moves the cursor back on success and yields a parsed tree; a failure points at a token of the list |
| Parser.SequenceLoopResult | restack_gen/parser.py:236-244 | the `→` loop stops at the first token after an operand that is not `→`; with no `→` it returns the lone operand, or the flattened Sequence of those gathered; its tree keeps the leaves gathered so far, in order, at the front, and is a Sequence once a second operand was read |
| Parser.ParseConditional | restack_gen/parser.py:246-281 | `parse_conditional` never moves the cursor back on success and yields a constructor-valid, flattened tree with untyped, non-blank leaves; a failure points at a token of the list |
| Parser.ConditionalLoop | restack_gen/parser.py:246-281 | the `→?` loop never moves the cursor back on success and yields a parsed tree; a failure points at a token of the list |
| Parser.ConditionalLoopResult | restack_gen/parser.py:250-281 | without `→?` the operand comes back as it is; with it, a successful parse stops at a token other than `→?` and is a Conditional whose condition is the bare name before the operator |
| Parser.ConditionalBranches | restack_gen/parser.py:264-279 | after `name →? (` and a true branch, the false branch is present exactly when a comma follows the true branch, and is then the expression after that comma |
| Parser.ConditionNeedsName | restack_gen/parser.py:256-262 | a `→?` after anything but a bare name, a Conditional included, is the "requires a condition name" error |
| Parser.ParseParallel | restack_gen/parser.py:283-299 | `parse_parallel` never moves the cursor back on success and yields a constructor-valid, flattened tree with untyped, non-blank leaves; a failure points at a token of the list |
| Parser.ParallelLoop | restack_gen/parser.py:283-299 | the `⇄` loop never moves the cursor back on success and yields a parsed tree; a failure points at a token of the list |
| Parser.ParallelLoopResult | restack_gen/parser.py:291-299 | the `⇄` loop stops at the first token after a primary that is not `⇄`; with no `⇄` it returns the lone primary, or the flattened Parallel of those gathered; its tree keeps the leaves gathered so far, in order, at the front, and is a Parallel once a second primary was read |
| Parser.ParsePrimary | restack_gen/parser.py:301-332 | `parse_primary` never moves the cursor back on success and yields a parsed tree; a failure points at a token of the list |
| Parser.PrimaryCases | restack_gen/parser.py:301-332 | a NAME is read as a leaf of type "unknown"; `(` must be closed by `)` after an expression, which is the result; any other token is an "Unexpected token" error at that token |
| Parser.ParseTokens | restack_gen/parser.py:352-367 | a parse that returns a tree returns a parsed tree; any error points at a token of the list |
| Parser.LeftoverTokensRejected | restack_gen/parser.py:360-365 | tokens left over after the expression give "Unexpected token" at the first of them |
| Parser.Parse | restack_gen/parser.py:335-367 | blank input is "Empty expression" at offset -1 before any lexing; lexer errors pass through; otherwise the token list is parsed, and any error offset lies within the input |
| Parser.TokensAreParserInput | restack_gen/parser.py:171-174 | what `tokenize` returns ends in EOF, carries no blank name and has every offset within the input, which is what the parser needs |
| Render.ExpressionRoundTrip | restack_gen/parser.py:218-332 | a printed parsed tree followed by `)`, `,` or the end is read back by `parse_expression` as the same tree, consuming exactly its tokens |
| Render.RoundTrip | restack_gen/parser.py:335-367 | parsing the printed form of any parsed tree gives back that tree |
| Render.SequenceRoundTrip | restack_gen/parser.py:228-244 | a printed sequence followed by `)`, `,` or EOF is read back by parse_expression as that sequence, the cursor just past it |
| Render.ParallelRoundTrip | restack_gen/parser.py:283-299 | a printed parallel followed by `)`, `,` or EOF is read back by parse_parallel as that parallel |
| Render.ConditionalRoundTrip | restack_gen/parser.py:246-281 | a printed conditional, `c →?( t , f )` or `c →?( t )`, followed by `)`, `,` or EOF is read back by parse_conditional with its condition and both branches |
| Parser.NameOperand | restack_gen/parser.py:246-332 | a NAME followed by neither `⇄` nor `→?` is read by parse_conditional as one untyped leaf, cursor just past it |
| Parser.ParallelOperand | restack_gen/parser.py:283-299 | `B ⇄ C` followed by neither `⇄` nor `→?` is read as a two-branch parallel of untyped leaves |
| Render.ThreeSteps | restack_gen/parser.py:228-244 | three operands joined by `→`, none a sequence, are read as one three-step sequence ending where the third ends |
| Render.PrecedenceExample | restack_gen/parser.py:228-299 | `A → B ⇄ C → D` parses to `Sequence([A, Parallel([B, C]), D])`: `⇄` binds tighter than `→` |
| Render.ParenthesesExample | restack_gen/parser.py:301-323 | `(A → B) ⇄ C` parses to `Parallel([Sequence([A, B]), C])`: parentheses override precedence |
| Text.Stem | restack_gen/parser.py:401 | a module's stem is a prefix of its file name, empty exactly when the name is |
| Text.Suffix | restack_gen/stats.py:53 | stem and suffix put back together give the name; a suffix is a dot followed by at least one character and no further dot, after a non-empty stem |
| Text.StemAndSuffix | restack_gen/parser.py:401 | a name `a.b` with `a` non-empty and `b` non-empty and dot-free has stem `a` and suffix `.b`; with the contract of Suffix, a name has a suffix exactly when it has this form |
| Resources.Register | restack_gen/parser.py:390-394 | `register` adds a non-empty name that is not yet a key, with the given type, and nothing else; every existing entry keeps its type |
| Resources.BuildTable | restack_gen/parser.py:390-432 | the table's keys are exactly the non-empty registered names, and a name's first registration gives its type |
| Resources.FirstRegistrationWins | restack_gen/parser.py:390-394 | the type a name gets is the one its earliest registration gave it |
| Resources.LaterGroupWins | restack_gen/parser.py:396-432 | a name no earlier registration used gets the type of the directory group that registers it |
| Resources.AgentRegistrationWins | restack_gen/parser.py:396-432 | agents are registered before workflows and functions, so every name an agent module registers resolves to "agent" |
| Resources.AgentNamesWin | restack_gen/parser.py:396-408 | an agent module `s.py` is known as `s` and as its PascalCase name plus "Agent" |
| Resources.FunctionNameResolves | restack_gen/parser.py:423-432 | a function module's stem resolves to "function" unless an agent or workflow module registered that name first |
| Resources.ScannedTableTypes | restack_gen/parser.py:396-432 | a table from a project scan holds only agent, workflow and function types |
| Resources.ValidateLeaf | restack_gen/parser.py:469-485 | a leaf missing from the table gives "not found in project"; a preset type the table contradicts gives "is a X, not a Y"; otherwise the leaf takes the table's type |
| Resources.ValidateChildren | restack_gen/parser.py:487-493 | children are checked left to right and checking stops at the first failure, leaving later children untouched |
| Resources.ValidateNode | restack_gen/parser.py:467-508 | validation keeps the tree's shape and names; leaves before the first refused one get the table's type; the first refused leaf is the one reported |
| Resources.ValidateIr | restack_gen/parser.py:437-508 | a table passed in is used as given; otherwise a scan error is returned with the tree untouched; the result is valid exactly when there is no error |
| Resources.ValidIffResolvable | restack_gen/parser.py:467-508 | validation passes exactly when every leaf's name is in the table with a compatible type |
| Resources.ValidatedLeaves | restack_gen/parser.py:482-485 | after a pass every leaf carries the table's type for its name |
| Resources.ScannedTreeTyped | restack_gen/parser.py:437-508 | a tree that passes against a scanned project has every leaf typed agent, workflow or function |
| Resources.FixedTreeUnchanged | restack_gen/parser.py:467-493 | a tree whose every leaf is known and already carries the table's type is returned unchanged with no error |
| Resources.ValidateIdempotent | restack_gen/parser.py:467-508 | validating an already validated tree passes again and changes nothing |
| Validator.CollectIsLeafNames | restack_gen/validator.py:36-54 | the resource set is exactly the set of leaf names in both branches; condition strings never enter it |
| Validator.NoCycleEver | restack_gen/validator.py:76-121 | a leaf is pushed on and popped off the recursion stack with nothing between, so the walk only records visited names and never finds a cycle |
| Validator.CheckCyclesPasses | restack_gen/validator.py:66-121 | `_check_cycles` never raises, whatever the tree |
| Validator.CheckUnreachable | restack_gen/validator.py:123-161 | the check fails exactly when some recorded resource is not reached from the root |
| Validator.MarkIsCollect | restack_gen/validator.py:135-150 | the reachability walk reaches exactly the resource set |
| Validator.CheckUnreachablePasses | restack_gen/validator.py:123-161 | on the tree the validator was built from, nothing is unreachable |
| Validator.ValidatePipelinePasses | restack_gen/validator.py:283-296 | `validate_pipeline` never raises, whatever the tree |
| Validator.AddAllIsDedup | restack_gen/validator.py:172-190 | the first-occurrence walk over a list of names equals the reference dedup built from the back |
| Validator.DedupFacts | restack_gen/validator.py:172-190 | the dedup reference has no duplicates, the same members as its input, and keeps first-occurrence order |
| Validator.ExecutionOrderSpec | restack_gen/validator.py:163-196 | the execution order lists every resource once, in order of first appearance in a depth-first walk with the true branch first, and its members are exactly the resource set |
| Validator.GetDependenciesSpec | restack_gen/validator.py:198-236 | `get_dependencies` fails with the `next_preds` NameError exactly on trees with a Conditional; otherwise its keys are the resource set and its lists are those of the reference occurrence list |
| Validator.DepsMatchOccurrences | restack_gen/validator.py:207-227 | in a Sequence a child depends on the earlier direct Resource siblings; all children of a Parallel share the incoming predecessors |
| Validator.DepsFailOnConditional | restack_gen/validator.py:228-233 | any Conditional makes `build_deps` raise the `next_preds` NameError |
| Validator.DependenciesExample | restack_gen/validator.py:198-236 | for `A → (B ⇄ C) → D`, B, C and D all depend on A only, because a composite sibling adds no predecessor |
| Validator.AnalyzeSpec | restack_gen/validator.py:256-276 | one `analyze` call raises the recorded depth to its depth plus the subtree height and adds the Parallel and Conditional counts |
| Validator.GraphMetricsSpec | restack_gen/validator.py:238-280 | the metrics are the resource-set size, the tree height (a leaf has height 0), and the numbers of Parallel and Conditional nodes |
| Codegen.SnakeCaseFacts | restack_gen/codegen.py:265-279 | the snake-case name has no capitals, is one character longer per lower-to-upper boundary, and without its `_` is the lowered input without its `_` |
| Codegen.SnakeCaseIdempotent | restack_gen/codegen.py:265-279 | snake-casing twice gives the same result as once |
| Codegen.SnakeCaseExamples | restack_gen/codegen.py:265-279 | "DataCollector" becomes "data_collector" and "HTTPClient" becomes "httpclient" |
| Codegen.CollectNodesIsLeaves | restack_gen/codegen.py:111-128 | `_collect_resources` finds the leaves in depth-first order with duplicates kept; the condition string and an absent false branch add nothing |
| Codegen.TypedNames | restack_gen/codegen.py:84-106 | a group holds exactly the names of the leaves with that type |
| Codegen.ImportedNamesSpec | restack_gen/codegen.py:84-106 | an import group lists, in strictly increasing order, exactly the names of the leaves with that type |
| Codegen.GenerateImportsSpec | restack_gen/codegen.py:66-108 | the Workflow import comes first; agents, workflows and functions follow in that order, one line per name; nothing else (no asyncio import) is added |
| Codegen.UnknownLeavesNotImported | restack_gen/codegen.py:84-106 | leaves still typed "unknown" produce no import at all |
| Codegen.CodeIsStmts | restack_gen/codegen.py:131-262 | the generated text of any node is exactly the text of its statement list |
| Codegen.GatherItemsText | restack_gen/codegen.py:213-219 | for every list of leaf children, the gather arguments joined by `,\n` and closed by a newline are exactly the item lines: one indented `self.execute_activity(<snake>_activity, result)` per child in order, a comma after each but the last |
| Codegen.StmtsPlaced | restack_gen/codegen.py:131-262 | every line of a node's code sits at the node's indentation or deeper, and every line that touches a variable touches the result variable |
| Codegen.StmtsActivities | restack_gen/codegen.py:155-262 | when every Parallel has only leaf children, the code runs exactly the leaves' activities, in depth-first order |
| Codegen.FlattenSequenceCode | restack_gen/codegen.py:163-184 | flattening a Sequence does not change its generated code |
| Codegen.PipelineBody | restack_gen/codegen.py:36-61 | the module is the header, the imports, the class header, the body at indentation 2 using only `result`, and `return result` |
| Codegen.PipelineStarts | restack_gen/codegen.py:36-40 | the module starts with the docstring header and then the Workflow import |
| Codegen.PipelineEnds | restack_gen/codegen.py:59-61 | the module ends with `return result` |
| Migration.SaveThenLoad | restack_gen/migration.py:43-60 | what a run saves is what `_load_state` reads next: the new state after a success, and after a failure whatever was loaded before (lines 197-199 save only on success) |
| Migration.Filter | restack_gen/migration.py:74-84 | a listed name is kept exactly when it is a `*.py` file other than `__init__.py` or a dot-file and the target occurs in its lowered stem |
| Migration.MigrationFiles | restack_gen/migration.py:62-84 | a missing directory gives no files; otherwise exactly the selected names |
| Migration.MigrationFilesSorted | restack_gen/migration.py:84 | the files come in ascending name order, each as often as in the listing |
| Migration.UpperTargetSelectsNothing | restack_gen/migration.py:80-82 | a target with a capital letter selects nothing, since only the stem is lowered |
| Migration.ParseMigrationName | restack_gen/migration.py:86-99 | a stem splits at its first `_`; a stem without `_` gives (stem, stem) |
| Migration.ParseMigrationNameSplit | restack_gen/migration.py:95-99 | everything before the first `_` is the timestamp and everything after it, later `_` included, is the name |
| Migration.GetStatus | restack_gen/migration.py:133-159 | one entry per file in file order, applied exactly when its stem is in the saved set; an unreadable state file is the only error |
| Migration.StatusWithoutStateFile | restack_gen/migration.py:45-46 | without a state file nothing is applied |
| Migration.Take | restack_gen/migration.py:181-182 | `s[:count]` is a prefix of `s`: of length `count` when that fits, all of `s` when `count` is larger, and `count` elements short of `s` when negative, down to nothing |
| Migration.RunUp | restack_gen/migration.py:185-194 | running `up()` over a batch succeeds exactly when every module loads and its `up()` succeeds |
| Migration.RunDown | restack_gen/migration.py:225-234 | running `down()` over a batch succeeds exactly when every module loads and its `down()` succeeds |
| Migration.UpWithApplies | restack_gen/migration.py:161-201 | `migrate_up` applies only pending files, grows the applied set and its timestamps by exactly the returned stems, each stamped with its own clock reading and earlier timestamps kept, respects `count`, and without `count` leaves every file applied |
| Migration.UpWithOldestFirst | restack_gen/migration.py:178-185 | the first migration applied is the first pending file in sorted order |
| Migration.UpWithNothingPending | restack_gen/migration.py:178-181 | with nothing pending, `migrate_up` applies nothing |
| Migration.UpWithFromScratch | restack_gen/migration.py:174-201 | from an empty state with no count, every listed file is applied, in order, and recorded with a timestamp |
| Migration.MigrateUp | restack_gen/migration.py:161-201 | a failed `migrate_up` leaves the stored state untouched; a successful one saves a state |
| Migration.MigrateUpApplies | restack_gen/migration.py:161-201 | at the command level, success saves the applied set grown by exactly the returned stems, each of which was pending |
| Migration.MigrateUpAgainEmpty | restack_gen/migration.py:178-181 | right after a full `migrate_up`, another one applies nothing |
| Migration.DownWithRollsBack | restack_gen/migration.py:216-240 | `migrate_down` rolls back only applied files, removes exactly the returned stems from the applied set and its timestamps, and rolls back `count` of them when that many are applied |
| Migration.DownWithNewestFirst | restack_gen/migration.py:220-226 | the first migration rolled back is the newest applied file |
| Migration.DownWithEverything | restack_gen/migration.py:216-240 | rolling back as many files as are listed, when exactly they are applied, returns their stems newest first and leaves an empty state |
| Migration.MigrateDown | restack_gen/migration.py:203-240 | a failed `migrate_down` leaves the stored state untouched; a successful one saves a state |
| Migration.MigrateDownRollsBack | restack_gen/migration.py:203-240 | at the command level, success saves the applied set shrunk by exactly the returned stems, each of which was applied |
| Migration.UpThenDownRoundTrip | restack_gen/migration.py:161-240 | from no state file, a full `migrate_up` followed by a `migrate_down` of as many files returns the stems in reverse and leaves an empty saved state |
| Migration.StatusAllApplied | restack_gen/migration.py:133-159 | when every file's stem is in the saved applied set, every entry `get_status` returns is applied |
| Migration.StatusAfterUp | restack_gen/migration.py:133-201 | after a full `migrate_up`, `get_status` reports every file applied |
| Project.ValidateProjectName | restack_gen/project.py:10-46 | the checks run in the order empty, pattern, keyword, reserved, each with its message; a name is valid exactly when the message is empty, and then it matches the pattern and is neither a keyword nor reserved |
| Project.ChecksDoNotOverlap | restack_gen/project.py:36-44 | keywords and reserved words do not overlap, so each rejected name has one reason |
| Project.ValidNamesShape | restack_gen/project.py:29-33 | a valid name starts with a lower-case letter and has only lower-case letters, digits and `_`, except possibly one final newline |
| Project.ListedRejected | restack_gen/project.py:35-44 | every keyword and every reserved word is rejected |
| Project.KeywordEndsInLetter | restack_gen/project.py:35-39 | no Python keyword ends in a newline, so the keyword check compares a newline-terminated name against nothing it could equal |
| Project.NewlineSuffixAccepted | restack_gen/project.py:29-44 | any lower-case identifier followed by one newline is accepted, even when the identifier is a keyword or reserved word; the string itself is not an identifier |
| Project.TrailingNewlineAccepted | restack_gen/project.py:29-33 | "demo\n" is accepted although it is not an identifier |
| Project.ReservedWithNewlineAccepted | restack_gen/project.py:29-44 | "test" is rejected but "test\n" is accepted |
| Project.KeywordWithNewlineAccepted | restack_gen/project.py:29-39 | "class" is rejected but "class\n" is accepted |
| Project.ValidateProjectNameStrict | restack_gen/project.py:29-33 | the corrected check: a name is valid exactly when it is a whole lower-case identifier that is neither a keyword nor reserved |
| Project.StrictAgreesWithoutNewline | restack_gen/project.py:29-33 | the corrected check agrees with the written one on every name not ending in a newline and rejects every name that does |
| Doctor.Priority | restack_gen/doctor.py:35-36 | the priority is 0 exactly for ok and 2 exactly for fail |
| Doctor.PriorityInjective | restack_gen/doctor.py:35-36 | ok < warn < fail, and distinct statuses never tie |
| Doctor.CheckPythonVersion | restack_gen/doctor.py:39-48 | the check is "ok" exactly when (major, minor) is at least the minimum in lexicographic order, and "fail" otherwise; it is never "warn" |
| Doctor.CheckPythonVersionMonotone | restack_gen/doctor.py:44-47 | a newer interpreter never fails where an older one passes, and the micro version plays no part |
| Doctor.DefaultBaseline | restack_gen/doctor.py:39 | the default minimum is 3.11: 3.10 and 2.12 fail, 3.11 and 4.0 pass |
| Doctor.CountsAddUp | restack_gen/doctor.py:154-157 | the ok, warn and fail counts add up to the number of results |
| Doctor.Summarize | restack_gen/doctor.py:149-161 | the counts are the numbers of ok, warn and fail results; overall is "ok" for no results and otherwise a status that occurs in them with no result of higher priority |
| Runner.ParseStripped | restack_gen/runner.py:66-69 | a stripped line assigns nothing exactly when it is empty, starts with `#`, or has no `=` |
| Runner.ValueKeepsLaterEquals | restack_gen/runner.py:65-69 | a line splits at its first `=`; key and value are each stripped and the value keeps any later `=` |
| Runner.EmptyValueKept | restack_gen/runner.py:67-69 | an empty value is kept as "" |
| Runner.CommentSkipped | restack_gen/runner.py:66 | a comment line is skipped even when it contains `=` |
| Runner.LoadEnvFile | restack_gen/runner.py:49-71 | a missing file gives an empty map; every loaded pair comes from some line |
| Runner.LastAssignmentWins | restack_gen/runner.py:64-69 | a key is loaded when some line assigns it, with the value of the last such line |
| Runner.LoadEnvFileLastWins | restack_gen/runner.py:61-71 | at the file level, a later duplicate key overwrites an earlier one |
| Runner.UnassignedAbsent | restack_gen/runner.py:64-69 | a key no line assigns is not loaded |
| Runner.ServiceEnvironment | restack_gen/runner.py:96-101 | the environment has the keys of the process environment and the `.env` file, plus `RESTACK_CONFIG` for a non-empty config path; `.env` values override the process, and the config path overrides both |
| Runner.ConfigPrecedence | restack_gen/runner.py:96-101 | without a config path a process `RESTACK_CONFIG` survives unless `.env` sets it; an empty config path counts as none |
| Stats.CategoryKeysDistinct | restack_gen/stats.py:61-87 | the twelve category keys are distinct |
| Migration.MigrationFileStem | restack_gen/migration.py:74-82 | for every file the scan keeps, the stem is the name without `.py` |
| Stats.NoDotNotCounted | restack_gen/stats.py:53 | a file name without a dot is never counted |
| Stats.MakefileNeverCounted | restack_gen/stats.py:53-84 | "Makefile" is never counted, though it is listed as a root config name |
| Stats.CategoriseSpec | restack_gen/stats.py:61-85 | tests, client, config and server as the first segment decide first; `src/<project>/<dir>` gives agent, workflow, function, common or tool; elsewhere pyproject.toml, Makefile and README.md are root_config; each both ways |
| Stats.CategoriseTemplate | restack_gen/stats.py:84-87 | past those rules and not a root-config name, a path is template exactly when "template" occurs in it |
| Stats.SourceNeverFallsThrough | restack_gen/stats.py:72-83 | a `src/` path of more than two segments is never root_config or template |
| Stats.RootConfigAnyDepth | restack_gen/stats.py:84-85 | outside those directories, pyproject.toml and README.md are root_config at any depth |
| Stats.Bump | restack_gen/stats.py:89-92 | adding a file makes its category a key, adds one file and its lines to that category's totals (starting from zero), and leaves every other category as it was |
| Stats.Scan | restack_gen/stats.py:52-96 | a category appears in the results exactly when some counted, readable file falls in it |
| Stats.ScanTallies | restack_gen/stats.py:52-92 | each category's `total_files` and `total_lines` are the number of counted, readable files that fall in it and the sum of their lines, counted independently of the scan; an absent category has none |
| Stats.TotalsCountEveryFile | restack_gen/stats.py:89-101 | the file and line totals are the sums over the categories, and equal the counted readable files and their lines |
| Stats.RunStatsReport | restack_gen/stats.py:45-109 | no project name is the "Could not determine project name" error; otherwise the totals equal the tallied files and lines, and `results` is the per-category scan, whose entries Stats.ScanTallies gives |

## Left out

- Filesystem discovery is not modelled. This covers:
  - the project root and project name;
  - the directory listings of `get_project_resources`;
  - `rglob` and file reading in the stats report;
  - the migration directory listing.

  Each of these becomes a parameter: a table, a list of file names, or a
  list of paths with line counts. The order within a directory listing is
  whatever the parameter says.
- `parse_and_validate` (restack_gen/parser.py:511) is not modelled. It only chains `Parse` and `ValidateIr`.
- restack_gen/ast_service.py is not part of this model. It relies on Python's `ast` module.
- Process plumbing is not modelled: `start_service`'s subprocess and
  signal handling, the runner's migration wrappers, doctor's dependency,
  project and git checks, and `run_all_checks`.
- The migration state file's JSON encoding and save failures are not
  modelled. The state file is given as missing, unreadable or a state,
  and a save always succeeds.
- Loading a migration module with `importlib` and calling `up()`/`down()`
  is not modelled as code. Each file's behaviour is an oracle: it loads or
  not, and `up()` and `down()` succeed or fail.
- Time is a parameter. The clock is the function `now`, which maps each applied stem to the `datetime.now().isoformat()` string read when that migration ran, as opaque text. The ordering of those readings is not modelled.
- Migration.GetStatus: the `applied_at` field of an entry is stated only in Migration.StatusWithoutStateFile; in general the contract speaks of `applied`, the timestamp and the name.
- Floating-point file sizes (`size_kb`) in the stats report are not modelled. An unreadable file is an entry with no line count, which the `except` branch skips.
- Rich console rendering, Jinja templates (`renderer.py`), the pydantic shim (`compat.py`) and the CLI (`cli.py`) are not modelled.
- Unicode is not modelled. `isspace`, `isalnum`, `isupper`, `islower`,
  `lower` and `capitalize` follow their ASCII behaviour, plus the
  operator code points `→` and `⇄`. Non-ASCII letters in names are not
  name characters here.
- The message text of the cycle error (restack_gen/validator.py:89-92) is not modelled. The branch never runs; `Validator.NoCycleEver` proves that.
- `get_graph_metrics`'s dictionary is the `Metrics` record. `get_dependencies` returns its `NameError` and `KeyError` as `Err` strings rather than exceptions.
- Codegen.StmtsActivities: stated only for trees whose Parallel nodes have only leaf children. Any other Parallel emits a TODO comment and runs no activity.
- Generated Python is not proved well-formed. Only the statement shapes are stated, because a conditional whose branch is a composite Parallel emits an `if` whose body is only a comment.
- Render: the printer places every token at offset 0. The parser ignores offsets except in error messages, so the round trip is stated over token kinds and texts.
- Python's recursion limit is not modelled. The parser, the validator's
  walks and the generator recurse once per nesting level, and CPython stops
  at about 1000 frames. An input such as 250 opening parentheses, `A` and
  250 closing parentheses raises `RecursionError` in CPython but
  parses in the model, and the validator and code generator accept its
  tree the same way.
- Text.Suffix: follows `PurePath.suffix` for the single-segment file names it is applied to. Trailing-dot and dot-only names give no suffix, as in pathlib.

## Findings

| source | as written | input that shows it | evidently intended | confidence | as-written member | corrected member |
|---|---|---|---|---|---|---|
| restack_gen/project.py:29-33 | `re.match(r"^[a-z][a-z0-9_]*$", name)` accepts a name that ends in one newline, because `$` also matches before a final `\n`; the keyword and reserved-word checks then compare the whole string and miss | "demo\n", "test\n" and "class\n" are all accepted | the whole name is a lower-case identifier (`re.fullmatch`, or `\Z`), so these three are rejected | not executed | Project.ValidateProjectName, Project.NewlineSuffixAccepted, Project.ReservedWithNewlineAccepted | Project.ValidateProjectNameStrict, Project.StrictAgreesWithoutNewline |

=== FILE: codegen.dfy ===
/** Python source generation from a pipeline tree (restack_gen/codegen.py):
    the snake-case helper, the import list, the per-node code and the
    workflow wrapper. */
module Codegen {
  import opened Wrappers
  import opened Text
  import opened IR

  // ---------------------------------------------------------------------
  // _to_snake_case
  // ---------------------------------------------------------------------

  /** An `_` goes before an uppercase letter whose predecessor is lowercase. */
  predicate Boundary(name: string, i: nat)
    requires i < |name|
  {
    IsUpper(name[i]) && i > 0 && IsLower(name[i - 1])
  }

  /** What position `i` contributes to the result. */
  function SnakePiece(name: string, i: nat): string
    requires i < |name|
  {
    (if Boundary(name, i) then "_" else "") + [LowerChar(name[i])]
  }

  /** The result after the loop has visited the first `k` characters. */
  function SnakePrefix(name: string, k: nat): string
    requires k <= |name|
  {
    if k == 0 then "" else SnakePrefix(name, k - 1) + SnakePiece(name, k - 1)
  }

  /** `_to_snake_case`. */
  function SnakeCase(name: string): string {
    SnakePrefix(name, |name|)
  }

  predicate NoUpper(s: string) {
    forall i :: 0 <= i < |s| ==> !IsUpper(s[i])
  }

  function Boundaries(name: string, k: nat): nat
    requires k <= |name|
  {
    if k == 0 then 0 else Boundaries(name, k - 1) + (if Boundary(name, k - 1) then 1 else 0)
  }

  /** The string with every `_` removed. */
  function DropUnderscores(s: string): string {
    if s == [] then [] else DropUnderscores(s[..|s| - 1]) + (if s[|s| - 1] == '_' then [] else [s[|s| - 1]])
  }

  lemma {:induction false} DropUnderscoresAppend(a: string, b: string)
    ensures DropUnderscores(a + b) == DropUnderscores(a) + DropUnderscores(b)
    decreases |b|
  {
    if b == [] {
      assert a + b == a;
    } else {
      assert (a + b)[..|a + b| - 1] == a + b[..|b| - 1];
      DropUnderscoresAppend(a, b[..|b| - 1]);
    }
  }

  lemma PieceFacts(name: string, i: nat)
    requires i < |name|
    ensures NoUpper(SnakePiece(name, i))
    ensures |SnakePiece(name, i)| == 1 + (if Boundary(name, i) then 1 else 0)
    ensures DropUnderscores(SnakePiece(name, i)) == DropUnderscores([LowerChar(name[i])])
  {
    var piece := SnakePiece(name, i);
    assert piece[|piece| - 1] == LowerChar(name[i]);
    if Boundary(name, i) {
      DropUnderscoresAppend("_", [LowerChar(name[i])]);
      assert DropUnderscores("_") == [] by {
        assert "_"[..0] == [];
      }
    }
  }

  /** The result has no uppercase letter and is as long as the input plus
      one per boundary. */
  lemma {:induction false} SnakePrefixShape(name: string, k: nat)
    requires k <= |name|
    ensures NoUpper(SnakePrefix(name, k))
    ensures |SnakePrefix(name, k)| == k + Boundaries(name, k)
  {
    if k > 0 {
      SnakePrefixShape(name, k - 1);
      PieceFacts(name, k - 1);
    }
  }

  lemma LowerSnoc(name: string, k: nat)
    requires 0 < k <= |name|
    ensures Lower(name[..k]) == Lower(name[..k - 1]) + [LowerChar(name[k - 1])]
  {
    var a, b := Lower(name[..k]), Lower(name[..k - 1]) + [LowerChar(name[k - 1])];
    assert |a| == |b|;
    forall i | 0 <= i < |a| ensures a[i] == b[i] {
      if i < k - 1 {
        assert name[..k][i] == name[..k - 1][i];
      }
    }
  }

  /** Apart from the inserted underscores the result is the lowercased input. */
  lemma {:induction false} SnakePrefixLetters(name: string, k: nat)
    requires k <= |name|
    ensures DropUnderscores(SnakePrefix(name, k)) == DropUnderscores(Lower(name[..k]))
  {
    if k > 0 {
      SnakePrefixLetters(name, k - 1);
      PieceFacts(name, k - 1);
      DropUnderscoresAppend(SnakePrefix(name, k - 1), SnakePiece(name, k - 1));
      LowerSnoc(name, k);
      DropUnderscoresAppend(Lower(name[..k - 1]), [LowerChar(name[k - 1])]);
    }
  }

  lemma SnakeCaseFacts(name: string)
    ensures NoUpper(SnakeCase(name))
    ensures |SnakeCase(name)| == |name| + Boundaries(name, |name|)
    ensures DropUnderscores(SnakeCase(name)) == DropUnderscores(Lower(name))
  {
    SnakePrefixShape(name, |name|);
    SnakePrefixLetters(name, |name|);
    assert name[..|name|] == name;
  }

  /** A string with no uppercase letter is its own snake case. */
  lemma {:induction false} SnakeCaseOfLower(s: string, k: nat)
    requires NoUpper(s) && k <= |s|
    ensures SnakePrefix(s, k) == s[..k]
  {
    if k > 0 {
      SnakeCaseOfLower(s, k - 1);
      assert s[..k] == s[..k - 1] + [s[k - 1]];
    }
  }

  /** Applying `_to_snake_case` twice gives the same result as once. */
  lemma SnakeCaseIdempotent(name: string)
    ensures SnakeCase(SnakeCase(name)) == SnakeCase(name)
  {
    var s := SnakeCase(name);
    SnakeCaseFacts(name);
    SnakeCaseOfLower(s, |s|);
    assert s[..|s|] == s;
  }

  /** Two worked examples: a boundary becomes `_`, a run of capitals does not. */
  lemma SnakeCaseExamples()
    ensures SnakeCase("DataCollector") == "data_collector"
    ensures SnakeCase("HTTPClient") == "httpclient"
  {
    var d := "DataCollector";
    assert SnakePrefix(d, 1) == "d";
    assert SnakePrefix(d, 2) == "da";
    assert SnakePrefix(d, 3) == "dat";
    assert SnakePrefix(d, 4) == "data";
    assert SnakePrefix(d, 5) == "data_c";
    assert SnakePrefix(d, 6) == "data_co";
    assert SnakePrefix(d, 7) == "data_col";
    assert SnakePrefix(d, 8) == "data_coll";
    assert SnakePrefix(d, 9) == "data_colle";
    assert SnakePrefix(d, 10) == "data_collec";
    assert SnakePrefix(d, 11) == "data_collect";
    assert SnakePrefix(d, 12) == "data_collecto";
    assert SnakePrefix(d, 13) == "data_collector";
    var h := "HTTPClient";
    assert SnakePrefix(h, 1) == "h";
    assert SnakePrefix(h, 2) == "ht";
    assert SnakePrefix(h, 3) == "htt";
    assert SnakePrefix(h, 4) == "http";
    assert SnakePrefix(h, 5) == "httpc";
    assert SnakePrefix(h, 6) == "httpcl";
    assert SnakePrefix(h, 7) == "httpcli";
    assert SnakePrefix(h, 8) == "httpclie";
    assert SnakePrefix(h, 9) == "httpclien";
    assert SnakePrefix(h, 10) == "httpclient";
  }

  // ---------------------------------------------------------------------
  // _collect_resources and generate_imports
  // ---------------------------------------------------------------------

  /** `_collect_resources`: leaves in depth-first order, duplicates kept.
      For a Conditional it is also called on the condition string and on a
      possibly-None false branch; neither is a node, so both add nothing. */
  function CollectNodes(n: Node): (r: seq<Node>)
    ensures forall k :: 0 <= k < |r| ==> r[k].Resource?
  {
    match n
    case Resource(_, _) => [n]
    case Sequence(cs) => CollectChildren(cs)
    case Parallel(cs) => CollectChildren(cs)
    case Conditional(_, t, f) => [] + CollectNodes(t) + (if f.Some? then CollectNodes(f.value) else [])
  }

  function CollectChildren(cs: seq<Node>): (r: seq<Node>)
    ensures forall k :: 0 <= k < |r| ==> r[k].Resource?
  {
    if cs == [] then [] else CollectNodes(cs[0]) + CollectChildren(cs[1..])
  }

  /** The generator's walk finds the same leaves as the tree's own walk. */
  lemma {:induction false} CollectNodesIsLeaves(n: Node)
    ensures CollectNodes(n) == Leaves(n)
  {
    match n
    case Resource(_, _) =>
    case Sequence(cs) => CollectChildrenIsLeavesOf(cs);
    case Parallel(cs) => CollectChildrenIsLeavesOf(cs);
    case Conditional(_, t, f) =>
      CollectNodesIsLeaves(t);
      if f.Some? {
        CollectNodesIsLeaves(f.value);
      }
  }

  lemma {:induction false} CollectChildrenIsLeavesOf(cs: seq<Node>)
    ensures CollectChildren(cs) == LeavesOf(cs)
  {
    if cs != [] {
      CollectNodesIsLeaves(cs[0]);
      CollectChildrenIsLeavesOf(cs[1..]);
    }
  }

  const WORKFLOW_IMPORT: string := "from restack_ai import Workflow, step"

  /** `[r.name for r in resources if r.resource_type == t]`. */
  function TypedNames(leaves: seq<Node>, t: string): (r: seq<string>)
    requires forall k :: 0 <= k < |leaves| ==> leaves[k].Resource?
    ensures forall x :: x in r <==> exists k :: 0 <= k < |leaves| && leaves[k].name == x && leaves[k].rtype == t
  {
    if leaves == [] then []
    else
      var rest := TypedNames(leaves[1..], t);
      assert forall k :: 1 <= k < |leaves| ==> leaves[k] == leaves[1..][k - 1];
      (if leaves[0].rtype == t then [leaves[0].name] else []) + rest
  }

  function ImportLine(project: string, dir: string, name: string): string {
    "from " + project + "." + dir + "." + SnakeCase(name) + " import " + name
  }

  function ImportLines(project: string, dir: string, names: seq<string>): (r: seq<string>)
    ensures |r| == |names| && forall i :: 0 <= i < |r| ==> r[i] == ImportLine(project, dir, names[i])
  {
    seq(|names|, i requires 0 <= i < |names| => ImportLine(project, dir, names[i]))
  }

  /** The `for x in sorted(set(xs))` loop: one line per distinct name, in
      sorted order. */
  function GroupImports(project: string, dir: string, names: seq<string>): seq<string> {
    ImportLines(project, dir, SortDistinct(names))
  }

  /** The distinct names of the leaves typed `t`, sorted. */
  function ImportedNames(ir: Node, t: string): seq<string> {
    SortDistinct(TypedNames(CollectNodes(ir), t))
  }

  /** `generate_imports`: the Workflow import, then agents, workflows and
      functions. */
  function GenerateImports(ir: Node, project: string): seq<string> {
    var resources := CollectNodes(ir);
    [WORKFLOW_IMPORT]
    + GroupImports(project, "agents", TypedNames(resources, AGENT))
    + GroupImports(project, "workflows", TypedNames(resources, WORKFLOW))
    + GroupImports(project, "functions", TypedNames(resources, FUNCTION))
  }

  /** A group lists, in strictly increasing order, exactly the names of the
      leaves carrying that type. */
  lemma ImportedNamesSpec(ir: Node, t: string)
    ensures StrictlySorted(ImportedNames(ir, t))
    ensures forall x :: x in ImportedNames(ir, t) <==> exists l :: l in Leaves(ir) && l.name == x && l.rtype == t
  {
    CollectNodesIsLeaves(ir);
    var ls := Leaves(ir);
    forall x ensures x in ImportedNames(ir, t) <==> exists l :: l in ls && l.name == x && l.rtype == t {
      if exists l :: l in ls && l.name == x && l.rtype == t {
        var l :| l in ls && l.name == x && l.rtype == t;
        var k :| 0 <= k < |ls| && ls[k] == l;
        assert ls[k].name == x && ls[k].rtype == t;
      }
    }
  }

  /** The Workflow import comes first, the three groups follow in order, and
      nothing else (no asyncio import) is ever added. */
  lemma GenerateImportsSpec(ir: Node, project: string)
    ensures GenerateImports(ir, project) ==
            [WORKFLOW_IMPORT]
            + ImportLines(project, "agents", ImportedNames(ir, AGENT))
            + ImportLines(project, "workflows", ImportedNames(ir, WORKFLOW))
            + ImportLines(project, "functions", ImportedNames(ir, FUNCTION))
    ensures GenerateImports(ir, project)[0] == WORKFLOW_IMPORT
    ensures |GenerateImports(ir, project)| ==
            1 + |ImportedNames(ir, AGENT)| + |ImportedNames(ir, WORKFLOW)| + |ImportedNames(ir, FUNCTION)|
  {
  }

  /** Leaves still typed "unknown" produce no import at all. */
  lemma UnknownLeavesNotImported(ir: Node, project: string)
    requires forall l :: l in Leaves(ir) ==> l.rtype == UNKNOWN
    ensures GenerateImports(ir, project) == [WORKFLOW_IMPORT]
  {
    ImportedNamesSpec(ir, AGENT);
    ImportedNamesSpec(ir, WORKFLOW);
    ImportedNamesSpec(ir, FUNCTION);
    GenerateImportsSpec(ir, project);
    EmptyGroup(ir, AGENT);
    EmptyGroup(ir, WORKFLOW);
    EmptyGroup(ir, FUNCTION);
  }

  lemma EmptyGroup(ir: Node, t: string)
    requires t != UNKNOWN && forall l :: l in Leaves(ir) ==> l.rtype == UNKNOWN
    ensures ImportedNames(ir, t) == []
  {
    CollectNodesIsLeaves(ir);
    var ls := Leaves(ir);
    assert forall k :: 0 <= k < |ls| ==> ls[k] in ls;
    TypedNamesNone(ls, t);
  }

  lemma {:induction false} TypedNamesNone(leaves: seq<Node>, t: string)
    requires forall k :: 0 <= k < |leaves| ==> leaves[k].Resource? && leaves[k].rtype != t
    ensures TypedNames(leaves, t) == []
  {
    if leaves != [] {
      TypedNamesNone(leaves[1..], t);
    }
  }

  // ---------------------------------------------------------------------
  // _generate_node_code and the per-kind generators
  // ---------------------------------------------------------------------

  /** Four spaces per indentation level. */
  function Indent(level: nat): string {
    Spaces(level * 4)
  }

  function ActivityName(name: string): string {
    SnakeCase(name) + "_activity"
  }

  function ActivityCall(name: string, v: string): string {
    "self.execute_activity(" + ActivityName(name) + ", " + v + ")"
  }

  const TODO_PARALLEL: string := "# TODO: Handle complex parallel execution"

  predicate AllLeaves(cs: seq<Node>) {
    forall k :: 0 <= k < |cs| ==> cs[k].Resource?
  }

  /** `_generate_node_code`, with `v` the result variable. */
  function NodeCode(n: Node, level: nat, v: string): string {
    match n
    case Resource(name, _) => ResourceCode(name, level, v)
    case Sequence(cs) => SequenceCode(cs, level, v)
    case Parallel(cs) => ParallelCode(cs, level, v)
    case Conditional(c, t, f) =>
      Indent(level) + "if " + v + ".get('" + c + "'):\n"
      + NodeCode(t, level + 1, v)
      + (if f.Some? then Indent(level) + "else:\n" + NodeCode(f.value, level + 1, v) else "")
  }

  /** `_generate_resource_code`. */
  function ResourceCode(name: string, level: nat, v: string): string {
    Indent(level) + v + " = await self.execute_activity(" + ActivityName(name) + ", " + v + ")\n"
  }

  /** `generate_sequence_code`: the children's code, one after another. */
  function SequenceCode(cs: seq<Node>, level: nat, v: string): string {
    if cs == [] then "" else NodeCode(cs[0], level, v) + SequenceCode(cs[1..], level, v)
  }

  /** `generate_parallel_code`: one `asyncio.gather` over the children's
      activities when every child is a leaf, a TODO comment otherwise. */
  function ParallelCode(cs: seq<Node>, level: nat, v: string): string {
    if AllLeaves(cs) then
      var activities := GatherArgs(cs, level + 1, v);
      Indent(level) + "results = await asyncio.gather(\n" + Join(activities, ",\n") + "\n"
      + Indent(level) + ")\n" + Indent(level) + v + " = results\n"
    else
      Indent(level) + TODO_PARALLEL + "\n"
  }

  /** The `activities` list of `generate_parallel_code`. */
  function GatherArgs(cs: seq<Node>, level: nat, v: string): (r: seq<string>)
    requires AllLeaves(cs)
    ensures |r| == |cs| && forall i :: 0 <= i < |cs| ==> r[i] == Indent(level) + ActivityCall(cs[i].name, v)
  {
    seq(|cs|, i requires 0 <= i < |cs| && cs[i].Resource? => Indent(level) + ActivityCall(cs[i].name, v))
  }

  // ---------------------------------------------------------------------
  // The generated code as a list of statements
  // ---------------------------------------------------------------------

  /** One generated line, by kind. */
  datatype Stmt =
    | Call(level: nat, activity: string, target: string)
    | GatherOpen(level: nat)
    | GatherItem(level: nat, activity: string, target: string, last: bool)
    | GatherClose(level: nat)
    | TakeResults(level: nat, target: string)
    | If(level: nat, target: string, condition: string)
    | Else(level: nat)
    | Todo(level: nat)
    | Blank

  /** The text of a line, newline included. */
  function Line(s: Stmt): string {
    match s
    case Call(l, a, t) => Indent(l) + t + " = await self.execute_activity(" + a + ", " + t + ")\n"
    case GatherOpen(l) => Indent(l) + "results = await asyncio.gather(\n"
    case GatherItem(l, a, t, last) =>
      Indent(l) + "self.execute_activity(" + a + ", " + t + ")" + (if last then "\n" else ",\n")
    case GatherClose(l) => Indent(l) + ")\n"
    case TakeResults(l, t) => Indent(l) + t + " = results\n"
    case If(l, t, c) => Indent(l) + "if " + t + ".get('" + c + "'):\n"
    case Else(l) => Indent(l) + "else:\n"
    case Todo(l) => Indent(l) + TODO_PARALLEL + "\n"
    case Blank => "\n"
  }

  function Emit(ss: seq<Stmt>): string {
    if ss == [] then "" else Line(ss[0]) + Emit(ss[1..])
  }

  lemma {:induction false} EmitAppend(a: seq<Stmt>, b: seq<Stmt>)
    ensures Emit(a + b) == Emit(a) + Emit(b)
  {
    if a == [] {
      assert a + b == b;
    } else {
      assert (a + b)[0] == a[0] && (a + b)[1..] == a[1..] + b;
      EmitAppend(a[1..], b);
    }
  }

  /** The statements a node generates. */
  function Stmts(n: Node, level: nat, v: string): seq<Stmt> {
    match n
    case Resource(name, _) => [Call(level, ActivityName(name), v)]
    case Sequence(cs) => StmtsAll(cs, level, v)
    case Parallel(cs) => ParallelStmts(cs, level, v)
    case Conditional(c, t, f) =>
      [If(level, v, c)] + Stmts(t, level + 1, v)
      + (if f.Some? then [Else(level)] + Stmts(f.value, level + 1, v) else [])
  }

  function StmtsAll(cs: seq<Node>, level: nat, v: string): seq<Stmt> {
    if cs == [] then [] else Stmts(cs[0], level, v) + StmtsAll(cs[1..], level, v)
  }

  function ParallelStmts(cs: seq<Node>, level: nat, v: string): seq<Stmt> {
    if AllLeaves(cs) then
      var open, close := [GatherOpen(level)], [GatherClose(level), TakeResults(level, v)];
      open + GatherItems(cs, level + 1, v) + close
    else [Todo(level)]
  }

  /** One item per child, the last without a trailing comma; no children
      leave an empty line between the parentheses. */
  function GatherItems(cs: seq<Node>, level: nat, v: string): seq<Stmt>
    requires AllLeaves(cs)
  {
    if cs == [] then [Blank]
    else if |cs| == 1 then [GatherItem(level, ActivityName(cs[0].name), v, true)]
    else [GatherItem(level, ActivityName(cs[0].name), v, false)] + GatherItems(cs[1..], level, v)
  }

  lemma ItemLine(name: string, level: nat, v: string, last: bool)
    ensures Line(GatherItem(level, ActivityName(name), v, last)) ==
            Indent(level) + ActivityCall(name, v) + (if last then "\n" else ",\n")
  {
  }

  lemma JoinStep(x: string, rest: seq<string>)
    requires |rest| >= 1
    ensures Join([x] + rest, ",\n") == x + ",\n" + Join(rest, ",\n")
  {
    var xs := [x] + rest;
    assert xs[0] == x && xs[1..] == rest;
  }

  lemma {:induction false} GatherItemsText(cs: seq<Node>, level: nat, v: string)
    requires AllLeaves(cs)
    ensures Join(GatherArgs(cs, level, v), ",\n") + "\n" == Emit(GatherItems(cs, level, v))
  {
    var args := GatherArgs(cs, level, v);
    if |cs| == 1 {
      ItemLine(cs[0].name, level, v, true);
    } else if |cs| >= 2 {
      var rest := GatherArgs(cs[1..], level, v);
      var restItems := GatherItems(cs[1..], level, v);
      GatherItemsText(cs[1..], level, v);
      assert args == [args[0]] + rest;
      JoinStep(args[0], rest);
      ItemLine(cs[0].name, level, v, false);
      var items := GatherItems(cs, level, v);
      assert items == [items[0]] + restItems;
      assert Emit(items) == Line(items[0]) + Emit(restItems);
    }
  }

  /** The generated text is exactly the statements' lines. */
  lemma {:induction false} CodeIsStmts(n: Node, level: nat, v: string)
    ensures NodeCode(n, level, v) == Emit(Stmts(n, level, v))
  {
    match n
    case Resource(_, _) =>
    case Sequence(cs) => CodeIsStmtsAll(cs, level, v);
    case Parallel(cs) => ParallelIsStmts(cs, level, v);
    case Conditional(c, t, f) =>
      CodeIsStmts(t, level + 1, v);
      if f.Some? {
        CodeIsStmts(f.value, level + 1, v);
      }
      ConditionalIsStmts(c, t, f, level, v);
  }

  lemma ParallelIsStmts(cs: seq<Node>, level: nat, v: string)
    ensures ParallelCode(cs, level, v) == Emit(ParallelStmts(cs, level, v))
  {
    if AllLeaves(cs) {
      var items := GatherItems(cs, level + 1, v);
      var open, close := [GatherOpen(level)], [GatherClose(level), TakeResults(level, v)];
      var o, cl, tk := Line(GatherOpen(level)), Line(GatherClose(level)), Line(TakeResults(level, v));
      var jn := Join(GatherArgs(cs, level + 1, v), ",\n");
      GatherItemsText(cs, level + 1, v);
      assert ParallelCode(cs, level, v) == o + jn + "\n" + cl + tk;
      EmitTwo(GatherClose(level), TakeResults(level, v));
      EmitAppend(open + items, close);
      EmitAppend(open, items);
      assert Emit(open) == o;
      Regroup(o, jn, cl, tk);
    }
  }

  lemma Regroup(o: string, jn: string, cl: string, tk: string)
    ensures o + jn + "\n" + cl + tk == o + (jn + "\n") + (cl + tk)
  {
  }

  lemma EmitTwo(a: Stmt, b: Stmt)
    ensures Emit([a, b]) == Line(a) + Line(b)
  {
    assert [a, b] == [a] + [b];
    EmitCons(a, [b]);
    EmitCons(b, []);
    assert [b] + [] == [b];
  }

  lemma ConditionalIsStmts(c: string, t: Node, f: Option<Node>, level: nat, v: string)
    requires NodeCode(t, level + 1, v) == Emit(Stmts(t, level + 1, v))
    requires f.Some? ==> NodeCode(f.value, level + 1, v) == Emit(Stmts(f.value, level + 1, v))
    ensures NodeCode(Conditional(c, t, f), level, v) == Emit(Stmts(Conditional(c, t, f), level, v))
  {
    var h := If(level, v, c);
    var body := Stmts(t, level + 1, v);
    if f.Some? {
      var fs := Stmts(f.value, level + 1, v);
      var tail := [Else(level)] + fs;
      var fc := Indent(level) + "else:\n" + NodeCode(f.value, level + 1, v);
      assert NodeCode(Conditional(c, t, f), level, v) == Line(h) + NodeCode(t, level + 1, v) + fc;
      assert Stmts(Conditional(c, t, f), level, v) == [h] + body + tail;
      EmitCons(Else(level), fs);
      EmitHeadBodyTail(h, body, tail);
    } else {
      assert NodeCode(Conditional(c, t, f), level, v) == Line(h) + NodeCode(t, level + 1, v) + "";
      assert Stmts(Conditional(c, t, f), level, v) == [h] + body + [];
      EmitHeadBodyTail(h, body, []);
    }
  }

  lemma EmitCons(s: Stmt, rest: seq<Stmt>)
    ensures Emit([s] + rest) == Line(s) + Emit(rest)
  {
    assert ([s] + rest)[1..] == rest;
  }

  lemma EmitHeadBodyTail(h: Stmt, body: seq<Stmt>, tail: seq<Stmt>)
    ensures Emit([h] + body + tail) == Line(h) + Emit(body) + Emit(tail)
  {
    EmitAppend([h] + body, tail);
    EmitCons(h, body);
  }

  lemma {:induction false} CodeIsStmtsAll(cs: seq<Node>, level: nat, v: string)
    ensures SequenceCode(cs, level, v) == Emit(StmtsAll(cs, level, v))
  {
    if cs != [] {
      CodeIsStmts(cs[0], level, v);
      CodeIsStmtsAll(cs[1..], level, v);
      EmitAppend(Stmts(cs[0], level, v), StmtsAll(cs[1..], level, v));
    }
  }

  // ---------------------------------------------------------------------
  // What the statements say
  // ---------------------------------------------------------------------

  /** Every line is at `level` or deeper (the empty line an empty gather
      leaves has no indentation of its own). */
  predicate IndentedFrom(ss: seq<Stmt>, level: nat) {
    forall i :: 0 <= i < |ss| ==> ss[i].Blank? || ss[i].level >= level
  }

  /** Every line that reads or writes a variable uses `v`. */
  predicate UsesOnly(ss: seq<Stmt>, v: string) {
    forall i :: 0 <= i < |ss| ==>
      (ss[i].Call? || ss[i].GatherItem? || ss[i].TakeResults? || ss[i].If?) ==> ss[i].target == v
  }

  /** Both properties, which a concatenation inherits from its parts. */
  predicate Placed(ss: seq<Stmt>, level: nat, v: string) {
    IndentedFrom(ss, level) && UsesOnly(ss, v)
  }

  lemma PlacedAppend(a: seq<Stmt>, b: seq<Stmt>, level: nat, v: string)
    requires Placed(a, level, v) && Placed(b, level, v)
    ensures Placed(a + b, level, v)
  {
    assert forall i :: |a| <= i < |a + b| ==> (a + b)[i] == b[i - |a|];
  }

  /** Each line of a node's code sits at the node's level or deeper, and
      every line touching a variable touches the result variable. */
  lemma {:induction false} StmtsPlaced(n: Node, level: nat, v: string)
    ensures Placed(Stmts(n, level, v), level, v)
  {
    match n
    case Resource(_, _) =>
    case Sequence(cs) => StmtsAllPlaced(cs, level, v);
    case Parallel(cs) =>
      if AllLeaves(cs) {
        GatherItemsPlaced(cs, level + 1, v);
        var open, close := [GatherOpen(level)], [GatherClose(level), TakeResults(level, v)];
        PlacedAppend(open, GatherItems(cs, level + 1, v), level, v);
        PlacedAppend(open + GatherItems(cs, level + 1, v), close, level, v);
      }
    case Conditional(c, t, f) =>
      StmtsPlaced(t, level + 1, v);
      var head := [If(level, v, c)] + Stmts(t, level + 1, v);
      PlacedAppend([If(level, v, c)], Stmts(t, level + 1, v), level, v);
      if f.Some? {
        StmtsPlaced(f.value, level + 1, v);
        PlacedAppend([Else(level)], Stmts(f.value, level + 1, v), level, v);
        PlacedAppend(head, [Else(level)] + Stmts(f.value, level + 1, v), level, v);
      } else {
        assert head + [] == head;
      }
  }

  lemma {:induction false} StmtsAllPlaced(cs: seq<Node>, level: nat, v: string)
    ensures Placed(StmtsAll(cs, level, v), level, v)
  {
    if cs != [] {
      StmtsPlaced(cs[0], level, v);
      StmtsAllPlaced(cs[1..], level, v);
      PlacedAppend(Stmts(cs[0], level, v), StmtsAll(cs[1..], level, v), level, v);
    }
  }

  lemma {:induction false} GatherItemsPlaced(cs: seq<Node>, level: nat, v: string)
    requires AllLeaves(cs)
    ensures Placed(GatherItems(cs, level, v), level, v)
  {
    if |cs| >= 2 {
      GatherItemsPlaced(cs[1..], level, v);
      PlacedAppend([GatherItem(level, ActivityName(cs[0].name), v, false)], GatherItems(cs[1..], level, v), level, v);
    }
  }

  /** The activities the lines run, in order. */
  function Activities(ss: seq<Stmt>): seq<string> {
    if ss == [] then []
    else (if ss[0].Call? || ss[0].GatherItem? then [ss[0].activity] else []) + Activities(ss[1..])
  }

  lemma {:induction false} ActivitiesAppend(a: seq<Stmt>, b: seq<Stmt>)
    ensures Activities(a + b) == Activities(a) + Activities(b)
  {
    if a == [] {
      assert a + b == b;
    } else {
      assert (a + b)[0] == a[0] && (a + b)[1..] == a[1..] + b;
      var h := if a[0].Call? || a[0].GatherItem? then [a[0].activity] else [];
      var x, y := Activities(a[1..]), Activities(b);
      assert Activities(a + b) == h + Activities(a[1..] + b);
      ActivitiesAppend(a[1..], b);
      assert h + (x + y) == (h + x) + y;
    }
  }

  /** The activity of each leaf, in order. */
  function ActivityNames(leaves: seq<Node>): (r: seq<string>)
    requires forall k :: 0 <= k < |leaves| ==> leaves[k].Resource?
    ensures |r| == |leaves|
  {
    seq(|leaves|, k requires 0 <= k < |leaves| && leaves[k].Resource? => ActivityName(leaves[k].name))
  }

  lemma ActivityNamesAppend(a: seq<Node>, b: seq<Node>)
    requires forall k :: 0 <= k < |a| ==> a[k].Resource?
    requires forall k :: 0 <= k < |b| ==> b[k].Resource?
    ensures ActivityNames(a + b) == ActivityNames(a) + ActivityNames(b)
  {
    assert forall k :: 0 <= k < |a + b| ==> (a + b)[k].Resource?;
    assert forall k :: |a| <= k < |a + b| ==> (a + b)[k] == b[k - |a|];
  }

  /** No Parallel in the tree has a composite child, so none becomes a TODO. */
  predicate SimpleParallels(n: Node) {
    match n
    case Resource(_, _) => true
    case Sequence(cs) => forall k :: 0 <= k < |cs| ==> SimpleParallels(cs[k])
    case Parallel(cs) => AllLeaves(cs)
    case Conditional(_, t, f) => SimpleParallels(t) && (f.Some? ==> SimpleParallels(f.value))
  }

  /** Unless some Parallel falls back to its TODO comment, the code runs one
      activity per leaf, in the depth-first order of the leaves. */
  lemma {:induction false} StmtsActivities(n: Node, level: nat, v: string)
    requires SimpleParallels(n)
    ensures Activities(Stmts(n, level, v)) == ActivityNames(Leaves(n))
  {
    match n
    case Resource(_, _) =>
    case Sequence(cs) => StmtsAllActivities(cs, level, v);
    case Parallel(cs) => ParallelActivities(cs, level, v);
    case Conditional(c, t, f) =>
      StmtsActivities(t, level + 1, v);
      if f.Some? {
        StmtsActivities(f.value, level + 1, v);
      }
      ConditionalActivities(c, t, f, level, v);
  }

  lemma ParallelActivities(cs: seq<Node>, level: nat, v: string)
    requires AllLeaves(cs)
    ensures Activities(ParallelStmts(cs, level, v)) == ActivityNames(LeavesOf(cs))
  {
    var items := GatherItems(cs, level + 1, v);
    var open, close := [GatherOpen(level)], [GatherClose(level), TakeResults(level, v)];
    GatherItemsActivities(cs, level + 1, v);
    ActivitiesAppend(open + items, close);
    ActivitiesAppend(open, items);
    LeavesOfLeaves(cs);
    assert close[1..] == [TakeResults(level, v)] && close[1..][1..] == [];
    assert Activities(open) == [] && Activities(close) == [];
  }

  lemma ConditionalActivities(c: string, t: Node, f: Option<Node>, level: nat, v: string)
    requires Activities(Stmts(t, level + 1, v)) == ActivityNames(Leaves(t))
    requires f.Some? ==> Activities(Stmts(f.value, level + 1, v)) == ActivityNames(Leaves(f.value))
    ensures Activities(Stmts(Conditional(c, t, f), level, v)) == ActivityNames(Leaves(Conditional(c, t, f)))
  {
    var head := [If(level, v, c)] + Stmts(t, level + 1, v);
    ActivitiesAppend([If(level, v, c)], Stmts(t, level + 1, v));
    assert Activities(head) == ActivityNames(Leaves(t));
    if f.Some? {
      ElseActivities(head, t, f.value, level, v);
    } else {
      assert head + [] == head;
      assert Leaves(t) + [] == Leaves(t);
    }
  }

  lemma ElseActivities(head: seq<Stmt>, t: Node, e: Node, level: nat, v: string)
    requires Activities(head) == ActivityNames(Leaves(t))
    requires Activities(Stmts(e, level + 1, v)) == ActivityNames(Leaves(e))
    ensures Activities(head + ([Else(level)] + Stmts(e, level + 1, v))) == ActivityNames(Leaves(t) + Leaves(e))
  {
    ActivitiesAppend([Else(level)], Stmts(e, level + 1, v));
    ActivitiesAppend(head, [Else(level)] + Stmts(e, level + 1, v));
    ActivityNamesAppend(Leaves(t), Leaves(e));
  }

  lemma {:induction false} StmtsAllActivities(cs: seq<Node>, level: nat, v: string)
    requires forall k :: 0 <= k < |cs| ==> SimpleParallels(cs[k])
    ensures Activities(StmtsAll(cs, level, v)) == ActivityNames(LeavesOf(cs))
  {
    if cs != [] {
      StmtsActivities(cs[0], level, v);
      StmtsAllActivities(cs[1..], level, v);
      ActivitiesAppend(Stmts(cs[0], level, v), StmtsAll(cs[1..], level, v));
      ActivityNamesAppend(Leaves(cs[0]), LeavesOf(cs[1..]));
    }
  }

  lemma {:induction false} GatherItemsActivities(cs: seq<Node>, level: nat, v: string)
    requires AllLeaves(cs)
    ensures Activities(GatherItems(cs, level, v)) == ActivityNames(cs)
  {
    if |cs| >= 2 {
      GatherItemsActivities(cs[1..], level, v);
      ActivitiesAppend([GatherItem(level, ActivityName(cs[0].name), v, false)], GatherItems(cs[1..], level, v));
      assert ActivityNames(cs) == [ActivityName(cs[0].name)] + ActivityNames(cs[1..]);
    }
  }

  /** A list of leaves is its own list of leaves. */
  lemma {:induction false} LeavesOfLeaves(cs: seq<Node>)
    requires AllLeaves(cs)
    ensures LeavesOf(cs) == cs
  {
    if cs != [] {
      LeavesOfLeaves(cs[1..]);
      assert cs == [cs[0]] + cs[1..];
    }
  }

  // ---------------------------------------------------------------------
  // Flattening a Sequence does not change its code
  // ---------------------------------------------------------------------

  lemma {:induction false} SequenceCodeAppend(a: seq<Node>, b: seq<Node>, level: nat, v: string)
    ensures SequenceCode(a + b, level, v) == SequenceCode(a, level, v) + SequenceCode(b, level, v)
  {
    if a == [] {
      assert a + b == b;
    } else {
      assert (a + b)[0] == a[0] && (a + b)[1..] == a[1..] + b;
      SequenceCodeAppend(a[1..], b, level, v);
    }
  }

  lemma {:induction false} SpliceSequencesCode(cs: seq<Node>, level: nat, v: string)
    ensures SequenceCode(SpliceSequences(cs), level, v) == SequenceCode(cs, level, v)
  {
    if cs != [] {
      var first := if cs[0].Sequence? then SpliceSequences(cs[0].nodes) else [cs[0]];
      if cs[0].Sequence? {
        SpliceSequencesCode(cs[0].nodes, level, v);
      } else {
        assert SequenceCode([cs[0]], level, v) == NodeCode(cs[0], level, v) + SequenceCode([], level, v);
      }
      SpliceSequencesCode(cs[1..], level, v);
      SequenceCodeAppend(first, SpliceSequences(cs[1..]), level, v);
    }
  }

  /** `flatten_sequence` is invisible in the generated code. */
  lemma FlattenSequenceCode(n: Node, level: nat, v: string)
    ensures NodeCode(FlattenSequence(n), level, v) == NodeCode(n, level, v)
  {
    if n.Sequence? {
      SpliceSequencesCode(n.nodes, level, v);
    }
  }

  // ---------------------------------------------------------------------
  // generate_pipeline_code
  // ---------------------------------------------------------------------

  /** The module docstring and the blank line after it. */
  function PipelineHeader(pipelineName: string): string {
    "\"\"\"\n" + pipelineName + " workflow.\n\nAuto-generated pipeline from operator expression.\n\"\"\"\n\n"
  }

  /** From the blank lines after the imports to the end of `execute`'s docstring. */
  function ClassHeader(pipelineName: string): string {
    "\n\n\nclass " + pipelineName + "(Workflow):\n"
    + "    \"\"\"Pipeline workflow: " + pipelineName + ".\"\"\"\n\n"
    + "    @step\n"
    + "    async def execute(self, input_data: dict) -> dict:\n"
    + "        \"\"\"\n"
    + "        Execute the pipeline.\n\n"
    + "        Args:\n"
    + "            input_data: Input data for the pipeline\n\n"
    + "        Returns:\n"
    + "            Pipeline execution result\n"
    + "        \"\"\"\n"
  }

  const RETURN_LINE: string := "        return result\n"

  /** The level of `execute`'s body: two indentation steps. */
  const BODY_LEVEL: nat := 2

  /** `generate_pipeline_code`. */
  function GeneratePipelineCode(ir: Node, pipelineName: string, projectName: string): string {
    PipelineHeader(pipelineName) + Join(GenerateImports(ir, projectName), "\n") + ClassHeader(pipelineName)
    + NodeCode(ir, BODY_LEVEL, "result") + "\n" + RETURN_LINE
  }

  /** The body is the tree's statements at level 2, between the class
      header and the final `return result`. Every body line sits inside
      `execute`, and every line that reads or assigns a variable uses
      `result`: nothing ever assigns it from `input_data`. */
  lemma PipelineBody(ir: Node, pipelineName: string, projectName: string)
    ensures var body := Stmts(ir, BODY_LEVEL, "result");
      && GeneratePipelineCode(ir, pipelineName, projectName) ==
         PipelineHeader(pipelineName) + Join(GenerateImports(ir, projectName), "\n")
         + ClassHeader(pipelineName) + Emit(body) + "\n" + RETURN_LINE
      && IndentedFrom(body, BODY_LEVEL) && UsesOnly(body, "result")
  {
    CodeIsStmts(ir, BODY_LEVEL, "result");
    StmtsPlaced(ir, BODY_LEVEL, "result");
  }

  /** The module always ends with `return result`. */
  lemma PipelineEnds(ir: Node, pipelineName: string, projectName: string)
    ensures EndsWith(GeneratePipelineCode(ir, pipelineName, projectName), RETURN_LINE)
  {
    var code := GeneratePipelineCode(ir, pipelineName, projectName);
    AppendEndsWith(code[..|code| - |RETURN_LINE|], RETURN_LINE);
  }

  /** The module docstring is followed at once by the Workflow import. */
  lemma PipelineStarts(ir: Node, pipelineName: string, projectName: string)
    ensures StartsWith(GeneratePipelineCode(ir, pipelineName, projectName), PipelineHeader(pipelineName) + WORKFLOW_IMPORT)
  {
    var imports := GenerateImports(ir, projectName);
    var p := PipelineHeader(pipelineName) + WORKFLOW_IMPORT;
    var x := PipelineHeader(pipelineName) + Join(imports, "\n");
    JoinStartsWithFirst(imports, "\n");
    PrefixPrepend(PipelineHeader(pipelineName), Join(imports, "\n"), WORKFLOW_IMPORT);
    PrefixExtend(x, p, ClassHeader(pipelineName));
    x := x + ClassHeader(pipelineName);
    PrefixExtend(x, p, NodeCode(ir, BODY_LEVEL, "result"));
    x := x + NodeCode(ir, BODY_LEVEL, "result");
    PrefixExtend(x, p, "\n");
    x := x + "\n";
    PrefixExtend(x, p, RETURN_LINE);
  }

  lemma PrefixExtend(x: string, p: string, y: string)
    requires StartsWith(x, p)
    ensures StartsWith(x + y, p)
  {
    assert (x + y)[..|p|] == x[..|p|];
  }

  lemma PrefixPrepend(h: string, x: string, p: string)
    requires StartsWith(x, p)
    ensures StartsWith(h + x, h + p)
  {
    assert (h + x)[..|h + p|] == h + x[..|p|];
  }

  lemma AppendEndsWith(x: string, y: string)
    ensures EndsWith(x + y, y)
  {
    assert (x + y)[|x|..] == y;
  }

  /** `sep.join(parts)` starts with the first part. */
  lemma JoinStartsWithFirst(parts: seq<string>, sep: string)
    requires |parts| >= 1
    ensures StartsWith(Join(parts, sep), parts[0])
  {
    if |parts| >= 2 {
      PrefixExtend(parts[0], parts[0], sep);
      PrefixExtend(parts[0] + sep, parts[0], Join(parts[1..], sep));
    }
  }
}

=== FILE: doctor.dfy ===
/** The pure parts of `restack doctor`: the status priority, the Python
    version comparison and the summary fold over check results. */
module Doctor {
  import Wrappers
  import opened Text

  datatype Status = Ok | Warn | Fail

  /** A check's outcome; `details` is optional, as in `doctor.py`. */
  datatype CheckResult = CheckResult(name: string, status: Status, message: string, details: Wrappers.Option<string>)

  /** The summary dictionary: exactly the keys ok, warn, fail and overall. */
  datatype Summary = Summary(ok: nat, warn: nat, fail: nat, overall: Status)

  function StatusName(s: Status): (r: string)
    ensures r in {"ok", "warn", "fail"}
  {
    match s
    case Ok => "ok"
    case Warn => "warn"
    case Fail => "fail"
  }

  /** `_status_priority`. */
  function Priority(s: Status): (p: nat)
    ensures p <= 2
    ensures s == Ok <==> p == 0
    ensures s == Fail <==> p == 2
  {
    match s
    case Ok => 0
    case Warn => 1
    case Fail => 2
  }

  /** The priority is a strict order: distinct statuses never tie. */
  lemma PriorityInjective(a: Status, b: Status)
    ensures Priority(a) == Priority(b) <==> a == b
    ensures Priority(Ok) < Priority(Warn) < Priority(Fail)
  {
  }

  const MIN_MAJOR: int := 3
  const MIN_MINOR: int := 11

  /** `(major, minor) >= (min_major, min_minor)` on Python tuples. */
  predicate AtLeast(major: int, minor: int, minMajor: int, minMinor: int) {
    major > minMajor || (major == minMajor && minor >= minMinor)
  }

  function VersionMessage(major: int, minor: int, micro: int, minMajor: int, minMinor: int): string {
    "Python " + IntToString(major) + "." + IntToString(minor) + "." + IntToString(micro)
    + " detected; required >= " + IntToString(minMajor) + "." + IntToString(minMinor)
  }

  /** `check_python_version`, with the interpreter's version passed in. */
  function CheckPythonVersion(major: int, minor: int, micro: int, minMajor: int, minMinor: int): (r: CheckResult)
    ensures r.name == "python_version"
    ensures r.status == Ok <==> major > minMajor || (major == minMajor && minor >= minMinor)
    ensures r.status != Warn
    ensures r.message == VersionMessage(major, minor, micro, minMajor, minMinor)
    ensures r.details.None?
  {
    var meets := AtLeast(major, minor, minMajor, minMinor);
    CheckResult("python_version", if meets then Ok else Fail,
                VersionMessage(major, minor, micro, minMajor, minMinor), Wrappers.None)
  }

  /** A newer interpreter never fails a check an older one passes, and the
      micro version plays no part. */
  lemma CheckPythonVersionMonotone(major: int, minor: int, major2: int, minor2: int, micro: int, micro2: int)
    requires CheckPythonVersion(major, minor, micro, MIN_MAJOR, MIN_MINOR).status == Ok
    requires major2 > major || (major2 == major && minor2 >= minor)
    ensures CheckPythonVersion(major2, minor2, micro2, MIN_MAJOR, MIN_MINOR).status == Ok
  {
  }

  /** The default baseline is 3.11. */
  lemma DefaultBaseline()
    ensures CheckPythonVersion(3, 10, 12, MIN_MAJOR, MIN_MINOR).status == Fail
    ensures CheckPythonVersion(3, 11, 0, MIN_MAJOR, MIN_MINOR).status == Ok
    ensures CheckPythonVersion(4, 0, 0, MIN_MAJOR, MIN_MINOR).status == Ok
    ensures CheckPythonVersion(2, 12, 0, MIN_MAJOR, MIN_MINOR).status == Fail
  {
  }

  /** How many results carry status `s`. */
  function Count(results: seq<CheckResult>, s: Status): (n: nat)
    ensures n <= |results|
  {
    if results == [] then 0
    else Count(results[..|results| - 1], s) + (if results[|results| - 1].status == s then 1 else 0)
  }

  /** Every result carries one of the three statuses. */
  lemma {:induction false} CountsAddUp(results: seq<CheckResult>)
    ensures Count(results, Ok) + Count(results, Warn) + Count(results, Fail) == |results|
  {
    if results != [] {
      CountsAddUp(results[..|results| - 1]);
    }
  }

  /** `summarize`: the three counts and the worst status seen, "ok" when
      there are no results. */
  method Summarize(results: seq<CheckResult>) returns (r: Summary)
    ensures r.ok == Count(results, Ok)
    ensures r.warn == Count(results, Warn)
    ensures r.fail == Count(results, Fail)
    ensures r.ok + r.warn + r.fail == |results|
    ensures results == [] ==> r.overall == Ok
    ensures results != [] ==> exists i :: 0 <= i < |results| && results[i].status == r.overall
    ensures forall i :: 0 <= i < |results| ==> Priority(results[i].status) <= Priority(r.overall)
  {
    var ok, warn, fail := 0, 0, 0;
    var worst := Ok;
    var k := 0;
    while k < |results|
      invariant 0 <= k <= |results|
      invariant ok == Count(results[..k], Ok)
      invariant warn == Count(results[..k], Warn)
      invariant fail == Count(results[..k], Fail)
      invariant ok + warn + fail == k
      invariant worst == Ok || exists i :: 0 <= i < k && results[i].status == worst
      invariant forall i :: 0 <= i < k ==> Priority(results[i].status) <= Priority(worst)
    {
      assert results[..k + 1][..k] == results[..k];
      var s := results[k].status;
      match s {
        case Ok => ok := ok + 1;
        case Warn => warn := warn + 1;
        case Fail => fail := fail + 1;
      }
      if Priority(s) > Priority(worst) {
        worst := s;
      }
      k := k + 1;
    }
    assert results[..k] == results;
    if results != [] && worst == Ok {
      assert Priority(results[0].status) == 0;
    }
    r := Summary(ok, warn, fail, worst);
  }
}

=== FILE: ir.dfy ===
/** The pipeline tree (restack_gen/ir.py): four node kinds, the checks their
    constructors run, their display form, and the two flattening passes. */
module IR {
  import opened Wrappers
  import opened Text

  const AGENT: string := "agent"
  const WORKFLOW: string := "workflow"
  const FUNCTION: string := "function"
  const UNKNOWN: string := "unknown"

  /** The resource types a leaf may be constructed with. */
  predicate ValidType(t: string) {
    t == AGENT || t == WORKFLOW || t == FUNCTION || t == UNKNOWN
  }

  /** A resource type is a plain string: construction checks it, but the
      resource validator may later store any string a table supplies. */
  datatype Node =
    | Resource(name: string, rtype: string)
    | Sequence(nodes: seq<Node>)
    | Parallel(nodes: seq<Node>)
    | Conditional(condition: string, trueBranch: Node, falseBranch: Option<Node>)

  // -----------------------------------------------------------------------
  // Constructor checks (`__post_init__`)
  // -----------------------------------------------------------------------

  function NewResource(name: string, rtype: string): (r: Result<Node, string>)
    ensures r.Ok? <==> ValidType(rtype)
    ensures r.Ok? ==> r.value.Resource? && r.value.name == name && r.value.rtype == rtype
  {
    if ValidType(rtype) then Ok(Resource(name, rtype))
    else Err("Invalid resource type '" + rtype + "'. Must be one of: agent, function, unknown, workflow")
  }

  function NewSequence(nodes: seq<Node>): (r: Result<Node, string>)
    ensures r.Ok? <==> |nodes| >= 2
    ensures r.Ok? ==> r.value.Sequence? && r.value.nodes == nodes
  {
    if |nodes| < 2 then Err("Sequence must have at least 2 nodes, got " + NatToString(|nodes|))
    else Ok(Sequence(nodes))
  }

  function NewParallel(nodes: seq<Node>): (r: Result<Node, string>)
    ensures r.Ok? <==> |nodes| >= 2
    ensures r.Ok? ==> r.value.Parallel? && r.value.nodes == nodes
  {
    if |nodes| < 2 then Err("Parallel must have at least 2 nodes, got " + NatToString(|nodes|))
    else Ok(Parallel(nodes))
  }

  /** The false branch defaults to absent. The check strips the condition,
      so a condition made of whitespace is refused like an empty one. */
  function NewConditional(condition: string, trueBranch: Node, falseBranch: Option<Node> := None)
    : (r: Result<Node, string>)
    ensures r.Ok? <==> !IsBlank(condition)
    ensures r.Ok? ==> r.value == Conditional(condition, trueBranch, falseBranch)
  {
    StripEmptyIffBlank(condition);
    if condition == "" || Strip(condition) == "" then Err("Conditional condition cannot be empty")
    else Ok(Conditional(condition, trueBranch, falseBranch))
  }

  // -----------------------------------------------------------------------
  // Structural predicates
  // -----------------------------------------------------------------------

  /** Every composite node meets its constructor's check. */
  predicate WellShaped(n: Node) {
    match n
    case Resource(_, _) => true
    case Sequence(cs) => |cs| >= 2 && forall c :: c in cs ==> WellShaped(c)
    case Parallel(cs) => |cs| >= 2 && forall c :: c in cs ==> WellShaped(c)
    case Conditional(cond, t, f) =>
      !IsBlank(cond) && WellShaped(t) && (f.Some? ==> WellShaped(f.value))
  }

  /** No Sequence sits directly in a Sequence and no Parallel directly in a Parallel. */
  predicate Canonical(n: Node) {
    match n
    case Resource(_, _) => true
    case Sequence(cs) => forall c :: c in cs ==> !c.Sequence? && Canonical(c)
    case Parallel(cs) => forall c :: c in cs ==> !c.Parallel? && Canonical(c)
    case Conditional(_, t, f) => Canonical(t) && (f.Some? ==> Canonical(f.value))
  }

  /** The Resource leaves in depth-first order, true branch before false branch. */
  function Leaves(n: Node): (r: seq<Node>)
    ensures forall k :: 0 <= k < |r| ==> r[k].Resource?
  {
    match n
    case Resource(_, _) => [n]
    case Sequence(cs) => LeavesOf(cs)
    case Parallel(cs) => LeavesOf(cs)
    case Conditional(_, t, f) => Leaves(t) + (if f.Some? then Leaves(f.value) else [])
  }

  function LeavesOf(cs: seq<Node>): (r: seq<Node>)
    ensures forall k :: 0 <= k < |r| ==> r[k].Resource?
  {
    if cs == [] then [] else Leaves(cs[0]) + LeavesOf(cs[1..])
  }

  lemma {:induction false} LeavesOfAppend(a: seq<Node>, b: seq<Node>)
    ensures LeavesOf(a + b) == LeavesOf(a) + LeavesOf(b)
  {
    if a == [] {
      assert a + b == b;
    } else {
      assert (a + b)[0] == a[0] && (a + b)[1..] == a[1..] + b;
      LeavesOfAppend(a[1..], b);
    }
  }

  function Names(leaves: seq<Node>): (r: seq<string>)
    requires forall k :: 0 <= k < |leaves| ==> leaves[k].Resource?
    ensures |r| == |leaves| && forall k :: 0 <= k < |r| ==> r[k] == leaves[k].name
  {
    if leaves == [] then [] else [leaves[0].name] + Names(leaves[1..])
  }

  /** The leaf names in depth-first order, duplicates kept. */
  function LeafNames(n: Node): seq<string> {
    Names(Leaves(n))
  }

  lemma NamesAppend(a: seq<Node>, b: seq<Node>)
    requires forall k :: 0 <= k < |a| ==> a[k].Resource?
    requires forall k :: 0 <= k < |b| ==> b[k].Resource?
    ensures Names(a + b) == Names(a) + Names(b)
  {
    assert forall k :: 0 <= k < |a + b| ==> (a + b)[k].Resource?;
    assert forall k :: 0 <= k < |a| + |b| ==> (Names(a) + Names(b))[k] == (a + b)[k].name;
  }

  /** Every leaf carries one of the four constructor-accepted types. */
  predicate TypesValid(n: Node) {
    forall l :: l in Leaves(n) ==> ValidType(l.rtype)
  }

  predicate WellFormed(n: Node) {
    WellShaped(n) && TypesValid(n)
  }

  predicate HasParallel(n: Node) {
    match n
    case Resource(_, _) => false
    case Sequence(cs) => exists c :: c in cs && HasParallel(c)
    case Parallel(_) => true
    case Conditional(_, t, f) => HasParallel(t) || (f.Some? && HasParallel(f.value))
  }

  predicate HasConditional(n: Node) {
    match n
    case Resource(_, _) => false
    case Sequence(cs) => exists c :: c in cs && HasConditional(c)
    case Parallel(cs) => exists c :: c in cs && HasConditional(c)
    case Conditional(_, _, _) => true
  }

  // -----------------------------------------------------------------------
  // Display form (`__str__`)
  // -----------------------------------------------------------------------

  function Str(n: Node): string {
    match n
    case Resource(name, t) => Capitalize(t) + "(" + name + ")"
    case Sequence(cs) => "Sequence([" + Join(StrAll(cs), " \U{2192} ") + "])"
    case Parallel(cs) => "Parallel([" + Join(StrAll(cs), " \U{21C4} ") + "])"
    case Conditional(c, t, f) =>
      if f.Some? then "Conditional(" + c + " ? " + Str(t) + " : " + Str(f.value) + ")"
      else "Conditional(" + c + " ? " + Str(t) + ")"
  }

  function StrAll(cs: seq<Node>): (r: seq<string>)
    ensures |r| == |cs|
  {
    if cs == [] then [] else [Str(cs[0])] + StrAll(cs[1..])
  }

  /** Each child displays in its own form, in order. */
  lemma {:induction false} StrAllElements(cs: seq<Node>)
    ensures forall i :: 0 <= i < |cs| ==> StrAll(cs)[i] == Str(cs[i])
  {
    if cs != [] {
      StrAllElements(cs[1..]);
      assert forall i :: 1 <= i < |cs| ==> cs[1..][i - 1] == cs[i];
    }
  }

  /** The display names of the four accepted types. */
  lemma CapitalizedTypes()
    ensures Capitalize(AGENT) == "Agent" && Capitalize(WORKFLOW) == "Workflow"
    ensures Capitalize(FUNCTION) == "Function" && Capitalize(UNKNOWN) == "Unknown"
  {
    CapitalizedAgent();
    CapitalizedWorkflow();
    CapitalizedFunction();
    CapitalizedUnknown();
  }

  lemma CapitalizedAgent() ensures Capitalize(AGENT) == "Agent" { CapitalizeWord(AGENT, "Agent"); }
  lemma CapitalizedWorkflow() ensures Capitalize(WORKFLOW) == "Workflow" { CapitalizeWord(WORKFLOW, "Workflow"); }
  lemma CapitalizedFunction() ensures Capitalize(FUNCTION) == "Function" { CapitalizeWord(FUNCTION, "Function"); }
  lemma CapitalizedUnknown() ensures Capitalize(UNKNOWN) == "Unknown" { CapitalizeWord(UNKNOWN, "Unknown"); }

  lemma CapitalizeWord(w: string, cap: string)
    requires |w| > 0 && |cap| == |w| && w[1..] == cap[1..] && UpperChar(w[0]) == cap[0]
    requires forall i :: 1 <= i < |w| ==> IsLower(w[i])
    ensures Capitalize(w) == cap
  {
    LowerNoUpper(w[1..]);
    assert Capitalize(w) == [cap[0]] + cap[1..];
  }

  /** A leaf of each accepted type displays as the capitalised type around its name. */
  lemma StrResource(name: string, t: string)
    requires ValidType(t)
    ensures Str(Resource(name, t)) ==
      (if t == AGENT then "Agent" else if t == WORKFLOW then "Workflow"
       else if t == FUNCTION then "Function" else "Unknown") + "(" + name + ")"
  {
    CapitalizedTypes();
  }

  /** A Sequence displays its children, each in its own display form, with
      one arrow between neighbours, and a Parallel likewise with the double
      arrow: the first child, the separator, then the rest joined the same
      way, for any number of children after the first. */
  lemma StrChildren(x: Node, rest: seq<Node>)
    requires |rest| >= 1
    ensures Str(Sequence([x] + rest)) == "Sequence([" + Str(x) + " \U{2192} " + Join(StrAll(rest), " \U{2192} ") + "])"
    ensures Str(Parallel([x] + rest)) == "Parallel([" + Str(x) + " \U{21C4} " + Join(StrAll(rest), " \U{21C4} ") + "])"
  {
    StrSequenceCons(x, rest);
    StrParallelCons(x, rest);
  }

  lemma StrSequenceCons(x: Node, rest: seq<Node>)
    requires |rest| >= 1
    ensures Str(Sequence([x] + rest)) == "Sequence([" + Str(x) + " \U{2192} " + Join(StrAll(rest), " \U{2192} ") + "])"
  {
    var cs := [x] + rest;
    StrAllCons(x, rest);
    Bracketed("Sequence([", " \U{2192} ", Str(x), StrAll(rest), StrAll(cs));
    assert Str(Sequence(cs)) == "Sequence([" + Join(StrAll(cs), " \U{2192} ") + "])";
  }

  lemma StrParallelCons(x: Node, rest: seq<Node>)
    requires |rest| >= 1
    ensures Str(Parallel([x] + rest)) == "Parallel([" + Str(x) + " \U{21C4} " + Join(StrAll(rest), " \U{21C4} ") + "])"
  {
    var cs := [x] + rest;
    StrAllCons(x, rest);
    Bracketed("Parallel([", " \U{21C4} ", Str(x), StrAll(rest), StrAll(cs));
    assert Str(Parallel(cs)) == "Parallel([" + Join(StrAll(cs), " \U{21C4} ") + "])";
  }

  /** `open + sep.join([head] + parts) + "])"`, with the first separator
      written out. */
  lemma Bracketed(open: string, sep: string, head: string, parts: seq<string>, all: seq<string>)
    requires |parts| >= 1 && all == [head] + parts
    ensures open + Join(all, sep) + "])" == open + head + sep + Join(parts, sep) + "])"
  {
    JoinCons(head, parts, sep);
  }

  lemma StrAllCons(x: Node, rest: seq<Node>)
    ensures StrAll([x] + rest) == [Str(x)] + StrAll(rest)
  {
    assert ([x] + rest)[1..] == rest;
  }

  /** With two children this is `Sequence([X → Y])` and `Parallel([X ⇄ Y])`. */
  lemma StrTwoChildren(x: Node, y: Node)
    ensures Str(Sequence([x, y])) == "Sequence([" + Str(x) + " \U{2192} " + Str(y) + "])"
    ensures Str(Parallel([x, y])) == "Parallel([" + Str(x) + " \U{21C4} " + Str(y) + "])"
  {
    assert [x, y] == [x] + [y];
    StrChildren(x, [y]);
  }

  // -----------------------------------------------------------------------
  // Flattening
  // -----------------------------------------------------------------------

  /** `flatten_sequence`: splices every direct Sequence child (flattened
      first) into the parent; any other node is returned unchanged. */
  function FlattenSequence(n: Node): (r: Node)
    ensures !n.Sequence? ==> r == n
    ensures n.Sequence? ==> r.Sequence? && forall c :: c in r.nodes ==> !c.Sequence?
    ensures n.Sequence? && WellShaped(n) ==> |r.nodes| >= |n.nodes| && WellShaped(r)
    ensures n.Sequence? ==> forall c :: c in n.nodes && !c.Sequence? ==> c in r.nodes
    ensures Leaves(r) == Leaves(n)
  {
    if n.Sequence? then
      SpliceSequencesLeaves(n.nodes);
      if WellShaped(n) then
        SpliceSequencesShape(n.nodes);
        Sequence(SpliceSequences(n.nodes))
      else Sequence(SpliceSequences(n.nodes))
    else n
  }

  function SpliceSequences(cs: seq<Node>): (r: seq<Node>)
    ensures forall c :: c in r ==> !c.Sequence?
    ensures forall c :: c in cs && !c.Sequence? ==> c in r
  {
    if cs == [] then []
    else
      assert forall c :: c in cs ==> c == cs[0] || c in cs[1..];
      (if cs[0].Sequence? then SpliceSequences(cs[0].nodes) else [cs[0]]) + SpliceSequences(cs[1..])
  }

  /** Splicing keeps every constructor check satisfied and never shortens the list. */
  lemma {:induction false} SpliceSequencesShape(cs: seq<Node>)
    requires forall c :: c in cs ==> WellShaped(c)
    ensures |SpliceSequences(cs)| >= |cs|
    ensures forall c :: c in SpliceSequences(cs) ==> WellShaped(c)
  {
    if cs != [] {
      assert cs[0] in cs;
      assert forall c :: c in cs[1..] ==> c in cs;
      SpliceSequencesShape(cs[1..]);
      if cs[0].Sequence? {
        SpliceSequencesShape(cs[0].nodes);
      }
    }
  }

  lemma {:induction false} SpliceSequencesCanonical(cs: seq<Node>)
    requires forall c :: c in cs ==> Canonical(c)
    ensures forall c :: c in SpliceSequences(cs) ==> Canonical(c)
  {
    if cs != [] {
      assert cs[0] in cs;
      assert forall c :: c in cs[1..] ==> c in cs;
      SpliceSequencesCanonical(cs[1..]);
      if cs[0].Sequence? {
        SpliceSequencesCanonical(cs[0].nodes);
      }
    }
  }

  /** Splicing keeps the leaves and their order. */
  lemma {:induction false} SpliceSequencesLeaves(cs: seq<Node>)
    ensures LeavesOf(SpliceSequences(cs)) == LeavesOf(cs)
  {
    if cs != [] {
      var head := if cs[0].Sequence? then SpliceSequences(cs[0].nodes) else [cs[0]];
      SpliceSequencesLeaves(cs[1..]);
      if cs[0].Sequence? {
        SpliceSequencesLeaves(cs[0].nodes);
      } else {
        assert LeavesOf([cs[0]]) == Leaves(cs[0]) + LeavesOf([]);
      }
      LeavesOfAppend(head, SpliceSequences(cs[1..]));
    }
  }

  /** `flatten_parallel`: the same splice for Parallel children. */
  function FlattenParallel(n: Node): (r: Node)
    ensures !n.Parallel? ==> r == n
    ensures n.Parallel? ==> r.Parallel? && forall c :: c in r.nodes ==> !c.Parallel?
    ensures n.Parallel? && WellShaped(n) ==> |r.nodes| >= |n.nodes| && WellShaped(r)
    ensures n.Parallel? ==> forall c :: c in n.nodes && !c.Parallel? ==> c in r.nodes
    ensures Leaves(r) == Leaves(n)
  {
    if n.Parallel? then
      SpliceParallelsLeaves(n.nodes);
      if WellShaped(n) then
        SpliceParallelsShape(n.nodes);
        Parallel(SpliceParallels(n.nodes))
      else Parallel(SpliceParallels(n.nodes))
    else n
  }

  function SpliceParallels(cs: seq<Node>): (r: seq<Node>)
    ensures forall c :: c in r ==> !c.Parallel?
    ensures forall c :: c in cs && !c.Parallel? ==> c in r
  {
    if cs == [] then []
    else
      assert forall c :: c in cs ==> c == cs[0] || c in cs[1..];
      (if cs[0].Parallel? then SpliceParallels(cs[0].nodes) else [cs[0]]) + SpliceParallels(cs[1..])
  }

  /** Splicing keeps every constructor check satisfied and never shortens the list. */
  lemma {:induction false} SpliceParallelsShape(cs: seq<Node>)
    requires forall c :: c in cs ==> WellShaped(c)
    ensures |SpliceParallels(cs)| >= |cs|
    ensures forall c :: c in SpliceParallels(cs) ==> WellShaped(c)
  {
    if cs != [] {
      assert cs[0] in cs;
      assert forall c :: c in cs[1..] ==> c in cs;
      SpliceParallelsShape(cs[1..]);
      if cs[0].Parallel? {
        SpliceParallelsShape(cs[0].nodes);
      }
    }
  }

  lemma {:induction false} SpliceParallelsCanonical(cs: seq<Node>)
    requires forall c :: c in cs ==> Canonical(c)
    ensures forall c :: c in SpliceParallels(cs) ==> Canonical(c)
  {
    if cs != [] {
      assert cs[0] in cs;
      assert forall c :: c in cs[1..] ==> c in cs;
      SpliceParallelsCanonical(cs[1..]);
      if cs[0].Parallel? {
        SpliceParallelsCanonical(cs[0].nodes);
      }
    }
  }

  /** Splicing keeps the leaves and their order. */
  lemma {:induction false} SpliceParallelsLeaves(cs: seq<Node>)
    ensures LeavesOf(SpliceParallels(cs)) == LeavesOf(cs)
  {
    if cs != [] {
      var head := if cs[0].Parallel? then SpliceParallels(cs[0].nodes) else [cs[0]];
      SpliceParallelsLeaves(cs[1..]);
      if cs[0].Parallel? {
        SpliceParallelsLeaves(cs[0].nodes);
      } else {
        assert LeavesOf([cs[0]]) == Leaves(cs[0]) + LeavesOf([]);
      }
      LeavesOfAppend(head, SpliceParallels(cs[1..]));
    }
  }

  lemma {:induction false} SpliceSequencesNoop(cs: seq<Node>)
    requires forall c :: c in cs ==> !c.Sequence?
    ensures SpliceSequences(cs) == cs
  {
    if cs != [] {
      SpliceSequencesNoop(cs[1..]);
    }
  }

  lemma {:induction false} SpliceParallelsNoop(cs: seq<Node>)
    requires forall c :: c in cs ==> !c.Parallel?
    ensures SpliceParallels(cs) == cs
  {
    if cs != [] {
      SpliceParallelsNoop(cs[1..]);
    }
  }

  /** Splicing distributes over concatenation. */
  lemma {:induction false} SpliceSequencesAppend(a: seq<Node>, b: seq<Node>)
    ensures SpliceSequences(a + b) == SpliceSequences(a) + SpliceSequences(b)
  {
    if a == [] {
      assert a + b == b;
    } else {
      assert (a + b)[0] == a[0] && (a + b)[1..] == a[1..] + b;
      SpliceSequencesAppend(a[1..], b);
    }
  }

  /** One child: a Sequence is replaced by its own spliced children, any other
      node is kept as it is, without looking inside it. */
  lemma SpliceSequencesSingle(c: Node)
    ensures SpliceSequences([c]) == if c.Sequence? then SpliceSequences(c.nodes) else [c]
  {
    assert [c][1..] == [];
  }

  /** A child that is not a Sequence keeps its place: everything before it
      is spliced into what precedes it, everything after into what follows. */
  lemma FlattenSequenceInPlace(before: seq<Node>, c: Node, after: seq<Node>)
    requires !c.Sequence?
    ensures FlattenSequence(Sequence(before + [c] + after)).nodes == SpliceSequences(before) + [c] + SpliceSequences(after)
  {
    SpliceSequencesAppend(before + [c], after);
    SpliceSequencesAppend(before, [c]);
    SpliceSequencesSingle(c);
  }

  /** Splicing distributes over concatenation. */
  lemma {:induction false} SpliceParallelsAppend(a: seq<Node>, b: seq<Node>)
    ensures SpliceParallels(a + b) == SpliceParallels(a) + SpliceParallels(b)
  {
    if a == [] {
      assert a + b == b;
    } else {
      assert (a + b)[0] == a[0] && (a + b)[1..] == a[1..] + b;
      SpliceParallelsAppend(a[1..], b);
    }
  }

  /** One child: a Parallel is replaced by its own spliced children, any other
      node is kept as it is, without looking inside it. */
  lemma SpliceParallelsSingle(c: Node)
    ensures SpliceParallels([c]) == if c.Parallel? then SpliceParallels(c.nodes) else [c]
  {
    assert [c][1..] == [];
  }

  /** A child that is not a Parallel keeps its place: everything before it
      is spliced into what precedes it, everything after into what follows. */
  lemma FlattenParallelInPlace(before: seq<Node>, c: Node, after: seq<Node>)
    requires !c.Parallel?
    ensures FlattenParallel(Parallel(before + [c] + after)).nodes == SpliceParallels(before) + [c] + SpliceParallels(after)
  {
    SpliceParallelsAppend(before + [c], after);
    SpliceParallelsAppend(before, [c]);
    SpliceParallelsSingle(c);
  }

  /** Flattening twice gives the same tree as flattening once. */
  lemma FlattenSequenceIdempotent(n: Node)
    ensures FlattenSequence(FlattenSequence(n)) == FlattenSequence(n)
  {
    if n.Sequence? {
      SpliceSequencesNoop(FlattenSequence(n).nodes);
    }
  }

  lemma FlattenParallelIdempotent(n: Node)
    ensures FlattenParallel(FlattenParallel(n)) == FlattenParallel(n)
  {
    if n.Parallel? {
      SpliceParallelsNoop(FlattenParallel(n).nodes);
    }
  }

  /** A Sequence whose children are canonical flattens to a canonical
      Sequence; likewise for Parallel. */
  lemma FlattenKeepsCanonical(cs: seq<Node>)
    requires forall c :: c in cs ==> Canonical(c)
    ensures Canonical(FlattenSequence(Sequence(cs)))
    ensures Canonical(FlattenParallel(Parallel(cs)))
  {
    SpliceSequencesCanonical(cs);
    SpliceParallelsCanonical(cs);
  }

  /** Worked example from the module documentation:
      `Sequence([A, Sequence([B, C]), D])` flattens to `Sequence([A, B, C, D])`. */
  lemma FlattenExample(a: Node, b: Node, c: Node, d: Node)
    requires !a.Sequence? && !b.Sequence? && !c.Sequence? && !d.Sequence?
    ensures FlattenSequence(Sequence([a, Sequence([b, c]), d])) == Sequence([a, b, c, d])
  {
    var cs := [a, Sequence([b, c]), d];
    assert cs[1..] == [Sequence([b, c]), d] && cs[1..][1..] == [d];
    SpliceSequencesNoop([b, c]);
    SpliceSequencesNoop([d]);
    assert SpliceSequences(cs[1..]) == [b, c] + [d];
    assert SpliceSequences(cs) == [a] + [b, c] + [d];
  }

  /** The same example for Parallel:
      `Parallel([A, Parallel([B, C]), D])` flattens to `Parallel([A, B, C, D])`. */
  lemma FlattenParallelExample(a: Node, b: Node, c: Node, d: Node)
    requires !a.Parallel? && !b.Parallel? && !c.Parallel? && !d.Parallel?
    ensures FlattenParallel(Parallel([a, Parallel([b, c]), d])) == Parallel([a, b, c, d])
  {
    var cs := [a, Parallel([b, c]), d];
    assert cs[1..] == [Parallel([b, c]), d] && cs[1..][1..] == [d];
    SpliceParallelsNoop([b, c]);
    SpliceParallelsNoop([d]);
    assert SpliceParallels(cs[1..]) == [b, c] + [d];
    assert SpliceParallels(cs) == [a] + [b, c] + [d];
  }
}

=== FILE: lexer.dfy ===
/** The hand-written lexer of restack_gen/parser.py (`tokenize`). */
module Lexer {
  import opened Wrappers
  import opened Text

  const ARROW_CHAR: char := '\U{2192}'      // →
  const PARALLEL_CHAR: char := '\U{21C4}'   // ⇄
  const CONDITIONAL_TEXT: string := [ARROW_CHAR, '?']

  datatype TokenType =
    | NameTok | ArrowTok | ParallelTok | ConditionalTok | CommaTok | LParenTok | RParenTok | EofTok
  {
    /** The enum member's name, as error messages print it. */
    function Label(): string {
      match this
      case NameTok => "NAME"
      case ArrowTok => "ARROW"
      case ParallelTok => "PARALLEL"
      case ConditionalTok => "CONDITIONAL"
      case CommaTok => "COMMA"
      case LParenTok => "LPAREN"
      case RParenTok => "RPAREN"
      case EofTok => "EOF"
    }
  }

  datatype Token = Token(ttype: TokenType, value: string, position: nat)

  /** `ParseError`: a message and the offending offset (-1 when there is none). */
  datatype ParseError = ParseError(message: string, position: int)

  /** `Token.__str__` */
  function TokenString(t: Token): string {
    "Token(" + t.ttype.Label() + ", '" + t.value + "', pos=" + NatToString(t.position) + ")"
  }

  /** A character a resource name may contain: ASCII `isalnum()` or `_`. */
  predicate IsNameChar(c: char) {
    IsAlnum(c) || c == '_'
  }

  /** A character that starts a one-character token. */
  predicate IsPunct(c: char) {
    c == ARROW_CHAR || c == PARALLEL_CHAR || c == ',' || c == '(' || c == ')'
  }

  /** The value a token of each kind carries. */
  predicate WellLexed(t: Token) {
    match t.ttype
    case NameTok => |t.value| > 0 && forall i :: 0 <= i < |t.value| ==> IsNameChar(t.value[i])
    case ArrowTok => t.value == [ARROW_CHAR]
    case ParallelTok => t.value == [PARALLEL_CHAR]
    case ConditionalTok => t.value == CONDITIONAL_TEXT
    case CommaTok => t.value == ","
    case LParenTok => t.value == "("
    case RParenTok => t.value == ")"
    case EofTok => t.value == ""
  }

  /** The token's text is found in the input at its recorded offset. */
  predicate InInput(t: Token, s: string) {
    t.position + |t.value| <= |s| && s[t.position..t.position + |t.value|] == t.value
  }

  /** A NAME token is a maximal run: the character after it is not a name character. */
  predicate Maximal(t: Token, s: string)
    requires InInput(t, s)
  {
    t.ttype == NameTok ==> t.position + |t.value| == |s| || !IsNameChar(s[t.position + |t.value|])
  }

  /** Everything `tokenize` promises about its output for input `s`, lexed from `from`. */
  predicate TokenStream(ts: seq<Token>, s: string, from: nat) {
    && |ts| >= 1
    && ts[|ts| - 1] == Token(EofTok, "", |s|)
    && (forall k :: 0 <= k < |ts| - 1 ==>
          ts[k].ttype != EofTok && WellLexed(ts[k]) && from <= ts[k].position
          && InInput(ts[k], s) && Maximal(ts[k], s))
    && (forall i, j :: 0 <= i < j < |ts| ==> ts[i].position < ts[j].position)
  }

  /** The end of the maximal run of name characters starting at `pos`. */
  function NameEnd(s: string, pos: nat): (e: nat)
    requires pos <= |s|
    ensures pos <= e <= |s|
    ensures forall i :: pos <= i < e ==> IsNameChar(s[i])
    ensures e == |s| || !IsNameChar(s[e])
    decreases |s| - pos
  {
    if pos < |s| && IsNameChar(s[pos]) then NameEnd(s, pos + 1) else pos
  }

  /** Puts token `t`, lexed at `pos`, in front of the tokens lexed from `next` on. */
  function Prepend(t: Token, s: string, pos: nat, next: nat, r: Result<seq<Token>, ParseError>)
    : (r': Result<seq<Token>, ParseError>)
    requires pos == t.position < next <= |s|
    requires t.ttype != EofTok && WellLexed(t) && InInput(t, s) && Maximal(t, s)
    requires r.Ok? ==> TokenStream(r.value, s, next)
    requires r.Err? ==> next <= r.error.position < |s|
    ensures r'.Ok? ==> TokenStream(r'.value, s, pos)
    ensures r'.Err? ==> pos <= r'.error.position < |s|
  {
    match r
    case Ok(ts) =>
      var ts' := [t] + ts;
      assert forall k :: 1 <= k < |ts'| ==> ts'[k] == ts[k - 1];
      Ok(ts')
    case Err(e) => Err(e)
  }

  /** The token kind of a one-character token. */
  function PunctKind(c: char): (k: TokenType)
    requires IsPunct(c)
    ensures WellLexed(Token(k, [c], 0)) && k != EofTok && k != NameTok && k != ConditionalTok
  {
    if c == ARROW_CHAR then ArrowTok
    else if c == PARALLEL_CHAR then ParallelTok
    else if c == ',' then CommaTok
    else if c == '(' then LParenTok
    else RParenTok
  }

  /** The lexer loop from offset `pos`: whitespace is skipped, `→?` is tried
      before `→`, a name is a maximal run, anything else is an error. */
  function TokenizeFrom(s: string, pos: nat): (r: Result<seq<Token>, ParseError>)
    requires pos <= |s|
    ensures r.Ok? ==> TokenStream(r.value, s, pos)
    ensures r.Err? ==> pos <= r.error.position < |s|
    decreases |s| - pos
  {
    if pos == |s| then Ok([Token(EofTok, "", pos)])
    else
      var c := s[pos];
      if IsSpace(c) then TokenizeFrom(s, pos + 1)
      else if pos + 2 <= |s| && s[pos..pos + 2] == CONDITIONAL_TEXT then
        Prepend(Token(ConditionalTok, CONDITIONAL_TEXT, pos), s, pos, pos + 2, TokenizeFrom(s, pos + 2))
      else if IsPunct(c) then
        Prepend(Token(PunctKind(c), [c], pos), s, pos, pos + 1, TokenizeFrom(s, pos + 1))
      else if IsNameChar(c) then
        var e := NameEnd(s, pos);
        Prepend(Token(NameTok, s[pos..e], pos), s, pos, e, TokenizeFrom(s, e))
      else
        Err(ParseError("Invalid character '" + [c] + "' at position " + NatToString(pos), pos))
  }

  /** `tokenize(expression)` */
  function Tokenize(s: string): (r: Result<seq<Token>, ParseError>)
    ensures r.Ok? ==> TokenStream(r.value, s, 0)
    ensures r.Err? ==> 0 <= r.error.position < |s|
    ensures r.Ok? ==> forall k :: 0 <= k < |r.value| && r.value[k].ttype == NameTok ==> !IsBlank(r.value[k].value)
  {
    var r := TokenizeFrom(s, 0);
    if r.Ok? then
      NamesNotBlank(r.value, s);
      r
    else r
  }

  lemma NamesNotBlank(ts: seq<Token>, s: string)
    requires TokenStream(ts, s, 0)
    ensures forall k :: 0 <= k < |ts| && ts[k].ttype == NameTok ==> !IsBlank(ts[k].value)
  {
    forall k | 0 <= k < |ts| && ts[k].ttype == NameTok
      ensures !IsBlank(ts[k].value)
    {
      assert IsNameChar(ts[k].value[0]);
    }
  }

  // ---------------------------------------------------------------------
  // Which inputs lex, and where the first error is reported
  // ---------------------------------------------------------------------

  /** Character `i` is one the lexer accepts when it starts lexing at `from`:
      whitespace, a name character, an operator or parenthesis, or the `?`
      of a `→?` that begins at or after `from`. */
  predicate Acceptable(s: string, from: nat, i: nat)
    requires from <= i < |s|
  {
    IsSpace(s[i]) || IsNameChar(s[i]) || IsPunct(s[i])
    || (s[i] == '?' && from < i && s[i - 1] == ARROW_CHAR)
  }

  predicate AllAcceptable(s: string, from: nat)
    requires from <= |s|
  {
    forall i :: from <= i < |s| ==> Acceptable(s, from, i)
  }

  function InvalidCharMessage(c: char, p: nat): string {
    "Invalid character '" + [c] + "' at position " + NatToString(p)
  }

  lemma ShiftAcceptable(s: string, pos: nat, next: nat)
    requires pos < next <= |s|
    requires next == |s| || s[next - 1] != ARROW_CHAR || s[next] != '?'
    ensures forall i :: next <= i < |s| ==> (Acceptable(s, pos, i) <==> Acceptable(s, next, i))
  {
  }

  /** Where the lexer resumes after the character at `pos`, when it does not fail there. */
  function Resume(s: string, pos: nat): (next: nat)
    requires pos < |s| && (IsSpace(s[pos]) || IsPunct(s[pos]) || IsNameChar(s[pos]))
    ensures pos < next <= |s|
  {
    if IsSpace(s[pos]) then pos + 1
    else if pos + 2 <= |s| && s[pos..pos + 2] == CONDITIONAL_TEXT then pos + 2
    else if IsPunct(s[pos]) then pos + 1
    else NameEnd(s, pos)
  }

  /** One lexer step succeeds or fails together with the rest of the input. */
  lemma TokenizeStep(s: string, pos: nat)
    requires pos < |s| && (IsSpace(s[pos]) || IsPunct(s[pos]) || IsNameChar(s[pos]))
    ensures TokenizeFrom(s, pos).Ok? == TokenizeFrom(s, Resume(s, pos)).Ok?
    ensures TokenizeFrom(s, pos).Err? ==> TokenizeFrom(s, pos).error == TokenizeFrom(s, Resume(s, pos)).error
  {
  }

  lemma ResumeFacts(s: string, pos: nat)
    requires pos < |s| && (IsSpace(s[pos]) || IsPunct(s[pos]) || IsNameChar(s[pos]))
    ensures forall i :: pos <= i < Resume(s, pos) ==> Acceptable(s, pos, i)
    ensures var next := Resume(s, pos); next == |s| || s[next - 1] != ARROW_CHAR || s[next] != '?'
    ensures !IsSpace(s[pos]) ==> forall i :: pos <= i < Resume(s, pos) ==> !IsSpace(s[i])
  {
    var next := Resume(s, pos);
    if pos + 2 <= |s| && s[pos..pos + 2] == CONDITIONAL_TEXT {
      assert s[pos + 1] == '?';
    } else if s[pos] == ARROW_CHAR && pos + 1 < |s| {
      assert s[pos..pos + 2] == [s[pos], s[pos + 1]];
    }
  }

  /** `tokenize` succeeds exactly when every character is acceptable, and
      otherwise reports the first character that is not. */
  lemma {:induction false} TokenizeAcceptance(s: string, pos: nat)
    requires pos <= |s|
    ensures TokenizeFrom(s, pos).Ok? <==> AllAcceptable(s, pos)
    ensures TokenizeFrom(s, pos).Err? ==>
      var p := TokenizeFrom(s, pos).error.position;
      && pos <= p < |s|
      && !Acceptable(s, pos, p)
      && (forall i :: pos <= i < p ==> Acceptable(s, pos, i))
      && TokenizeFrom(s, pos).error.message == InvalidCharMessage(s[p], p)
    decreases |s| - pos
  {
    if pos < |s| {
      var c := s[pos];
      if IsSpace(c) || IsPunct(c) || IsNameChar(c) {
        var next := Resume(s, pos);
        TokenizeStep(s, pos);
        TokenizeAcceptance(s, next);
        ResumeFacts(s, pos);
        ShiftAcceptable(s, pos, next);
      } else {
        assert !Acceptable(s, pos, pos);
      }
    }
  }

  // ---------------------------------------------------------------------
  // The tokens spell out the input without its whitespace
  // ---------------------------------------------------------------------

  /** The input with every whitespace character dropped. */
  function RemoveSpaces(s: string): (r: string)
    ensures |r| <= |s|
  {
    if s == [] then [] else (if IsSpace(s[0]) then [] else [s[0]]) + RemoveSpaces(s[1..])
  }

  lemma {:induction false} RemoveSpacesAppend(a: string, b: string)
    ensures RemoveSpaces(a + b) == RemoveSpaces(a) + RemoveSpaces(b)
  {
    if a != [] {
      assert (a + b)[0] == a[0];
      assert (a + b)[1..] == a[1..] + b;
      RemoveSpacesAppend(a[1..], b);
    } else {
      assert a + b == b;
    }
  }

  lemma {:induction false} RemoveSpacesNone(a: string)
    requires forall i :: 0 <= i < |a| ==> !IsSpace(a[i])
    ensures RemoveSpaces(a) == a
  {
    if a != [] {
      RemoveSpacesNone(a[1..]);
    }
  }

  function Values(ts: seq<Token>): (r: seq<string>)
    ensures |r| == |ts| && forall k :: 0 <= k < |ts| ==> r[k] == ts[k].value
  {
    seq(|ts|, k requires 0 <= k < |ts| => ts[k].value)
  }

  lemma SpellPrepend(t: Token, rest: seq<Token>, s: string, pos: nat, next: nat)
    requires pos < next <= |s| && t.value == s[pos..next]
    requires forall i :: pos <= i < next ==> !IsSpace(s[i])
    requires Concat(Values(rest)) == RemoveSpaces(s[next..])
    ensures Concat(Values([t] + rest)) == RemoveSpaces(s[pos..])
  {
    assert s[pos..] == s[pos..next] + s[next..];
    RemoveSpacesAppend(s[pos..next], s[next..]);
    RemoveSpacesNone(s[pos..next]);
    assert Values([t] + rest)[1..] == Values(rest);
  }

  lemma TokenizeStepValue(s: string, pos: nat)
    requires pos < |s| && (IsPunct(s[pos]) || IsNameChar(s[pos])) && TokenizeFrom(s, pos).Ok?
    ensures var ts := TokenizeFrom(s, pos).value;
      ts == [ts[0]] + TokenizeFrom(s, Resume(s, pos)).value && ts[0].value == s[pos..Resume(s, pos)]
  {
    if pos + 2 <= |s| && s[pos..pos + 2] == CONDITIONAL_TEXT {
    } else if IsPunct(s[pos]) {
    }
  }

  /** Concatenating the token texts gives back the input minus its whitespace:
      the lexer drops nothing but whitespace and invents nothing. */
  lemma {:induction false} TokensSpellInput(s: string, pos: nat)
    requires pos <= |s|
    ensures TokenizeFrom(s, pos).Ok? ==>
      Concat(Values(TokenizeFrom(s, pos).value)) == RemoveSpaces(s[pos..])
    decreases |s| - pos
  {
    var r := TokenizeFrom(s, pos);
    if pos == |s| {
      assert Values(r.value) == [""];
    } else if r.Ok? {
      var c := s[pos];
      TokenizeStep(s, pos);
      var next := Resume(s, pos);
      TokensSpellInput(s, next);
      if IsSpace(c) {
        assert s[pos..] == [c] + s[pos + 1..];
      } else {
        TokenizeStepValue(s, pos);
        ResumeFacts(s, pos);
        SpellPrepend(r.value[0], TokenizeFrom(s, next).value, s, pos, next);
      }
    }
  }
}

=== FILE: migration.dfy ===
/** The bookkeeping of `MigrationRunner`: which files count as migrations,
    how their stems split into timestamp and name, and how `migrate_up`,
    `migrate_down` and `get_status` move stems in and out of the applied
    set. Loading a migration module and running its `up`/`down` are an
    oracle (`Behaviour`); the JSON state file is a value (`Stored`). */
module Migration {
  import opened Wrappers
  import opened Text

  /** The saved state: the applied stems and when each was applied. */
  datatype State = State(applied: set<string>, appliedAt: map<string, string>)

  /** The state file as `_load_state` finds it. */
  datatype Stored = Missing | Unreadable | Saved(state: State)

  /** What loading a migration and calling `up()`/`down()` on it does. */
  datatype Script = Script(loads: bool, upOk: bool, downOk: bool)

  datatype MigrationError =
    | StateUnreadable
    | LoadFailed(file: string)
    | UpFailed(file: string)
    | DownFailed(file: string)

  datatype MigrationStatus = MigrationStatus(timestamp: string, name: string, applied: bool, appliedAt: Option<string>)

  const EMPTY_STATE := State({}, map[])

  /** `_load_state`: a missing file is an empty state, an unreadable one an error. */
  function LoadState(stored: Stored): (r: Result<State, MigrationError>)
    ensures stored.Missing? ==> r == Ok(EMPTY_STATE)
    ensures stored.Unreadable? <==> r.Err?
    ensures stored.Saved? ==> r == Ok(stored.state)
  {
    match stored
    case Missing => Ok(EMPTY_STATE)
    case Unreadable => Err(StateUnreadable)
    case Saved(s) => Ok(s)
  }

  // ---------------------------------------------------------------------
  // _get_migration_files and _parse_migration_name
  // ---------------------------------------------------------------------

  const PY_SUFFIX: string := ".py"

  /** The glob matched it and it is neither `__init__.py` nor a dot-file. */
  predicate IsMigrationFile(file: string) {
    EndsWith(file, PY_SUFFIX) && file != "__init__.py" && !StartsWith(file, ".")
  }

  /** For the files the scan keeps, the stem is the name without `.py`. */
  lemma MigrationFileStem(file: string)
    requires IsMigrationFile(file)
    ensures Stem(file) + PY_SUFFIX == file
  {
    var a := file[..|file| - |PY_SUFFIX|];
    assert file == a + "." + "py";
    StemAndSuffix(a, "py");
  }

  /** The `target` filter: a falsy target keeps everything; otherwise the
      target must occur in the lower-cased stem (the target itself is not
      lower-cased). */
  predicate Selected(file: string, target: Option<string>) {
    target.None? || target.value == "" || Contains(Lower(Stem(file)), target.value)
  }

  function Filter(names: seq<string>, target: Option<string>): (r: seq<string>)
    ensures forall f :: f in r <==> f in names && IsMigrationFile(f) && Selected(f, target)
    ensures forall k :: 0 <= k < |r| ==> IsMigrationFile(r[k])
  {
    if names == [] then []
    else
      var rest := Filter(names[1..], target);
      assert forall f :: f in names <==> f == names[0] || f in names[1..];
      if IsMigrationFile(names[0]) && Selected(names[0], target) then [names[0]] + rest else rest
  }

  /** `_get_migration_files`: the directory listing (`None` when the
      directory does not exist), filtered and sorted by file name. */
  function MigrationFiles(dir: Option<seq<string>>, target: Option<string>): (r: seq<string>)
    ensures forall k :: 0 <= k < |r| ==> IsMigrationFile(r[k])
    ensures dir.None? ==> r == []
    ensures dir.Some? ==> forall f :: f in r <==> f in dir.value && IsMigrationFile(f) && Selected(f, target)
  {
    if dir.None? then []
    else
      var r := Sort(Filter(dir.value, target));
      assert forall f :: f in r <==> f in multiset(r);
      assert forall f :: f in Filter(dir.value, target) <==> f in multiset(Filter(dir.value, target));
      r
  }

  /** The files come in ascending name order, each selected entry of the
      listing exactly as often as it occurs there. */
  lemma MigrationFilesSorted(dir: seq<string>, target: Option<string>)
    ensures Sorted(MigrationFiles(Some(dir), target))
    ensures multiset(MigrationFiles(Some(dir), target)) == multiset(Filter(dir, target))
  {
  }

  /** A target with an upper-case letter in it can never occur in a
      lower-cased stem, so it selects nothing. */
  lemma UpperTargetSelectsNothing(dir: seq<string>, target: string, k: nat)
    requires k < |target| && IsUpper(target[k])
    ensures MigrationFiles(Some(dir), Some(target)) == []
  {
    var r := MigrationFiles(Some(dir), Some(target));
    if r != [] {
      var f := r[0];
      assert f in r;
      ContainsNoUpper(Lower(Stem(f)), target, k);
    }
  }

  lemma {:induction false} ContainsNoUpper(s: string, needle: string, k: nat)
    requires k < |needle| && IsUpper(needle[k])
    requires forall i :: 0 <= i < |s| ==> !IsUpper(s[i])
    ensures !Contains(s, needle)
    decreases |s|
  {
    if |needle| <= |s| {
      assert s[..|needle|][k] != needle[k];
    }
    if |s| > 0 {
      ContainsNoUpper(s[1..], needle, k);
    }
  }

  /** `_parse_migration_name`: split the stem at its first `_`. */
  function ParseMigrationName(stem: string): (r: (string, string))
    ensures '_' in stem ==> r.0 + "_" + r.1 == stem && '_' !in r.0
    ensures '_' !in stem ==> r == (stem, stem)
  {
    match SplitOnce(stem, '_')
    case Some(parts) => parts
    case None => (stem, stem)
  }

  /** Whatever comes before the first `_` is the timestamp and everything
      after it, later underscores included, is the name. */
  lemma ParseMigrationNameSplit(stem: string, timestamp: string, name: string)
    requires stem == timestamp + "_" + name && '_' !in timestamp
    ensures ParseMigrationName(stem) == (timestamp, name)
  {
    SplitOnceAt(stem, '_', timestamp, name);
  }

  /** The stems of a list of migration files, in the same order. */
  function Stems(files: seq<string>): (r: seq<string>)
    ensures |r| == |files| && forall k :: 0 <= k < |files| ==> r[k] == Stem(files[k])
  {
    seq(|files|, k requires 0 <= k < |files| => Stem(files[k]))
  }

  // ---------------------------------------------------------------------
  // get_status
  // ---------------------------------------------------------------------

  function Status(file: string, state: State): MigrationStatus {
    var (timestamp, name) := ParseMigrationName(Stem(file));
    MigrationStatus(timestamp, name, Stem(file) in state.applied,
                    if Stem(file) in state.appliedAt then Some(state.appliedAt[Stem(file)]) else None)
  }

  /** `get_status`: one entry per migration file, in file order. */
  function GetStatus(stored: Stored, dir: Option<seq<string>>, target: Option<string>): (r: Result<seq<MigrationStatus>, MigrationError>)
    ensures stored.Unreadable? <==> r.Err?
    ensures r.Ok? ==>
      var files := MigrationFiles(dir, target);
      && |r.value| == |files|
      && forall k :: 0 <= k < |files| ==>
           && (r.value[k].applied <==> stored.Saved? && Stem(files[k]) in stored.state.applied)
           && r.value[k].timestamp == ParseMigrationName(Stem(files[k])).0
           && r.value[k].name == ParseMigrationName(Stem(files[k])).1
  {
    match LoadState(stored)
    case Err(e) => Err(e)
    case Ok(state) =>
      var files := MigrationFiles(dir, target);
      Ok(seq(|files|, k requires 0 <= k < |files| => Status(files[k], state)))
  }

  /** Without a state file nothing is applied. */
  lemma StatusWithoutStateFile(dir: Option<seq<string>>, target: Option<string>)
    ensures GetStatus(Missing, dir, target).Ok?
    ensures forall s :: s in GetStatus(Missing, dir, target).value ==> !s.applied && s.appliedAt.None?
  {
  }

  // ---------------------------------------------------------------------
  // migrate_up and migrate_down
  // ---------------------------------------------------------------------

  /** `s[:count]` with Python's slicing: a negative count drops that many
      from the end. */
  function Take<T>(s: seq<T>, count: int): (r: seq<T>)
    ensures |r| <= |s| && r == s[..|r|]
    ensures 0 <= count <= |s| ==> |r| == count
    ensures count > |s| ==> r == s
    ensures -|s| <= count < 0 ==> |r| == |s| + count
    ensures count < -|s| ==> r == []
  {
    if count >= 0 then s[..if count < |s| then count else |s|]
    else s[..if |s| + count > 0 then |s| + count else 0]
  }

  /** The files whose stems are (or are not) in the applied set, in order. */
  function WithStatus(files: seq<string>, applied: set<string>, want: bool): (r: seq<string>)
    ensures forall k :: 0 <= k < |r| ==> (Stem(r[k]) in applied) == want
    ensures forall f :: f in r <==> f in files && ((Stem(f) in applied) == want)
    ensures |r| <= |files|
  {
    if files == [] then []
    else
      var rest := WithStatus(files[1..], applied, want);
      assert forall f :: f in files <==> f == files[0] || f in files[1..];
      if (Stem(files[0]) in applied) == want then [files[0]] + rest else rest
  }

  /** Runs `up()` over the batch in order; the first failure aborts it. */
  function RunUp(batch: seq<string>, behaviour: string -> Script): (r: Option<MigrationError>)
    ensures r.None? <==> forall k :: 0 <= k < |batch| ==> behaviour(batch[k]).loads && behaviour(batch[k]).upOk
  {
    if batch == [] then None
    else if !behaviour(batch[0]).loads then Some(LoadFailed(batch[0]))
    else if !behaviour(batch[0]).upOk then Some(UpFailed(batch[0]))
    else
      var r := RunUp(batch[1..], behaviour);
      assert forall k :: 1 <= k < |batch| ==> batch[k] == batch[1..][k - 1];
      r
  }

  /** Runs `down()` over the batch in order; the first failure aborts it. */
  function RunDown(batch: seq<string>, behaviour: string -> Script): (r: Option<MigrationError>)
    ensures r.None? <==> forall k :: 0 <= k < |batch| ==> behaviour(batch[k]).loads && behaviour(batch[k]).downOk
  {
    if batch == [] then None
    else if !behaviour(batch[0]).loads then Some(LoadFailed(batch[0]))
    else if !behaviour(batch[0]).downOk then Some(DownFailed(batch[0]))
    else
      var r := RunDown(batch[1..], behaviour);
      assert forall k :: 1 <= k < |batch| ==> batch[k] == batch[1..][k - 1];
      r
  }

  /** The set of a list's elements (`set(stems)`). */
  function Members(s: seq<string>): set<string> {
    set x | x in s
  }

  /** `applied_at[stem] = now(stem)` for every stem of the batch: the clock
      is read once per applied migration, so `now` maps each stem to the
      time read when that migration was applied. */
  function Stamp(appliedAt: map<string, string>, stems: seq<string>, now: string -> string): (r: map<string, string>)
    ensures r.Keys == appliedAt.Keys + Members(stems)
    ensures forall x :: x in r ==> r[x] == if x in stems then now(x) else appliedAt[x]
  {
    if stems == [] then appliedAt
    else
      assert forall x :: x in stems <==> x == stems[0] || x in stems[1..];
      Stamp(appliedAt, stems[1..], now)[stems[0] := now(stems[0])]
  }

  /** `applied_at.pop(stem, None)` for every stem of the batch. */
  function Unstamp(appliedAt: map<string, string>, stems: seq<string>): (r: map<string, string>)
    ensures r.Keys == appliedAt.Keys - Members(stems)
    ensures forall x :: x in r ==> r[x] == appliedAt[x]
  {
    appliedAt - Members(stems)
  }

  /** Records the batch as applied, each stem at its own `now` reading. */
  function MarkApplied(state: State, stems: seq<string>, now: string -> string): (r: State)
    ensures r.applied == state.applied + Members(stems)
    ensures r.appliedAt.Keys == state.appliedAt.Keys + Members(stems)
  {
    State(state.applied + Members(stems), Stamp(state.appliedAt, stems, now))
  }

  /** Forgets the batch: out of `applied` and out of `applied_at`. */
  function MarkRolledBack(state: State, stems: seq<string>): (r: State)
    ensures r.applied == state.applied - Members(stems)
    ensures r.appliedAt.Keys == state.appliedAt.Keys - Members(stems)
  {
    State(state.applied - Members(stems), Unstamp(state.appliedAt, stems))
  }

  /** The outcome of a command: the state file afterwards and the result. */
  datatype Run = Run(after: Stored, result: Result<seq<string>, MigrationError>)

  /** The files not applied yet, in ascending order. */
  function Pending(files: seq<string>, applied: set<string>): seq<string> {
    WithStatus(files, applied, false)
  }

  /** The applied files, newest (greatest file name) first. */
  function AppliedNewestFirst(files: seq<string>, applied: set<string>): seq<string> {
    WithStatus(Reverse(files), applied, true)
  }

  function Reverse<T>(s: seq<T>): (r: seq<T>)
    ensures |r| == |s| && forall k :: 0 <= k < |s| ==> r[k] == s[|s| - 1 - k]
  {
    if s == [] then [] else Reverse(s[1..]) + [s[0]]
  }

  /** The batch `migrate_up` runs: the pending files, cut to `count`. */
  function UpBatch(files: seq<string>, applied: set<string>, count: Option<int>): seq<string> {
    if count.Some? then Take(Pending(files, applied), count.value) else Pending(files, applied)
  }

  /** `migrate_up` once the state is loaded and the files are listed. */
  function UpWith(state: State, files: seq<string>, count: Option<int>, behaviour: string -> Script, now: string -> string)
    : (r: Result<(State, seq<string>), MigrationError>)
    ensures r.Err? <==> RunUp(UpBatch(files, state.applied, count), behaviour).Some?
  {
    var batch := UpBatch(files, state.applied, count);
    match RunUp(batch, behaviour)
    case Some(e) => Err(e)
    case None => Ok((MarkApplied(state, Stems(batch), now), Stems(batch)))
  }

  /** `migrate_down` once the state is loaded and the files are listed. */
  function DownWith(state: State, files: seq<string>, count: int, behaviour: string -> Script)
    : (r: Result<(State, seq<string>), MigrationError>)
    ensures r.Err? <==> RunDown(Take(AppliedNewestFirst(files, state.applied), count), behaviour).Some?
  {
    var batch := Take(AppliedNewestFirst(files, state.applied), count);
    match RunDown(batch, behaviour)
    case Some(e) => Err(e)
    case None => Ok((MarkRolledBack(state, Stems(batch)), Stems(batch)))
  }

  /** Saves the new state on success; on failure the saved state stays as
      it was. */
  function Finish(stored: Stored, r: Result<(State, seq<string>), MigrationError>): (run: Run)
    ensures run.result.Err? <==> r.Err?
    ensures r.Err? ==> run == Run(stored, Err(r.error))
    ensures r.Ok? ==> run == Run(Saved(r.value.0), Ok(r.value.1))
  {
    match r
    case Err(e) => Run(stored, Err(e))
    case Ok((state, done)) => Run(Saved(state), Ok(done))
  }

  /** What a run saves is what the next run loads: after a success the new
      state, after a failure whatever was loaded before. */
  lemma SaveThenLoad(stored: Stored, r: Result<(State, seq<string>), MigrationError>)
    ensures r.Ok? ==> LoadState(Finish(stored, r).after) == Ok(r.value.0)
    ensures r.Err? ==> LoadState(Finish(stored, r).after) == LoadState(stored)
  {
  }

  /** `migrate_up`: apply the pending files in ascending order (the first
      `count` of them when a count is given) and save the state. `now` gives
      the timestamp the clock returned when each one was applied. Any failure raises before the save. */
  function MigrateUp(stored: Stored, dir: Option<seq<string>>, target: Option<string>, count: Option<int>,
                     behaviour: string -> Script, now: string -> string): (r: Run)
    ensures r.result.Err? ==> r.after == stored
    ensures r.result.Ok? ==> r.after.Saved?
  {
    match LoadState(stored)
    case Err(e) => Run(stored, Err(e))
    case Ok(state) => Finish(stored, UpWith(state, MigrationFiles(dir, target), count, behaviour, now))
  }

  /** `migrate_down`: roll back the applied files in descending order (the
      first `count` of them, one by default) and save the state. Any
      failure raises before the save. */
  function MigrateDown(stored: Stored, dir: Option<seq<string>>, target: Option<string>, count: int,
                       behaviour: string -> Script): (r: Run)
    ensures r.result.Err? ==> r.after == stored
    ensures r.result.Ok? ==> r.after.Saved?
  {
    match LoadState(stored)
    case Err(e) => Run(stored, Err(e))
    case Ok(state) => Finish(stored, DownWith(state, MigrationFiles(dir, target), count, behaviour))
  }

  // ---------------------------------------------------------------------
  // Lists of files by status
  // ---------------------------------------------------------------------

  /** The first file `WithStatus` keeps is the first file of the list in
      the wanted status. */
  lemma {:induction false} WithStatusFirst(files: seq<string>, applied: set<string>, want: bool)
    requires WithStatus(files, applied, want) != []
    ensures exists i :: && 0 <= i < |files| && WithStatus(files, applied, want)[0] == files[i]
                        && (Stem(files[i]) in applied) == want
                        && forall j :: 0 <= j < i ==> (Stem(files[j]) in applied) != want
  {
    if (Stem(files[0]) in applied) == want {
      assert WithStatus(files, applied, want)[0] == files[0];
    } else {
      WithStatusFirst(files[1..], applied, want);
      var i :| && 0 <= i < |files[1..]| && WithStatus(files[1..], applied, want)[0] == files[1..][i]
               && (Stem(files[1..][i]) in applied) == want
               && forall j :: 0 <= j < i ==> (Stem(files[1..][j]) in applied) != want;
      assert WithStatus(files, applied, want) == WithStatus(files[1..], applied, want);
      assert files[i + 1] == files[1..][i];
      assert forall j :: 1 <= j < i + 1 ==> files[j] == files[1..][j - 1];
    }
  }

  /** A list whose files all have the wanted status is kept whole. */
  lemma {:induction false} WithStatusAll(files: seq<string>, applied: set<string>, want: bool)
    requires forall k :: 0 <= k < |files| ==> (Stem(files[k]) in applied) == want
    ensures WithStatus(files, applied, want) == files
  {
    if files != [] {
      WithStatusAll(files[1..], applied, want);
    }
  }

  /** A list none of whose files has the wanted status keeps nothing. */
  lemma {:induction false} WithStatusNone(files: seq<string>, applied: set<string>, want: bool)
    requires forall k :: 0 <= k < |files| ==> (Stem(files[k]) in applied) != want
    ensures WithStatus(files, applied, want) == []
  {
    if files != [] {
      WithStatusNone(files[1..], applied, want);
    }
  }

  lemma StemsMembers(batch: seq<string>)
    ensures forall x :: x in Members(Stems(batch)) <==> exists f :: f in batch && Stem(f) == x
  {
    forall x ensures x in Members(Stems(batch)) <==> exists f :: f in batch && Stem(f) == x {
      if exists f :: f in batch && Stem(f) == x {
        var f :| f in batch && Stem(f) == x;
        var k :| 0 <= k < |batch| && batch[k] == f;
        assert Stems(batch)[k] == x;
      }
    }
  }

  lemma TakeIsPrefix<T>(s: seq<T>, count: int)
    ensures forall x :: x in Take(s, count) ==> x in s
    ensures Take(s, count) != [] ==> Take(s, count)[0] == s[0]
  {
  }

  lemma ReverseMembers<T>(s: seq<T>)
    ensures forall x :: x in Reverse(s) <==> x in s
  {
    forall x | x in s ensures x in Reverse(s) {
      var k :| 0 <= k < |s| && s[k] == x;
      assert Reverse(s)[|s| - 1 - k] == x;
    }
  }

  lemma MembersReverse(s: seq<string>)
    ensures Members(Reverse(s)) == Members(s)
  {
    ReverseMembers(s);
  }

  lemma StemsReverse(files: seq<string>)
    ensures Stems(Reverse(files)) == Reverse(Stems(files))
  {
    var a, b := Stems(Reverse(files)), Reverse(Stems(files));
    assert |a| == |files| == |b|;
    forall k | 0 <= k < |a| ensures a[k] == b[k] {
      assert a[k] == Stem(files[|files| - 1 - k]);
    }
  }

  lemma StemsInMembers(files: seq<string>)
    ensures forall f :: f in files ==> Stem(f) in Members(Stems(files))
  {
    forall f | f in files ensures Stem(f) in Members(Stems(files)) {
      var k :| 0 <= k < |files| && files[k] == f;
      assert Stems(files)[k] == Stem(f);
    }
  }

  // ---------------------------------------------------------------------
  // migrate_up
  // ---------------------------------------------------------------------

  /** `migrate_up` applies only files that were pending, records exactly
      those as applied (with a timestamp), never more than `count`, and
      with no count leaves every listed file applied. */
  lemma UpWithApplies(state: State, files: seq<string>, count: Option<int>, behaviour: string -> Script, now: string -> string)
    requires UpWith(state, files, count, behaviour, now).Ok?
    ensures var (after, done) := UpWith(state, files, count, behaviour, now).value;
      && (forall x :: x in done ==> x !in state.applied && exists f :: f in files && Stem(f) == x)
      && after.applied == state.applied + Members(done)
      && after.appliedAt.Keys == state.appliedAt.Keys + Members(done)
      && (forall x :: x in done ==> after.appliedAt[x] == now(x))
      && (forall x :: x in state.appliedAt && x !in done ==> after.appliedAt[x] == state.appliedAt[x])
      && (count.Some? && count.value >= 0 ==> |done| <= count.value)
      && (count.None? ==> forall f :: f in files ==> Stem(f) in after.applied)
  {
    var pending := Pending(files, state.applied);
    TakeIsPrefix(pending, if count.Some? then count.value else 0);
    StemsMembers(UpBatch(files, state.applied, count));
  }

  /** The first migration `migrate_up` applies is the first pending file. */
  lemma UpWithOldestFirst(state: State, files: seq<string>, count: Option<int>, behaviour: string -> Script, now: string -> string)
    requires UpWith(state, files, count, behaviour, now).Ok?
    requires UpWith(state, files, count, behaviour, now).value.1 != []
    ensures exists i :: && 0 <= i < |files| && UpWith(state, files, count, behaviour, now).value.1[0] == Stem(files[i])
                        && Stem(files[i]) !in state.applied
                        && forall j :: 0 <= j < i ==> Stem(files[j]) in state.applied
  {
    TakeIsPrefix(Pending(files, state.applied), if count.Some? then count.value else 0);
    WithStatusFirst(files, state.applied, false);
  }

  /** With every listed file applied, `migrate_up` applies nothing. */
  lemma UpWithNothingPending(state: State, files: seq<string>, count: Option<int>, behaviour: string -> Script, now: string -> string)
    requires forall f :: f in files ==> Stem(f) in state.applied
    ensures UpWith(state, files, count, behaviour, now).Ok?
    ensures UpWith(state, files, count, behaviour, now).value.1 == []
  {
    WithStatusNone(files, state.applied, false);
    assert UpBatch(files, state.applied, count) == [];
  }

  /** From an empty state every listed file is pending and gets applied. */
  lemma UpWithFromScratch(files: seq<string>, behaviour: string -> Script, now: string -> string)
    requires forall f :: f in files ==> behaviour(f).loads && behaviour(f).upOk
    ensures UpWith(EMPTY_STATE, files, None, behaviour, now).Ok?
    ensures var (after, done) := UpWith(EMPTY_STATE, files, None, behaviour, now).value;
      && done == Stems(files)
      && after.applied == Members(done) && after.appliedAt.Keys == Members(done)
  {
    WithStatusAll(files, {}, false);
    assert forall k :: 0 <= k < |files| ==> files[k] in files;
    assert RunUp(files, behaviour).None?;
  }

  /** Command level: on success `migrate_up` has saved the applied set
      grown by exactly the returned stems, each of which was pending. */
  lemma MigrateUpApplies(stored: Stored, dir: Option<seq<string>>, target: Option<string>, count: Option<int>,
                         behaviour: string -> Script, now: string -> string)
    requires MigrateUp(stored, dir, target, count, behaviour, now).result.Ok?
    ensures var r := MigrateUp(stored, dir, target, count, behaviour, now);
      var before := LoadState(stored).value;
      var done := r.result.value;
      && (forall x :: x in done ==> x !in before.applied && exists f :: f in MigrationFiles(dir, target) && Stem(f) == x)
      && r.after.state.applied == before.applied + Members(done)
      && r.after.state.appliedAt.Keys == before.appliedAt.Keys + Members(done)
      && (count.Some? && count.value >= 0 ==> |done| <= count.value)
      && (count.None? ==> forall f :: f in MigrationFiles(dir, target) ==> Stem(f) in r.after.state.applied)
  {
    UpWithApplies(LoadState(stored).value, MigrationFiles(dir, target), count, behaviour, now);
  }

  /** Right after a full `migrate_up`, another `migrate_up` applies nothing. */
  lemma MigrateUpAgainEmpty(stored: Stored, dir: Option<seq<string>>, target: Option<string>,
                            behaviour: string -> Script, now: string -> string,
                            count: Option<int>, behaviour': string -> Script, now': string -> string)
    requires MigrateUp(stored, dir, target, None, behaviour, now).result.Ok?
    ensures var after := MigrateUp(stored, dir, target, None, behaviour, now).after;
      MigrateUp(after, dir, target, count, behaviour', now').result == Ok([])
  {
    MigrateUpApplies(stored, dir, target, None, behaviour, now);
    var after := MigrateUp(stored, dir, target, None, behaviour, now).after;
    UpWithNothingPending(after.state, MigrationFiles(dir, target), count, behaviour', now');
  }

  // ---------------------------------------------------------------------
  // migrate_down
  // ---------------------------------------------------------------------

  /** `migrate_down` rolls back only applied files, removes exactly those
      from `applied` and `applied_at`, and rolls back `count` of them when
      that many are applied. */
  lemma DownWithRollsBack(state: State, files: seq<string>, count: int, behaviour: string -> Script)
    requires DownWith(state, files, count, behaviour).Ok?
    ensures var (after, done) := DownWith(state, files, count, behaviour).value;
      var newest := AppliedNewestFirst(files, state.applied);
      && (forall x :: x in done ==> x in state.applied && exists f :: f in files && Stem(f) == x)
      && after.applied == state.applied - Members(done)
      && after.appliedAt.Keys == state.appliedAt.Keys - Members(done)
      && (count >= 0 ==> |done| == if count < |newest| then count else |newest|)
  {
    var batch := Take(AppliedNewestFirst(files, state.applied), count);
    TakeIsPrefix(AppliedNewestFirst(files, state.applied), count);
    StemsMembers(batch);
    ReverseMembers(files);
  }

  /** The first migration `migrate_down` rolls back is the newest applied
      file: no later file is applied. */
  lemma DownWithNewestFirst(state: State, files: seq<string>, count: int, behaviour: string -> Script)
    requires DownWith(state, files, count, behaviour).Ok?
    requires DownWith(state, files, count, behaviour).value.1 != []
    ensures exists i :: && 0 <= i < |files| && DownWith(state, files, count, behaviour).value.1[0] == Stem(files[i])
                        && Stem(files[i]) in state.applied
                        && forall j :: i < j < |files| ==> Stem(files[j]) !in state.applied
  {
    var rev := Reverse(files);
    TakeIsPrefix(AppliedNewestFirst(files, state.applied), count);
    WithStatusFirst(rev, state.applied, true);
    var i :| && 0 <= i < |rev| && AppliedNewestFirst(files, state.applied)[0] == rev[i]
             && Stem(rev[i]) in state.applied
             && forall j :: 0 <= j < i ==> Stem(rev[j]) !in state.applied;
    forall j | |files| - 1 - i < j < |files| ensures Stem(files[j]) !in state.applied {
      assert files[j] == rev[|files| - 1 - j];
    }
    assert rev[i] == files[|files| - 1 - i];
  }

  /** Rolling back as many files as are listed, when exactly their stems
      are applied, takes all of them newest first and empties the state. */
  lemma DownWithEverything(files: seq<string>, state: State, behaviour: string -> Script)
    requires forall f :: f in files ==> behaviour(f).loads && behaviour(f).downOk
    requires state.applied == Members(Stems(files)) && state.appliedAt.Keys == Members(Stems(files))
    ensures DownWith(state, files, |files|, behaviour) == Ok((EMPTY_STATE, Reverse(Stems(files))))
  {
    EverythingNewestFirst(files, state.applied);
    RunDownReverseOk(files, behaviour);
    DownWithBatch(state, files, |files|, behaviour, Reverse(files));
    RollbackReversedEmpties(state, files);
  }

  lemma EverythingNewestFirst(files: seq<string>, applied: set<string>)
    requires applied == Members(Stems(files))
    ensures Take(AppliedNewestFirst(files, applied), |files|) == Reverse(files)
  {
    AllAppliedNewestFirst(files, applied);
    TakeWhole(Reverse(files), |files|);
  }

  lemma TakeWhole<T>(s: seq<T>, count: int)
    requires count == |s|
    ensures Take(s, count) == s
  {
    assert s[..|s|] == s;
  }

  lemma RollbackReversedEmpties(state: State, files: seq<string>)
    requires state.applied == Members(Stems(files)) && state.appliedAt.Keys == Members(Stems(files))
    ensures Stems(Reverse(files)) == Reverse(Stems(files))
    ensures MarkRolledBack(state, Stems(Reverse(files))) == EMPTY_STATE
  {
    StemsReverse(files);
    RollbackAllEmpties(state, Stems(files));
  }

  lemma DownWithBatch(state: State, files: seq<string>, count: int, behaviour: string -> Script, batch: seq<string>)
    requires batch == Take(AppliedNewestFirst(files, state.applied), count)
    requires RunDown(batch, behaviour).None?
    ensures DownWith(state, files, count, behaviour) == Ok((MarkRolledBack(state, Stems(batch)), Stems(batch)))
  {
  }

  lemma AllAppliedNewestFirst(files: seq<string>, applied: set<string>)
    requires applied == Members(Stems(files))
    ensures AppliedNewestFirst(files, applied) == Reverse(files)
  {
    var rev := Reverse(files);
    ReverseMembers(files);
    StemsInMembers(files);
    assert forall k :: 0 <= k < |rev| ==> rev[k] in files;
    WithStatusAll(rev, applied, true);
  }

  lemma RunDownReverseOk(files: seq<string>, behaviour: string -> Script)
    requires forall f :: f in files ==> behaviour(f).loads && behaviour(f).downOk
    ensures RunDown(Reverse(files), behaviour).None?
  {
    var rev := Reverse(files);
    assert forall k :: 0 <= k < |rev| ==> rev[k] == files[|files| - 1 - k];
    assert forall k :: 0 <= k < |files| ==> files[k] in files;
  }

  lemma RollbackAllEmpties(state: State, stems: seq<string>)
    requires state.applied == Members(stems) && state.appliedAt.Keys == Members(stems)
    ensures MarkRolledBack(state, Reverse(stems)) == EMPTY_STATE
  {
    MembersReverse(stems);
    var m := Unstamp(state.appliedAt, Reverse(stems));
    assert m.Keys == {};
    assert m == map[];
  }

  /** Command level: on success `migrate_down` has saved the applied set
      shrunk by exactly the returned stems, each of which was applied. */
  lemma MigrateDownRollsBack(stored: Stored, dir: Option<seq<string>>, target: Option<string>, count: int,
                             behaviour: string -> Script)
    requires MigrateDown(stored, dir, target, count, behaviour).result.Ok?
    ensures var r := MigrateDown(stored, dir, target, count, behaviour);
      var before := LoadState(stored).value;
      var done := r.result.value;
      && (forall x :: x in done ==> x in before.applied && exists f :: f in MigrationFiles(dir, target) && Stem(f) == x)
      && r.after.state.applied == before.applied - Members(done)
      && r.after.state.appliedAt.Keys == before.appliedAt.Keys - Members(done)
  {
    DownWithRollsBack(LoadState(stored).value, MigrationFiles(dir, target), count, behaviour);
  }

  // ---------------------------------------------------------------------
  // The commands together
  // ---------------------------------------------------------------------

  /** From a project with no state file, applying everything and then
      rolling back as many migrations as were applied undoes it: the same
      stems come back in reverse order and the saved state is empty. */
  lemma UpThenDownRoundTrip(dir: Option<seq<string>>, target: Option<string>, behaviour: string -> Script, now: string -> string)
    requires forall f :: f in MigrationFiles(dir, target) ==>
               behaviour(f).loads && behaviour(f).upOk && behaviour(f).downOk
    ensures MigrateUp(Missing, dir, target, None, behaviour, now).result.Ok?
    ensures var up := MigrateUp(Missing, dir, target, None, behaviour, now);
      var down := MigrateDown(up.after, dir, target, |up.result.value|, behaviour);
      && up.result.value == Stems(MigrationFiles(dir, target))
      && down.result == Ok(Reverse(up.result.value))
      && down.after == Saved(EMPTY_STATE)
  {
    var files := MigrationFiles(dir, target);
    UpWithFromScratch(files, behaviour, now);
    var after := UpWith(EMPTY_STATE, files, None, behaviour, now).value.0;
    DownWithEverything(files, after, behaviour);
  }

  /** When every file's stem is recorded as applied, `get_status` reports
      every file applied. */
  lemma StatusAllApplied(stored: Stored, dir: Option<seq<string>>, target: Option<string>)
    requires stored.Saved?
    requires forall f :: f in MigrationFiles(dir, target) ==> Stem(f) in stored.state.applied
    ensures GetStatus(stored, dir, target).Ok?
    ensures forall s :: s in GetStatus(stored, dir, target).value ==> s.applied
  {
    var files := MigrationFiles(dir, target);
    var st := GetStatus(stored, dir, target).value;
    forall s | s in st ensures s.applied {
      var k :| 0 <= k < |st| && st[k] == s;
      assert files[k] in files;
    }
  }

  /** After a full `migrate_up`, `get_status` reports every file applied. */
  lemma StatusAfterUp(stored: Stored, dir: Option<seq<string>>, target: Option<string>, behaviour: string -> Script, now: string -> string)
    requires MigrateUp(stored, dir, target, None, behaviour, now).result.Ok?
    ensures var after := MigrateUp(stored, dir, target, None, behaviour, now).after;
      && GetStatus(after, dir, target).Ok?
      && forall s :: s in GetStatus(after, dir, target).value ==> s.applied
  {
    MigrateUpApplies(stored, dir, target, None, behaviour, now);
    StatusAllApplied(MigrateUp(stored, dir, target, None, behaviour, now).after, dir, target);
  }
}

=== FILE: parser.dfy ===
/** The recursive-descent parser of restack_gen/parser.py (`Parser`, `parse`).

    The parser object's mutable cursor becomes an explicit token index that
    every parsing function takes and returns. */
module Parser {
  import opened Wrappers
  import opened Text
  import opened IR
  import opened Lexer

  // ---------------------------------------------------------------------
  // Cursor
  // ---------------------------------------------------------------------

  /** What the parser accepts: the token list `tokenize` produces ends with
      EOF, and its names are never blank (an empty list is also accepted). */
  predicate ParserInput(toks: seq<Token>) {
    && (|toks| == 0 || toks[|toks| - 1].ttype == EofTok)
    && forall k {:trigger NameOk(toks[k])} :: 0 <= k < |toks| ==> NameOk(toks[k])
  }

  /** A NAME token carries a non-blank name. */
  predicate NameOk(t: Token) {
    t.ttype == NameTok ==> !IsBlank(t.value)
  }

  /** A cursor value: an index into the list, or 0 for the empty list. */
  predicate ValidPos(toks: seq<Token>, pos: nat) {
    pos < |toks| || pos == 0
  }

  /** `current_token`: an EOF at offset 0 stands in for an empty list. */
  function Current(toks: seq<Token>, pos: nat): Token
    requires ValidPos(toks, pos)
  {
    if pos < |toks| then toks[pos] else Token(EofTok, "", 0)
  }

  /** `advance`: moves on unless the cursor is on the last token. */
  function Advance(toks: seq<Token>, pos: nat): (p: nat)
    requires ValidPos(toks, pos)
    ensures ValidPos(toks, p)
    ensures pos <= p <= pos + 1
    ensures |toks| > 0 ==> p < |toks|
    ensures p == pos <==> pos + 1 >= |toks|
  {
    if pos + 1 < |toks| then pos + 1 else pos
  }

  /** On a well-formed list any token other than EOF is followed by another. */
  lemma AdvanceMoves(toks: seq<Token>, pos: nat)
    requires ParserInput(toks) && ValidPos(toks, pos) && Current(toks, pos).ttype != EofTok
    ensures Advance(toks, pos) == pos + 1
  {
  }

  /** An error reported at some token of the list. */
  predicate AtToken(toks: seq<Token>, e: ParseError) {
    if |toks| == 0 then e.position == 0
    else exists k :: 0 <= k < |toks| && e.position == toks[k].position
  }

  function UnexpectedToken(t: Token): (e: ParseError)
    ensures e.position == t.position
  {
    ParseError("Unexpected token " + t.ttype.Label() + " at position " + NatToString(t.position), t.position)
  }

  /** `expect`: the cursor's token must have kind `tt`; the cursor moves past it. */
  function Expect(toks: seq<Token>, pos: nat, tt: TokenType): (r: Result<nat, ParseError>)
    requires ValidPos(toks, pos)
    ensures r.Ok? <==> Current(toks, pos).ttype == tt
    ensures r.Ok? ==> r.value == Advance(toks, pos)
    ensures r.Err? ==> r.error.position == Current(toks, pos).position && AtToken(toks, r.error)
  {
    var t := Current(toks, pos);
    if t.ttype != tt then
      Err(ParseError("Expected " + tt.Label() + ", got " + t.ttype.Label()
                     + " at position " + NatToString(t.position), t.position))
    else Ok(Advance(toks, pos))
  }

  // ---------------------------------------------------------------------
  // What the parser builds
  // ---------------------------------------------------------------------

  /** A leaf straight from a NAME token: its type is still "unknown". */
  predicate FreshLeaf(l: Node) {
    l.Resource? && l.rtype == UNKNOWN && !IsBlank(l.name)
  }

  /** Every tree the parser returns: constructor-valid, flattened, and with
      untyped leaves. */
  predicate Parsed(n: Node) {
    WellShaped(n) && Canonical(n) && forall l :: l in Leaves(n) ==> FreshLeaf(l)
  }

  type Step = Result<(Node, nat), ParseError>

  /** A successful step leaves the cursor at or after `pos` with a parsed tree;
      a failure points at a token. */
  predicate GoodStep(toks: seq<Token>, pos: nat, r: Step) {
    && (r.Ok? ==> pos <= r.value.1 && ValidPos(toks, r.value.1) && Parsed(r.value.0))
    && (r.Err? ==> AtToken(toks, r.error))
  }

  lemma LeavesOfSnoc(nodes: seq<Node>, n: Node)
    ensures LeavesOf(nodes + [n]) == LeavesOf(nodes) + Leaves(n)
  {
    LeavesOfAppend(nodes, [n]);
    assert [n][1..] == [];
  }

  lemma ParsedSnoc(nodes: seq<Node>, n: Node)
    requires forall l :: l in LeavesOf(nodes) ==> FreshLeaf(l)
    requires Parsed(n)
    ensures forall l :: l in LeavesOf(nodes + [n]) ==> FreshLeaf(l)
  {
    LeavesOfSnoc(nodes, n);
  }

  lemma ParsedConditional(cond: string, t: Node, f: Option<Node>)
    requires !IsBlank(cond) && Parsed(t) && (f.Some? ==> Parsed(f.value))
    ensures Parsed(Conditional(cond, t, f))
  {
  }

  /** The tree for a list of operands joined by `→`. */
  /** What the `→` loop returns for its operands. */
  function SequenceOf(cs: seq<Node>): Node
    requires |cs| >= 1
  {
    if |cs| == 1 then cs[0] else FlattenSequence(Sequence(cs))
  }

  /** What the `⇄` loop returns for its operands. */
  function ParallelOf(cs: seq<Node>): Node
    requires |cs| >= 1
  {
    if |cs| == 1 then cs[0] else FlattenParallel(Parallel(cs))
  }

  lemma LeavesOfOne(x: Node)
    ensures LeavesOf([x]) == Leaves(x)
  {
    assert [x][1..] == [];
  }

  lemma ParsedSequence(nodes: seq<Node>)
    requires |nodes| >= 2 && forall c :: c in nodes ==> Parsed(c)
    requires forall l :: l in LeavesOf(nodes) ==> FreshLeaf(l)
    ensures Parsed(FlattenSequence(Sequence(nodes)))
  {
    FlattenKeepsCanonical(nodes);
  }

  lemma ParsedParallel(nodes: seq<Node>)
    requires |nodes| >= 2 && forall c :: c in nodes ==> Parsed(c)
    requires forall l :: l in LeavesOf(nodes) ==> FreshLeaf(l)
    ensures Parsed(FlattenParallel(Parallel(nodes)))
  {
    FlattenKeepsCanonical(nodes);
  }

  // ---------------------------------------------------------------------
  // The grammar, one function per parsing method
  // ---------------------------------------------------------------------

  /** `parse_expression`: expression := sequence */
  function ParseExpression(toks: seq<Token>, pos: nat): (r: Step)
    requires ParserInput(toks) && ValidPos(toks, pos)
    ensures GoodStep(toks, pos, r)
    decreases |toks| - pos, 9
  {
    ParseSequence(toks, pos)
  }

  /** `parse_sequence`: conditionals joined by `→`, flattened. */
  function ParseSequence(toks: seq<Token>, pos: nat): (r: Step)
    requires ParserInput(toks) && ValidPos(toks, pos)
    ensures GoodStep(toks, pos, r)
    decreases |toks| - pos, 8
  {
    var first :- ParseConditional(toks, pos);
    SequenceLoop(toks, first.1, [first.0])
  }

  /** The `while ARROW` loop of `parse_sequence`, with the operands so far. */
  function SequenceLoop(toks: seq<Token>, pos: nat, nodes: seq<Node>): (r: Step)
    requires ParserInput(toks) && ValidPos(toks, pos)
    requires |nodes| >= 1 && forall c :: c in nodes ==> Parsed(c)
    requires forall l :: l in LeavesOf(nodes) ==> FreshLeaf(l)
    ensures GoodStep(toks, pos, r)
    decreases |toks| - pos, 7
  {
    if Current(toks, pos).ttype == ArrowTok then
      AdvanceMoves(toks, pos);
      var next :- ParseConditional(toks, Advance(toks, pos));
      ParsedSnoc(nodes, next.0);
      SequenceLoop(toks, next.1, nodes + [next.0])
    else if |nodes| == 1 then
      Ok((nodes[0], pos))
    else
      ParsedSequence(nodes);
      Ok((FlattenSequence(Sequence(nodes)), pos))
  }

  /** `parse_conditional`: a parallel, then any number of `→?( … )` suffixes. */
  function ParseConditional(toks: seq<Token>, pos: nat): (r: Step)
    requires ParserInput(toks) && ValidPos(toks, pos)
    ensures GoodStep(toks, pos, r)
    decreases |toks| - pos, 6
  {
    var first :- ParseParallel(toks, pos);
    ConditionalLoop(toks, first.1, first.0)
  }

  const CONDITION_NAME_REQUIRED: string := "Conditional operator requires a condition name before \U{2192}?"

  /** The `while CONDITIONAL` loop of `parse_conditional`. Only a bare
      resource may stand before `→?`; its name becomes the condition key. */
  function ConditionalLoop(toks: seq<Token>, pos: nat, node: Node): (r: Step)
    requires ParserInput(toks) && ValidPos(toks, pos) && Parsed(node)
    ensures GoodStep(toks, pos, r)
    decreases |toks| - pos, 5
  {
    if Current(toks, pos).ttype != ConditionalTok then Ok((node, pos))
    else
      AdvanceMoves(toks, pos);
      var p1 := Advance(toks, pos);
      if !node.Resource? then
        Err(ParseError(CONDITION_NAME_REQUIRED, Current(toks, p1).position))
      else
        assert Leaves(node) == [node] && FreshLeaf(node);
        var p2 :- Expect(toks, p1, LParenTok);
        var t :- ParseExpression(toks, p2);
        if Current(toks, t.1).ttype == CommaTok then
          AdvanceMoves(toks, t.1);
          var f :- ParseExpression(toks, Advance(toks, t.1));
          var p3 :- Expect(toks, f.1, RParenTok);
          ParsedConditional(node.name, t.0, Some(f.0));
          ConditionalLoop(toks, p3, Conditional(node.name, t.0, Some(f.0)))
        else
          var p3 :- Expect(toks, t.1, RParenTok);
          ParsedConditional(node.name, t.0, None);
          ConditionalLoop(toks, p3, Conditional(node.name, t.0, None))
  }

  /** Only a bare name may stand before `→?`: after any other operand, a
      conditional included, the operator is an error at the next token. */
  lemma ConditionNeedsName(toks: seq<Token>, pos: nat, node: Node)
    requires ParserInput(toks) && ValidPos(toks, pos) && Parsed(node)
    requires Current(toks, pos).ttype == ConditionalTok && !node.Resource?
    ensures ConditionalLoop(toks, pos, node).Err?
    ensures ConditionalLoop(toks, pos, node).error.message == CONDITION_NAME_REQUIRED
  {
    AdvanceMoves(toks, pos);
  }

  /** After `name →? (` and a true branch, the false branch is present
      exactly when a comma follows the true branch, and is then the
      expression after that comma. */
  lemma ConditionalBranches(toks: seq<Token>, pos: nat, node: Node, t: Node, e: nat)
    requires ParserInput(toks) && pos + 2 < |toks| && Parsed(node) && node.Resource?
    requires toks[pos].ttype == ConditionalTok && toks[pos + 1].ttype == LParenTok
    requires ParseExpression(toks, pos + 2) == Ok((t, e))
    requires ConditionalLoop(toks, pos, node).Ok?
    ensures ConditionalLoop(toks, pos, node).value.0.Conditional?
    ensures ConditionalLoop(toks, pos, node).value.0.trueBranch == t
    ensures ConditionalLoop(toks, pos, node).value.0.falseBranch.Some? <==> Current(toks, e).ttype == CommaTok
    ensures Current(toks, e).ttype == CommaTok ==>
      && e + 1 < |toks| && ParseExpression(toks, e + 1).Ok?
      && ConditionalLoop(toks, pos, node).value.0.falseBranch == Some(ParseExpression(toks, e + 1).value.0)
  {
    AdvanceMoves(toks, pos);
    AdvanceMoves(toks, pos + 1);
    if Current(toks, e).ttype == CommaTok {
      AdvanceMoves(toks, e);
    }
  }

  /** `parse_parallel`: primaries joined by `⇄`, flattened. */
  function ParseParallel(toks: seq<Token>, pos: nat): (r: Step)
    requires ParserInput(toks) && ValidPos(toks, pos)
    ensures GoodStep(toks, pos, r)
    decreases |toks| - pos, 4
  {
    var first :- ParsePrimary(toks, pos);
    ParallelLoop(toks, first.1, [first.0])
  }

  /** The `while PARALLEL` loop of `parse_parallel`. */
  function ParallelLoop(toks: seq<Token>, pos: nat, nodes: seq<Node>): (r: Step)
    requires ParserInput(toks) && ValidPos(toks, pos)
    requires |nodes| >= 1 && forall c :: c in nodes ==> Parsed(c)
    requires forall l :: l in LeavesOf(nodes) ==> FreshLeaf(l)
    ensures GoodStep(toks, pos, r)
    decreases |toks| - pos, 3
  {
    if Current(toks, pos).ttype == ParallelTok then
      AdvanceMoves(toks, pos);
      var next :- ParsePrimary(toks, Advance(toks, pos));
      ParsedSnoc(nodes, next.0);
      ParallelLoop(toks, next.1, nodes + [next.0])
    else if |nodes| == 1 then
      Ok((nodes[0], pos))
    else
      ParsedParallel(nodes);
      Ok((FlattenParallel(Parallel(nodes)), pos))
  }

  /** `parse_primary`: a parenthesised expression or a NAME, whose resource
      type is left "unknown" for validation to fill in. */
  function ParsePrimary(toks: seq<Token>, pos: nat): (r: Step)
    requires ParserInput(toks) && ValidPos(toks, pos)
    ensures GoodStep(toks, pos, r)
    decreases |toks| - pos, 2
  {
    var t := Current(toks, pos);
    if t.ttype == LParenTok then
      AdvanceMoves(toks, pos);
      var inner :- ParseExpression(toks, Advance(toks, pos));
      var p :- Expect(toks, inner.1, RParenTok);
      Ok((inner.0, p))
    else if t.ttype == NameTok then
      var leaf := Resource(t.value, UNKNOWN);
      assert NameOk(toks[pos]);
      assert Leaves(leaf) == [leaf];
      Ok((leaf, Advance(toks, pos)))
    else
      Err(UnexpectedToken(t))
  }

  /** A NAME followed by neither `⇄` nor `→?` is a whole operand of `→`:
      a bare, untyped resource, with the cursor just past it. */
  lemma NameOperand(toks: seq<Token>, pos: nat)
    requires ParserInput(toks) && pos + 1 < |toks|
    requires toks[pos].ttype == NameTok
    requires toks[pos + 1].ttype != ParallelTok && toks[pos + 1].ttype != ConditionalTok
    ensures ParseConditional(toks, pos) == Ok((Resource(toks[pos].value, UNKNOWN), pos + 1))
  {
    var leaf := Resource(toks[pos].value, UNKNOWN);
    assert NameOk(toks[pos]);
    assert Leaves(leaf) == [leaf];
    assert ParsePrimary(toks, pos) == Ok((leaf, pos + 1));
    assert ParallelLoop(toks, pos + 1, [leaf]) == Ok((leaf, pos + 1));
    assert ParseParallel(toks, pos) == Ok((leaf, pos + 1));
    assert ConditionalLoop(toks, pos + 1, leaf) == Ok((leaf, pos + 1));
  }

  /** `B ⇄ C` followed by neither `⇄` nor `→?` is one operand of `→`:
      a two-branch parallel. */
  lemma ParallelOperand(toks: seq<Token>, pos: nat)
    requires ParserInput(toks) && pos + 3 < |toks|
    requires toks[pos].ttype == NameTok && toks[pos + 1].ttype == ParallelTok && toks[pos + 2].ttype == NameTok
    requires toks[pos + 3].ttype != ParallelTok && toks[pos + 3].ttype != ConditionalTok
    ensures ParseConditional(toks, pos)
         == Ok((Parallel([Resource(toks[pos].value, UNKNOWN), Resource(toks[pos + 2].value, UNKNOWN)]), pos + 3))
  {
    var rb, rc := Resource(toks[pos].value, UNKNOWN), Resource(toks[pos + 2].value, UNKNOWN);
    assert NameOk(toks[pos]) && NameOk(toks[pos + 2]);
    assert Leaves(rb) == [rb] && Leaves(rc) == [rc];
    assert ParsePrimary(toks, pos) == Ok((rb, pos + 1));
    assert ParsePrimary(toks, pos + 2) == Ok((rc, pos + 3));
    var p := Parallel([rb, rc]);
    SpliceParallelsNoop([rb, rc]);
    assert [rb] + [rc] == [rb, rc];
    LeavesOfSnoc([rb], rc);
    assert ParallelLoop(toks, pos + 3, [rb, rc]) == Ok((p, pos + 3));
    assert ParallelLoop(toks, pos + 1, [rb]) == Ok((p, pos + 3));
    assert ConditionalLoop(toks, pos + 3, p) == Ok((p, pos + 3));
  }

  // ---------------------------------------------------------------------
  // What the loops return
  // ---------------------------------------------------------------------

  lemma SequenceOfLeaves(cs: seq<Node>)
    requires |cs| >= 1
    ensures Leaves(SequenceOf(cs)) == LeavesOf(cs)
    ensures |cs| >= 2 ==> SequenceOf(cs).Sequence?
  {
    if |cs| == 1 {
      LeavesOfOne(cs[0]);
    }
  }

  lemma ParallelOfLeaves(cs: seq<Node>)
    requires |cs| >= 1
    ensures Leaves(ParallelOf(cs)) == LeavesOf(cs)
    ensures |cs| >= 2 ==> ParallelOf(cs).Parallel?
  {
    if |cs| == 1 {
      LeavesOfOne(cs[0]);
    }
  }

  /** The `→` loop runs until the token after an operand is not `→`. With no
      `→` at the cursor it returns the operands gathered so far (one alone,
      several as a flattened Sequence); whatever it returns keeps their
      leaves, in order, at the front, and is a Sequence once a second
      operand was read. */
  lemma {:induction false} SequenceLoopResult(toks: seq<Token>, pos: nat, nodes: seq<Node>)
    requires ParserInput(toks) && ValidPos(toks, pos)
    requires |nodes| >= 1 && forall c :: c in nodes ==> Parsed(c)
    requires forall l :: l in LeavesOf(nodes) ==> FreshLeaf(l)
    ensures Current(toks, pos).ttype != ArrowTok ==> SequenceLoop(toks, pos, nodes) == Ok((SequenceOf(nodes), pos))
    ensures var r := SequenceLoop(toks, pos, nodes);
      r.Ok? ==>
        && Current(toks, r.value.1).ttype != ArrowTok
        && LeavesOf(nodes) <= Leaves(r.value.0)
        && (|nodes| >= 2 || Current(toks, pos).ttype == ArrowTok ==> r.value.0.Sequence?)
    decreases |toks| - pos
  {
    if Current(toks, pos).ttype == ArrowTok {
      AdvanceMoves(toks, pos);
      var next := ParseConditional(toks, pos + 1);
      if next.Ok? {
        var (n, e) := next.value;
        ParsedSnoc(nodes, n);
        LeavesOfSnoc(nodes, n);
        SequenceLoopResult(toks, e, nodes + [n]);
      }
    } else {
      SequenceOfLeaves(nodes);
    }
  }

  /** The `⇄` loop, likewise: it stops at the first token after a primary
      that is not `⇄`, keeps the leaves gathered so far at the front, and
      yields a Parallel once a second primary was read. */
  lemma {:induction false} ParallelLoopResult(toks: seq<Token>, pos: nat, nodes: seq<Node>)
    requires ParserInput(toks) && ValidPos(toks, pos)
    requires |nodes| >= 1 && forall c :: c in nodes ==> Parsed(c)
    requires forall l :: l in LeavesOf(nodes) ==> FreshLeaf(l)
    ensures Current(toks, pos).ttype != ParallelTok ==> ParallelLoop(toks, pos, nodes) == Ok((ParallelOf(nodes), pos))
    ensures var r := ParallelLoop(toks, pos, nodes);
      r.Ok? ==>
        && Current(toks, r.value.1).ttype != ParallelTok
        && LeavesOf(nodes) <= Leaves(r.value.0)
        && (|nodes| >= 2 || Current(toks, pos).ttype == ParallelTok ==> r.value.0.Parallel?)
    decreases |toks| - pos
  {
    if Current(toks, pos).ttype == ParallelTok {
      AdvanceMoves(toks, pos);
      var next := ParsePrimary(toks, pos + 1);
      if next.Ok? {
        var (n, e) := next.value;
        ParsedSnoc(nodes, n);
        LeavesOfSnoc(nodes, n);
        ParallelLoopResult(toks, e, nodes + [n]);
      }
    } else {
      ParallelOfLeaves(nodes);
    }
  }

  /** The `→?` loop: without the operator the operand comes back as it is;
      with it, a successful parse stops at a token other than `→?` and is a
      Conditional keyed by the bare name that stood before the operator. */
  lemma ConditionalLoopResult(toks: seq<Token>, pos: nat, node: Node)
    requires ParserInput(toks) && ValidPos(toks, pos) && Parsed(node)
    ensures Current(toks, pos).ttype != ConditionalTok ==> ConditionalLoop(toks, pos, node) == Ok((node, pos))
    ensures var r := ConditionalLoop(toks, pos, node);
      r.Ok? ==> Current(toks, r.value.1).ttype != ConditionalTok
    ensures var r := ConditionalLoop(toks, pos, node);
      r.Ok? && Current(toks, pos).ttype == ConditionalTok ==>
        node.Resource? && r.value.0.Conditional? && r.value.0.condition == node.name
  {
    var r := ConditionalLoop(toks, pos, node);
    if Current(toks, pos).ttype == ConditionalTok && r.Ok? {
      AdvanceMoves(toks, pos);
      assert node.Resource? && Leaves(node) == [node] && FreshLeaf(node);
      var p2 := Expect(toks, pos + 1, LParenTok).value;
      var t := ParseExpression(toks, p2).value;
      var f: Option<Node>;
      var p3: nat;
      if Current(toks, t.1).ttype == CommaTok {
        AdvanceMoves(toks, t.1);
        var fr := ParseExpression(toks, t.1 + 1).value;
        f, p3 := Some(fr.0), Expect(toks, fr.1, RParenTok).value;
      } else {
        f, p3 := None, Expect(toks, t.1, RParenTok).value;
      }
      var c := Conditional(node.name, t.0, f);
      ParsedConditional(node.name, t.0, f);
      assert r == ConditionalLoop(toks, p3, c);
      if Current(toks, p3).ttype == ConditionalTok {
        ConditionNeedsName(toks, p3, c);
      }
    }
  }

  /** `parse_primary` by the cursor's token: a NAME is an untyped leaf, `(`
      opens an expression that must be closed by `)`, anything else is an
      "Unexpected token" error at that token. */
  lemma PrimaryCases(toks: seq<Token>, pos: nat)
    requires ParserInput(toks) && ValidPos(toks, pos)
    ensures var t := Current(toks, pos);
      t.ttype == NameTok ==> ParsePrimary(toks, pos) == Ok((Resource(t.value, UNKNOWN), Advance(toks, pos)))
    ensures var t := Current(toks, pos);
      t.ttype != NameTok && t.ttype != LParenTok ==> ParsePrimary(toks, pos) == Err(UnexpectedToken(t))
    ensures var r := ParsePrimary(toks, pos);
      Current(toks, pos).ttype == LParenTok && r.Ok? ==>
        && pos + 1 < |toks| && ParseExpression(toks, pos + 1).Ok?
        && r.value.0 == ParseExpression(toks, pos + 1).value.0
        && Current(toks, ParseExpression(toks, pos + 1).value.1).ttype == RParenTok
        && r.value.1 == Advance(toks, ParseExpression(toks, pos + 1).value.1)
  {
    if Current(toks, pos).ttype == LParenTok {
      AdvanceMoves(toks, pos);
    }
  }

  // ---------------------------------------------------------------------
  // parse(expression)
  // ---------------------------------------------------------------------

  /** `parse` after lexing: one expression, then nothing but EOF. */
  function ParseTokens(toks: seq<Token>): (r: Result<Node, ParseError>)
    requires ParserInput(toks)
    ensures r.Ok? ==> Parsed(r.value)
    ensures r.Err? ==> AtToken(toks, r.error)
  {
    var res :- ParseExpression(toks, 0);
    var t := Current(toks, res.1);
    if t.ttype != EofTok then Err(UnexpectedToken(t)) else Ok(res.0)
  }

  /** An expression followed by anything but EOF is refused at the first
      leftover token. */
  lemma LeftoverTokensRejected(toks: seq<Token>, n: Node, p: nat)
    requires ParserInput(toks) && ParseExpression(toks, 0) == Ok((n, p))
    requires Current(toks, p).ttype != EofTok
    ensures ParseTokens(toks) == Err(UnexpectedToken(Current(toks, p)))
  {
  }

  /** `parse`: blank input is refused before lexing; lexer errors pass
      through; the whole token list must be consumed. */
  function Parse(s: string): (r: Result<Node, ParseError>)
    ensures IsBlank(s) <==> r == Err(ParseError("Empty expression", -1))
    ensures !IsBlank(s) && Tokenize(s).Err? ==> r == Err(Tokenize(s).error)
    ensures !IsBlank(s) && Tokenize(s).Ok? ==> r == ParseTokens(Tokenize(s).value)
    ensures r.Ok? ==> Parsed(r.value)
    ensures r.Err? && !IsBlank(s) ==> 0 <= r.error.position <= |s|
  {
    StripEmptyIffBlank(s);
    if s == "" || Strip(s) == "" then Err(ParseError("Empty expression", -1))
    else
      var toks :- Tokenize(s);
      TokensAreParserInput(s, toks);
      var r := ParseTokens(toks);
      if r.Err? then
        AtTokenBound(toks, r.error, |s|);
        r
      else r
  }

  lemma AtTokenBound(toks: seq<Token>, e: ParseError, bound: nat)
    requires AtToken(toks, e)
    requires forall k :: 0 <= k < |toks| ==> toks[k].position <= bound
    ensures 0 <= e.position <= bound
  {
  }

  /** What `tokenize` returns is what the parser accepts. */
  lemma TokensAreParserInput(s: string, toks: seq<Token>)
    requires Tokenize(s) == Ok(toks)
    ensures ParserInput(toks)
    ensures forall k :: 0 <= k < |toks| ==> toks[k].position <= |s|
  {
  }
}

=== FILE: project.dfy ===
/** `validate_project_name`: empty, then the lower-case identifier pattern,
    then Python keywords, then a short list of reserved directory names. */
module Project {
  import opened Text

  /** The `(is_valid, error_message)` pair. */
  datatype Verdict = Verdict(valid: bool, message: string)

  /** `keyword.kwlist` (hard keywords only: `match`, `case`, `type` and `_`
      are soft keywords and `iskeyword` is false for them). */
  const KEYWORDS: set<string> := {
    "False", "None", "True", "and", "as", "assert", "async", "await", "break",
    "class", "continue", "def", "del", "elif", "else", "except", "finally",
    "for", "from", "global", "if", "import", "in", "is", "lambda", "nonlocal",
    "not", "or", "pass", "raise", "return", "try", "while", "with", "yield"
  }

  const RESERVED: set<string> := {"test", "tests", "src", "lib", "bin", "dist", "build", "venv"}

  const EMPTY_MESSAGE: string := "Project name cannot be empty"
  const PATTERN_MESSAGE: string :=
    "Project name must start with a letter and contain only lowercase letters, numbers, and underscores"

  function KeywordMessage(name: string): string {
    "'" + name + "' is a Python keyword and cannot be used as a project name"
  }

  function ReservedMessage(name: string): string {
    "'" + name + "' is a reserved word and cannot be used as a project name"
  }

  predicate NameChar(c: char) { IsLower(c) || IsDigit(c) || c == '_' }

  /** The whole string is `[a-z][a-z0-9_]*`. */
  predicate LowerIdentifier(s: string) {
    |s| >= 1 && IsLower(s[0]) && forall i :: 0 <= i < |s| ==> NameChar(s[i])
  }

  /** `re.match(r"^[a-z][a-z0-9_]*$", name)`. Python's `$` matches at the
      end of the string and also just before a newline that ends it. */
  predicate MatchesPattern(name: string) {
    || LowerIdentifier(name)
    || (|name| >= 1 && name[|name| - 1] == '\n' && LowerIdentifier(name[..|name| - 1]))
  }

  /** `validate_project_name` as written. */
  function ValidateProjectName(name: string): (r: Verdict)
    ensures r.valid <==> r.message == ""
    ensures name == "" ==> r == Verdict(false, EMPTY_MESSAGE)
    ensures name != "" && !MatchesPattern(name) ==> r == Verdict(false, PATTERN_MESSAGE)
    ensures MatchesPattern(name) && name in KEYWORDS ==> r == Verdict(false, KeywordMessage(name))
    ensures MatchesPattern(name) && name !in KEYWORDS && name in RESERVED ==> r == Verdict(false, ReservedMessage(name))
    ensures r.valid ==> MatchesPattern(name) && name !in KEYWORDS && name !in RESERVED
  {
    if name == "" then Verdict(false, EMPTY_MESSAGE)
    else if !MatchesPattern(name) then Verdict(false, PATTERN_MESSAGE)
    else if name in KEYWORDS then Verdict(false, KeywordMessage(name))
    else if name in RESERVED then Verdict(false, ReservedMessage(name))
    else Verdict(true, "")
  }

  /** Keywords and reserved words do not overlap, and the capitalised
      keywords never pass the pattern, so each rejected name has one reason. */
  lemma ChecksDoNotOverlap()
    ensures KEYWORDS * RESERVED == {}
    ensures forall k :: k in KEYWORDS && MatchesPattern(k) ==> IsLower(k[0])
  {
  }

  /** A valid name is a lower-case identifier, possibly followed by one
      newline, that is neither a keyword nor reserved. */
  lemma ValidNamesShape(name: string)
    requires ValidateProjectName(name).valid
    ensures |name| >= 1 && IsLower(name[0])
    ensures forall i :: 0 <= i < |name| - 1 ==> NameChar(name[i])
    ensures NameChar(name[|name| - 1]) || name[|name| - 1] == '\n'
  {
    if !LowerIdentifier(name) {
      assert forall i :: 0 <= i < |name| - 1 ==> name[i] == name[..|name| - 1][i];
    }
  }

  /** No keyword ends in a newline. */
  lemma KeywordEndsInLetter(k: string)
    requires k in KEYWORDS
    ensures |k| > 0 && k[|k| - 1] != '\n'
  {
    if k == "False" || k == "None" || k == "True" || k == "and" || k == "as" || k == "assert" {
    } else if k == "async" || k == "await" || k == "break" || k == "class" || k == "continue" || k == "def" {
    } else if k == "del" || k == "elif" || k == "else" || k == "except" || k == "finally" || k == "for" {
    } else if k == "from" || k == "global" || k == "if" || k == "import" || k == "in" || k == "is" {
    } else if k == "lambda" || k == "nonlocal" || k == "not" || k == "or" || k == "pass" || k == "raise" {
    } else if k == "return" || k == "try" || k == "while" || k == "with" || k == "yield" {
    }
  }

  /** No reserved word ends in a newline. */
  lemma ReservedEndsInLetter(k: string)
    requires k in RESERVED
    ensures |k| > 0 && k[|k| - 1] != '\n'
  {
  }

  /** Any lower-case identifier followed by one newline is accepted, even
      when the identifier itself is a keyword or reserved. */
  lemma NewlineSuffixAccepted(word: string)
    requires LowerIdentifier(word)
    ensures !LowerIdentifier(word + "\n")
    ensures ValidateProjectName(word + "\n").valid
  {
    var name := word + "\n";
    assert name[..|name| - 1] == word;
    assert !NameChar(name[|name| - 1]);
    if name in KEYWORDS {
      KeywordEndsInLetter(name);
    }
    if name in RESERVED {
      ReservedEndsInLetter(name);
    }
  }

  /** A keyword or reserved word is rejected. */
  lemma ListedRejected(word: string)
    requires word in KEYWORDS || word in RESERVED
    ensures !ValidateProjectName(word).valid
  {
  }

  /** The pattern check lets one trailing newline through: "demo\n" is
      accepted although it is not an identifier. */
  lemma TrailingNewlineAccepted()
    ensures !LowerIdentifier("demo\n")
    ensures ValidateProjectName("demo\n").valid
  {
    assert LowerIdentifier("demo");
    NewlineSuffixAccepted("demo");
    assert "demo" + "\n" == "demo\n";
  }

  /** "test\n" passes although the bare word is reserved. */
  lemma ReservedWithNewlineAccepted()
    ensures !ValidateProjectName("test").valid
    ensures ValidateProjectName("test\n").valid
  {
    ListedRejected("test");
    assert LowerIdentifier("test");
    NewlineSuffixAccepted("test");
    assert "test" + "\n" == "test\n";
  }

  /** "class\n" passes although the bare word is a keyword. */
  lemma KeywordWithNewlineAccepted()
    ensures !ValidateProjectName("class").valid
    ensures ValidateProjectName("class\n").valid
  {
    ListedRejected("class");
    assert LowerIdentifier("class");
    NewlineSuffixAccepted("class");
    assert "class" + "\n" == "class\n";
  }

  /** The evident intent: the whole name matches the pattern. */
  function ValidateProjectNameStrict(name: string): (r: Verdict)
    ensures r.valid <==> r.message == ""
    ensures r.valid <==> LowerIdentifier(name) && name !in KEYWORDS && name !in RESERVED
  {
    if name == "" then Verdict(false, EMPTY_MESSAGE)
    else if !LowerIdentifier(name) then Verdict(false, PATTERN_MESSAGE)
    else if name in KEYWORDS then Verdict(false, KeywordMessage(name))
    else if name in RESERVED then Verdict(false, ReservedMessage(name))
    else Verdict(true, "")
  }

  /** The strict check differs from the written one exactly on names that
      end in a newline: it rejects those and agrees on every other name. */
  lemma StrictAgreesWithoutNewline(name: string)
    ensures |name| == 0 || name[|name| - 1] != '\n' ==> ValidateProjectNameStrict(name) == ValidateProjectName(name)
    ensures |name| >= 1 && name[|name| - 1] == '\n' ==> !ValidateProjectNameStrict(name).valid
    ensures ValidateProjectNameStrict(name).valid ==> ValidateProjectName(name).valid
  {
    if |name| >= 1 && name[|name| - 1] == '\n' {
      assert !NameChar(name[|name| - 1]);
    }
  }
}

=== FILE: render.dfy ===
/** A printer for pipeline trees as token lists, and the proof that the
    parser of restack_gen/parser.py reads every tree it can build back from
    the printed form. */
module Render {
  import opened Wrappers
  import opened Text
  import opened IR
  import opened Lexer
  import opened Parser

  // ---------------------------------------------------------------------
  // Printing
  // ---------------------------------------------------------------------

  function Size(n: Node): nat {
    match n
    case Resource(_, _) => 1
    case Sequence(cs) => 1 + SizeOf(cs)
    case Parallel(cs) => 1 + SizeOf(cs)
    case Conditional(_, t, f) => 1 + Size(t) + (if f.Some? then Size(f.value) else 0)
  }

  function SizeOf(cs: seq<Node>): nat {
    if cs == [] then 0 else Size(cs[0]) + SizeOf(cs[1..])
  }

  /** The token of each operator or bracket kind, with the text the lexer gives it. */
  function Sym(tt: TokenType): (t: Token)
    requires tt != NameTok
    ensures t.ttype == tt && WellLexed(t)
  {
    match tt
    case ArrowTok => Token(ArrowTok, [ARROW_CHAR], 0)
    case ParallelTok => Token(ParallelTok, [PARALLEL_CHAR], 0)
    case ConditionalTok => Token(ConditionalTok, CONDITIONAL_TEXT, 0)
    case CommaTok => Token(CommaTok, ",", 0)
    case LParenTok => Token(LParenTok, "(", 0)
    case RParenTok => Token(RParenTok, ")", 0)
    case EofTok => Token(EofTok, "", 0)
  }

  /** An operand: a bare name, or any other tree in parentheses. */
  function Atom(n: Node): seq<Token>
    decreases Size(n), 1
  {
    if n.Resource? then [Token(NameTok, n.name, 0)] else [Sym(LParenTok)] + Print(n) + [Sym(RParenTok)]
  }

  /** `op a1 op a2 …` for the operands after the first. */
  function Tail(rest: seq<Node>, op: TokenType): seq<Token>
    requires op != NameTok
    decreases SizeOf(rest), 2
  {
    if rest == [] then [] else [Sym(op)] + Atom(rest[0]) + Tail(rest[1..], op)
  }

  function Joined(cs: seq<Node>, op: TokenType): seq<Token>
    requires op != NameTok
    decreases SizeOf(cs), 3
  {
    if cs == [] then [] else Atom(cs[0]) + Tail(cs[1..], op)
  }

  /** Operands joined by `→` or `⇄`; a conditional as `c →?( t , f )`. */
  function Print(n: Node): seq<Token>
    decreases Size(n), 0
  {
    match n
    case Resource(name, _) => [Token(NameTok, name, 0)]
    case Sequence(cs) => Joined(cs, ArrowTok)
    case Parallel(cs) => Joined(cs, ParallelTok)
    case Conditional(c, t, f) =>
      [Token(NameTok, c, 0), Sym(ConditionalTok), Sym(LParenTok)] + Print(t)
      + (if f.Some? then [Sym(CommaTok)] + Print(f.value) else []) + [Sym(RParenTok)]
  }

  // ---------------------------------------------------------------------
  // Printed names are never blank
  // ---------------------------------------------------------------------

  predicate NamesOk(ts: seq<Token>) {
    forall k :: 0 <= k < |ts| && ts[k].ttype == NameTok ==> !IsBlank(ts[k].value)
  }

  lemma {:induction false} LeavesOfMember(cs: seq<Node>, i: nat)
    requires i < |cs|
    ensures forall l :: l in Leaves(cs[i]) ==> l in LeavesOf(cs)
  {
    if i > 0 {
      LeavesOfMember(cs[1..], i - 1);
    }
  }

  /** The parts of a parsed tree are parsed trees. */
  lemma ParsedParts(n: Node)
    requires Parsed(n)
    ensures (n.Sequence? || n.Parallel?) ==> forall c :: c in n.nodes ==> Parsed(c)
    ensures n.Conditional? ==> Parsed(n.trueBranch) && (n.falseBranch.Some? ==> Parsed(n.falseBranch.value))
  {
    if n.Sequence? || n.Parallel? {
      forall c | c in n.nodes
        ensures Parsed(c)
      {
        var i :| 0 <= i < |n.nodes| && n.nodes[i] == c;
        LeavesOfMember(n.nodes, i);
      }
    }
  }

  lemma {:induction false} PrintNames(n: Node)
    requires Parsed(n)
    ensures NamesOk(Print(n))
    decreases Size(n), 0
  {
    match n
    case Resource(_, _) =>
      assert Leaves(n) == [n] && FreshLeaf(n);
    case Sequence(cs) =>
      ParsedParts(n);
      JoinedNames(cs, ArrowTok);
    case Parallel(cs) =>
      ParsedParts(n);
      JoinedNames(cs, ParallelTok);
    case Conditional(c, t, f) =>
      ParsedParts(n);
      PrintNames(t);
      if f.Some? {
        PrintNames(f.value);
      }
  }

  lemma {:induction false} AtomNames(n: Node)
    requires Parsed(n)
    ensures NamesOk(Atom(n))
    decreases Size(n), 1
  {
    if n.Resource? {
      assert Leaves(n) == [n] && FreshLeaf(n);
    } else {
      PrintNames(n);
    }
  }

  lemma {:induction false} TailNames(rest: seq<Node>, op: TokenType)
    requires op != NameTok && forall c :: c in rest ==> Parsed(c)
    ensures NamesOk(Tail(rest, op))
    decreases SizeOf(rest), 2
  {
    if rest != [] {
      AtomNames(rest[0]);
      TailNames(rest[1..], op);
    }
  }

  lemma {:induction false} JoinedNames(cs: seq<Node>, op: TokenType)
    requires op != NameTok && forall c :: c in cs ==> Parsed(c)
    ensures NamesOk(Joined(cs, op))
    decreases SizeOf(cs), 3
  {
    if cs != [] {
      AtomNames(cs[0]);
      TailNames(cs[1..], op);
    }
  }

  // ---------------------------------------------------------------------
  // Reading printed trees back
  // ---------------------------------------------------------------------

  lemma {:induction false} SizeOfMember(cs: seq<Node>, i: nat)
    requires i < |cs|
    ensures Size(cs[i]) <= SizeOf(cs)
  {
    if i > 0 {
      SizeOfMember(cs[1..], i - 1);
    }
  }

  /** Every part of a tree is smaller than the tree. */
  lemma SizeParts(n: Node)
    ensures (n.Sequence? || n.Parallel?) && |n.nodes| > 0 ==>
      Size(n.nodes[0]) < Size(n) && SizeOf(n.nodes[1..]) < Size(n)
    ensures (n.Sequence? || n.Parallel?) ==> forall c :: c in n.nodes ==> Size(c) < Size(n)
  {
    if n.Sequence? || n.Parallel? {
      forall c | c in n.nodes
        ensures Size(c) < Size(n)
      {
        var i :| 0 <= i < |n.nodes| && n.nodes[i] == c;
        SizeOfMember(n.nodes, i);
      }
    }
  }

  /** `part` occurs in `toks` starting at index `pos`. */
  predicate At(toks: seq<Token>, pos: nat, part: seq<Token>) {
    pos + |part| <= |toks| && forall i :: 0 <= i < |part| ==> toks[pos + i] == part[i]
  }

  lemma AtIndex(toks: seq<Token>, pos: nat, part: seq<Token>, i: nat)
    requires At(toks, pos, part) && i < |part|
    ensures toks[pos + i] == part[i]
  {
  }

  lemma AtSplit(toks: seq<Token>, pos: nat, a: seq<Token>, b: seq<Token>)
    requires At(toks, pos, a + b)
    ensures At(toks, pos, a) && At(toks, pos + |a|, b)
  {
    forall i | 0 <= i < |a|
      ensures toks[pos + i] == a[i]
    {
      assert (a + b)[i] == a[i];
    }
    forall i | 0 <= i < |b|
      ensures toks[pos + |a| + i] == b[i]
    {
      assert toks[pos + (|a| + i)] == (a + b)[|a| + i];
    }
  }

  /** A token that ends an expression: `)`, `,` or the end of input. */
  predicate Stop(tt: TokenType) {
    tt == RParenTok || tt == CommaTok || tt == EofTok
  }

  lemma ParallelFromPrimary(toks: seq<Token>, pos: nat, n: Node, e: nat)
    requires ParserInput(toks) && ValidPos(toks, pos) && ValidPos(toks, e)
    requires ParsePrimary(toks, pos) == Ok((n, e)) && Current(toks, e).ttype != ParallelTok
    ensures ParseParallel(toks, pos) == Ok((n, e))
  {
  }

  lemma ConditionalFromParallel(toks: seq<Token>, pos: nat, n: Node, e: nat)
    requires ParserInput(toks) && ValidPos(toks, pos) && ValidPos(toks, e)
    requires ParseParallel(toks, pos) == Ok((n, e)) && Current(toks, e).ttype != ConditionalTok
    ensures ParseConditional(toks, pos) == Ok((n, e))
  {
  }

  lemma ExpressionFromConditional(toks: seq<Token>, pos: nat, n: Node, e: nat)
    requires ParserInput(toks) && ValidPos(toks, pos) && ValidPos(toks, e)
    requires ParseConditional(toks, pos) == Ok((n, e)) && Current(toks, e).ttype != ArrowTok
    ensures ParseExpression(toks, pos) == Ok((n, e))
  {
    assert SequenceLoop(toks, e, [n]) == Ok((n, e));
    assert ParseSequence(toks, pos) == Ok((n, e));
  }

  lemma ParallelLoopEnd(toks: seq<Token>, pos: nat, nodes: seq<Node>)
    requires ParserInput(toks) && ValidPos(toks, pos) && Current(toks, pos).ttype != ParallelTok
    requires |nodes| >= 1 && forall c :: c in nodes ==> Parsed(c)
    requires forall l :: l in LeavesOf(nodes) ==> FreshLeaf(l)
    ensures ParallelLoop(toks, pos, nodes) == Ok((ParallelOf(nodes), pos))
  {
  }

  lemma SequenceLoopEnd(toks: seq<Token>, pos: nat, nodes: seq<Node>)
    requires ParserInput(toks) && ValidPos(toks, pos) && Current(toks, pos).ttype != ArrowTok
    requires |nodes| >= 1 && forall c :: c in nodes ==> Parsed(c)
    requires forall l :: l in LeavesOf(nodes) ==> FreshLeaf(l)
    ensures SequenceLoop(toks, pos, nodes) == Ok((SequenceOf(nodes), pos))
  {
  }

  lemma SizeOfTail(rest: seq<Node>)
    requires rest != []
    ensures Size(rest[0]) <= SizeOf(rest) && SizeOf(rest[1..]) < SizeOf(rest)
  {
    assert Size(rest[0]) >= 1;
  }

  lemma SnocRest(nodes: seq<Node>, rest: seq<Node>)
    requires rest != []
    ensures nodes + [rest[0]] + rest[1..] == nodes + rest
  {
    assert rest == [rest[0]] + rest[1..];
  }

  lemma ParallelLoopStep(toks: seq<Token>, pos: nat, nodes: seq<Node>, c: Node, e: nat)
    requires ParserInput(toks) && pos + 1 < |toks| && toks[pos].ttype == ParallelTok
    requires |nodes| >= 1 && forall c :: c in nodes ==> Parsed(c)
    requires forall l :: l in LeavesOf(nodes) ==> FreshLeaf(l)
    requires ParsePrimary(toks, pos + 1) == Ok((c, e))
    ensures Parsed(c) && ValidPos(toks, e) && forall l :: l in LeavesOf(nodes + [c]) ==> FreshLeaf(l)
    ensures ParallelLoop(toks, pos, nodes) == ParallelLoop(toks, e, nodes + [c])
  {
    ParsedSnoc(nodes, c);
  }

  lemma SequenceLoopStep(toks: seq<Token>, pos: nat, nodes: seq<Node>, c: Node, e: nat)
    requires ParserInput(toks) && pos + 1 < |toks| && toks[pos].ttype == ArrowTok
    requires |nodes| >= 1 && forall c :: c in nodes ==> Parsed(c)
    requires forall l :: l in LeavesOf(nodes) ==> FreshLeaf(l)
    requires ParseConditional(toks, pos + 1) == Ok((c, e))
    ensures Parsed(c) && ValidPos(toks, e) && forall l :: l in LeavesOf(nodes + [c]) ==> FreshLeaf(l)
    ensures SequenceLoop(toks, pos, nodes) == SequenceLoop(toks, e, nodes + [c])
  {
    ParsedSnoc(nodes, c);
  }

  /** An operand is read by `parse_primary`. */
  lemma {:induction false} PrimaryRoundTrip(toks: seq<Token>, pos: nat, n: Node)
    requires ParserInput(toks) && Parsed(n)
    requires At(toks, pos, Atom(n)) && pos + |Atom(n)| < |toks|
    ensures ParsePrimary(toks, pos) == Ok((n, pos + |Atom(n)|))
    decreases Size(n), 2
  {
    assert toks[pos] == Atom(n)[0];
    if n.Resource? {
      assert Leaves(n) == [n] && FreshLeaf(n);
    } else {
      var inner := Print(n);
      AtSplit(toks, pos, [Sym(LParenTok)] + inner, [Sym(RParenTok)]);
      AtSplit(toks, pos, [Sym(LParenTok)], inner);
      AtIndex(toks, pos + |[Sym(LParenTok)] + inner|, [Sym(RParenTok)], 0);
      ExpressionRoundTrip(toks, pos + 1, n);
    }
  }

  /** An operand followed by `→` or by the end of an expression is read by
      `parse_conditional`. */
  lemma {:induction false} OperandRoundTrip(toks: seq<Token>, pos: nat, n: Node)
    requires ParserInput(toks) && Parsed(n)
    requires At(toks, pos, Atom(n)) && pos + |Atom(n)| < |toks|
    requires var tt := toks[pos + |Atom(n)|].ttype; tt == ArrowTok || Stop(tt)
    ensures ParseConditional(toks, pos) == Ok((n, pos + |Atom(n)|))
    decreases Size(n), 3
  {
    PrimaryRoundTrip(toks, pos, n);
    ParallelFromPrimary(toks, pos, n, pos + |Atom(n)|);
    ConditionalFromParallel(toks, pos, n, pos + |Atom(n)|);
  }

  /** A token, then `a`, then `b`, at `pos`: where each part starts. */
  lemma AtThree(toks: seq<Token>, pos: nat, x: Token, a: seq<Token>, b: seq<Token>)
    requires At(toks, pos, [x] + a + b)
    ensures toks[pos] == x && At(toks, pos + 1, a) && At(toks, pos + 1 + |a|, b)
  {
    AtSplit(toks, pos, [x] + a, b);
    AtSplit(toks, pos, [x], a);
    AtIndex(toks, pos, [x], 0);
  }


  /** A non-empty operand tail starts with its operator. */
  lemma TailUnfold(rest: seq<Node>, op: TokenType)
    requires op != NameTok && rest != []
    ensures Tail(rest, op) == [Sym(op)] + Atom(rest[0]) + Tail(rest[1..], op)
    ensures Tail(rest, op)[0].ttype == op
  {
  }

  lemma JoinedUnfold(cs: seq<Node>, op: TokenType)
    requires op != NameTok && cs != []
    ensures Joined(cs, op) == Atom(cs[0]) + Tail(cs[1..], op)
  {
  }

  /** Where the first operand and the rest of an operand list sit. */
  lemma TailLayout(toks: seq<Token>, pos: nat, rest: seq<Node>, op: TokenType)
    requires op != NameTok && rest != [] && At(toks, pos, Tail(rest, op))
    ensures var a, tail := Atom(rest[0]), Tail(rest[1..], op);
      && toks[pos].ttype == op && At(toks, pos + 1, a) && At(toks, pos + 1 + |a|, tail)
      && pos + 1 + |a| + |tail| == pos + |Tail(rest, op)|
  {
    var a, tail := Atom(rest[0]), Tail(rest[1..], op);
    TailUnfold(rest, op);
    AtThree(toks, pos, Sym(op), a, tail);
  }

  lemma JoinedLayout(toks: seq<Token>, pos: nat, cs: seq<Node>, op: TokenType)
    requires op != NameTok && cs != [] && At(toks, pos, Joined(cs, op))
    ensures var a, tail := Atom(cs[0]), Tail(cs[1..], op);
      && At(toks, pos, a) && At(toks, pos + |a|, tail) && |Joined(cs, op)| == |a| + |tail|
  {
    JoinedUnfold(cs, op);
    JoinedFirst(toks, pos, cs, op);
    JoinedRest(toks, pos, cs, op);
  }

  lemma JoinedFirst(toks: seq<Token>, pos: nat, cs: seq<Node>, op: TokenType)
    requires op != NameTok && cs != [] && At(toks, pos, Joined(cs, op))
    ensures At(toks, pos, Atom(cs[0]))
  {
    JoinedUnfold(cs, op);
    AtSplit(toks, pos, Atom(cs[0]), Tail(cs[1..], op));
  }

  lemma JoinedRest(toks: seq<Token>, pos: nat, cs: seq<Node>, op: TokenType)
    requires op != NameTok && cs != [] && At(toks, pos, Joined(cs, op))
    ensures At(toks, pos + |Atom(cs[0])|, Tail(cs[1..], op))
  {
    JoinedUnfold(cs, op);
    AtSplit(toks, pos, Atom(cs[0]), Tail(cs[1..], op));
  }


  /** The operands after the first, laid out from `pos` one `op operand`
      step at a time. */
  predicate Laid(toks: seq<Token>, pos: nat, rest: seq<Node>, op: TokenType)
    decreases rest
  {
    || rest == []
    || (&& pos < |toks| && toks[pos].ttype == op && At(toks, pos + 1, Atom(rest[0]))
        && Laid(toks, pos + 1 + |Atom(rest[0])|, rest[1..], op))
  }

  /** The number of tokens `Laid` covers. */
  function Width(rest: seq<Node>): nat {
    if rest == [] then 0 else 1 + |Atom(rest[0])| + Width(rest[1..])
  }

  lemma {:induction false} TailLaid(toks: seq<Token>, pos: nat, rest: seq<Node>, op: TokenType)
    requires op != NameTok && At(toks, pos, Tail(rest, op))
    ensures Laid(toks, pos, rest, op) && Width(rest) == |Tail(rest, op)|
    decreases rest
  {
    if rest != [] {
      TailLayout(toks, pos, rest, op);
      TailLaid(toks, pos + 1 + |Atom(rest[0])|, rest[1..], op);
    }
  }

  /** The first `op operand` step of a laid-out tail and what follows it. */
  lemma LaidStep(toks: seq<Token>, pos: nat, rest: seq<Node>, op: TokenType)
    requires rest != [] && Laid(toks, pos, rest, op)
    ensures var e := pos + 1 + |Atom(rest[0])|;
      && pos < |toks| && toks[pos].ttype == op && At(toks, pos + 1, Atom(rest[0]))
      && Laid(toks, e, rest[1..], op) && pos + Width(rest) == e + Width(rest[1..])
      && forall c :: c in rest[1..] ==> c in rest
  {
  }

  /** One `op operand` step of a loop, read back from its printed tokens. */
  lemma {:induction false} ParallelLoopAdvance(toks: seq<Token>, pos: nat, nodes: seq<Node>, c: Node)
    requires ParserInput(toks) && Parsed(c)
    requires |nodes| >= 1 && forall x :: x in nodes ==> Parsed(x)
    requires forall l :: l in LeavesOf(nodes) ==> FreshLeaf(l)
    requires pos < |toks| && toks[pos].ttype == ParallelTok && At(toks, pos + 1, Atom(c))
    requires pos + 1 + |Atom(c)| < |toks|
    ensures ValidPos(toks, pos + 1 + |Atom(c)|) && forall x :: x in nodes + [c] ==> Parsed(x)
    ensures forall l :: l in LeavesOf(nodes + [c]) ==> FreshLeaf(l)
    ensures ParallelLoop(toks, pos, nodes) == ParallelLoop(toks, pos + 1 + |Atom(c)|, nodes + [c])
    decreases Size(c), 4
  {
    PrimaryRoundTrip(toks, pos + 1, c);
    ParallelLoopStep(toks, pos, nodes, c, pos + 1 + |Atom(c)|);
  }

  lemma {:induction false} SequenceLoopAdvance(toks: seq<Token>, pos: nat, nodes: seq<Node>, c: Node)
    requires ParserInput(toks) && Parsed(c)
    requires |nodes| >= 1 && forall x :: x in nodes ==> Parsed(x)
    requires forall l :: l in LeavesOf(nodes) ==> FreshLeaf(l)
    requires pos < |toks| && toks[pos].ttype == ArrowTok && At(toks, pos + 1, Atom(c))
    requires var e := pos + 1 + |Atom(c)|; e < |toks| && (toks[e].ttype == ArrowTok || Stop(toks[e].ttype))
    ensures ValidPos(toks, pos + 1 + |Atom(c)|) && forall x :: x in nodes + [c] ==> Parsed(x)
    ensures forall l :: l in LeavesOf(nodes + [c]) ==> FreshLeaf(l)
    ensures SequenceLoop(toks, pos, nodes) == SequenceLoop(toks, pos + 1 + |Atom(c)|, nodes + [c])
    decreases Size(c), 4
  {
    OperandRoundTrip(toks, pos + 1, c);
    SequenceLoopStep(toks, pos, nodes, c, pos + 1 + |Atom(c)|);
  }

  lemma {:induction false} ParallelLoopRoundTrip(toks: seq<Token>, pos: nat, nodes: seq<Node>, rest: seq<Node>, end: nat)
    requires ParserInput(toks) && ValidPos(toks, pos)
    requires |nodes| >= 1 && forall c :: c in nodes ==> Parsed(c)
    requires forall l :: l in LeavesOf(nodes) ==> FreshLeaf(l)
    requires forall c :: c in rest ==> Parsed(c)
    requires Laid(toks, pos, rest, ParallelTok)
    requires end == pos + Width(rest) && end < |toks| && Stop(toks[end].ttype)
    ensures ParallelLoop(toks, pos, nodes) == Ok((ParallelOf(nodes + rest), end))
    decreases SizeOf(rest), 7
  {
    ParallelLoopSkip(toks, pos, nodes, rest, end, nodes + rest);
    ParallelLoopEnd(toks, end, nodes + rest);
  }

  /** Reading the laid-out operands `rest` only appends them to the loop's
      operands and moves the cursor past them. */
  lemma ParallelLoopSame(toks: seq<Token>, pos: nat, nodes: seq<Node>, end: nat, all: seq<Node>)
    requires ParserInput(toks) && ValidPos(toks, pos)
    requires |nodes| >= 1 && forall c :: c in nodes ==> Parsed(c)
    requires forall l :: l in LeavesOf(nodes) ==> FreshLeaf(l)
    requires end == pos && all == nodes
    ensures ParallelLoop(toks, pos, nodes) == ParallelLoop(toks, end, all)
  {
  }

  lemma {:induction false} ParallelLoopSkip(toks: seq<Token>, pos: nat, nodes: seq<Node>, rest: seq<Node>,
                                          end: nat, all: seq<Node>)
    requires ParserInput(toks) && ValidPos(toks, pos)
    requires |nodes| >= 1 && forall c :: c in nodes ==> Parsed(c)
    requires forall l :: l in LeavesOf(nodes) ==> FreshLeaf(l)
    requires forall c :: c in rest ==> Parsed(c)
    requires Laid(toks, pos, rest, ParallelTok)
    requires end == pos + Width(rest) && all == nodes + rest
    requires end < |toks| && Stop(toks[end].ttype)
    ensures forall c :: c in all ==> Parsed(c)
    ensures forall l :: l in LeavesOf(all) ==> FreshLeaf(l)
    ensures ParallelLoop(toks, pos, nodes) == ParallelLoop(toks, end, all)
    decreases SizeOf(rest), 6
  {
    if rest == [] {
      assert all == nodes && end == pos;
      ParallelLoopSame(toks, pos, nodes, end, all);
    } else {
      var e := pos + 1 + |Atom(rest[0])|;
      SizeOfTail(rest);
      ParallelLoopSkipStep(toks, pos, nodes, rest, e);
      SnocRest(nodes, rest);
      ParallelLoopSkip(toks, e, nodes + [rest[0]], rest[1..], end, all);
    }
  }

  lemma {:induction false} ParallelLoopSkipStep(toks: seq<Token>, pos: nat, nodes: seq<Node>, rest: seq<Node>, e: nat)
    requires ParserInput(toks) && ValidPos(toks, pos) && rest != []
    requires |nodes| >= 1 && forall c :: c in nodes ==> Parsed(c)
    requires forall l :: l in LeavesOf(nodes) ==> FreshLeaf(l)
    requires forall c :: c in rest ==> Parsed(c)
    requires Laid(toks, pos, rest, ParallelTok)
    requires pos + Width(rest) < |toks|
    requires e == pos + 1 + |Atom(rest[0])|
    ensures ValidPos(toks, e) && Laid(toks, e, rest[1..], ParallelTok) && e + Width(rest[1..]) == pos + Width(rest)
    ensures forall c :: c in nodes + [rest[0]] ==> Parsed(c)
    ensures forall l :: l in LeavesOf(nodes + [rest[0]]) ==> FreshLeaf(l)
    ensures forall c :: c in rest[1..] ==> Parsed(c)
    ensures ParallelLoop(toks, pos, nodes) == ParallelLoop(toks, e, nodes + [rest[0]])
    decreases SizeOf(rest), 5
  {
    SizeOfTail(rest);
    LaidStep(toks, pos, rest, ParallelTok);
    ParallelLoopAdvance(toks, pos, nodes, rest[0]);
  }

  lemma {:induction false} SequenceLoopRoundTrip(toks: seq<Token>, pos: nat, nodes: seq<Node>, rest: seq<Node>, end: nat)
    requires ParserInput(toks) && ValidPos(toks, pos)
    requires |nodes| >= 1 && forall c :: c in nodes ==> Parsed(c)
    requires forall l :: l in LeavesOf(nodes) ==> FreshLeaf(l)
    requires forall c :: c in rest ==> Parsed(c)
    requires Laid(toks, pos, rest, ArrowTok)
    requires end == pos + Width(rest) && end < |toks| && Stop(toks[end].ttype)
    ensures SequenceLoop(toks, pos, nodes) == Ok((SequenceOf(nodes + rest), end))
    decreases SizeOf(rest), 7
  {
    SequenceLoopSkip(toks, pos, nodes, rest, end, nodes + rest);
    SequenceLoopEnd(toks, end, nodes + rest);
  }

  /** Reading the laid-out operands `rest` only appends them to the loop's
      operands and moves the cursor past them. */
  lemma SequenceLoopSame(toks: seq<Token>, pos: nat, nodes: seq<Node>, end: nat, all: seq<Node>)
    requires ParserInput(toks) && ValidPos(toks, pos)
    requires |nodes| >= 1 && forall c :: c in nodes ==> Parsed(c)
    requires forall l :: l in LeavesOf(nodes) ==> FreshLeaf(l)
    requires end == pos && all == nodes
    ensures SequenceLoop(toks, pos, nodes) == SequenceLoop(toks, end, all)
  {
  }

  lemma {:induction false} SequenceLoopSkip(toks: seq<Token>, pos: nat, nodes: seq<Node>, rest: seq<Node>,
                                          end: nat, all: seq<Node>)
    requires ParserInput(toks) && ValidPos(toks, pos)
    requires |nodes| >= 1 && forall c :: c in nodes ==> Parsed(c)
    requires forall l :: l in LeavesOf(nodes) ==> FreshLeaf(l)
    requires forall c :: c in rest ==> Parsed(c)
    requires Laid(toks, pos, rest, ArrowTok)
    requires end == pos + Width(rest) && all == nodes + rest
    requires end < |toks| && Stop(toks[end].ttype)
    ensures forall c :: c in all ==> Parsed(c)
    ensures forall l :: l in LeavesOf(all) ==> FreshLeaf(l)
    ensures SequenceLoop(toks, pos, nodes) == SequenceLoop(toks, end, all)
    decreases SizeOf(rest), 6
  {
    if rest == [] {
      assert all == nodes && end == pos;
      SequenceLoopSame(toks, pos, nodes, end, all);
    } else {
      var e := pos + 1 + |Atom(rest[0])|;
      SizeOfTail(rest);
      SequenceLoopSkipStep(toks, pos, nodes, rest, e);
      SnocRest(nodes, rest);
      SequenceLoopSkip(toks, e, nodes + [rest[0]], rest[1..], end, all);
    }
  }

  lemma {:induction false} SequenceLoopSkipStep(toks: seq<Token>, pos: nat, nodes: seq<Node>, rest: seq<Node>, e: nat)
    requires ParserInput(toks) && ValidPos(toks, pos) && rest != []
    requires |nodes| >= 1 && forall c :: c in nodes ==> Parsed(c)
    requires forall l :: l in LeavesOf(nodes) ==> FreshLeaf(l)
    requires forall c :: c in rest ==> Parsed(c)
    requires Laid(toks, pos, rest, ArrowTok)
    requires pos + Width(rest) < |toks| && Stop(toks[pos + Width(rest)].ttype)
    requires e == pos + 1 + |Atom(rest[0])|
    ensures ValidPos(toks, e) && Laid(toks, e, rest[1..], ArrowTok) && e + Width(rest[1..]) == pos + Width(rest)
    ensures forall c :: c in nodes + [rest[0]] ==> Parsed(c)
    ensures forall l :: l in LeavesOf(nodes + [rest[0]]) ==> FreshLeaf(l)
    ensures forall c :: c in rest[1..] ==> Parsed(c)
    ensures SequenceLoop(toks, pos, nodes) == SequenceLoop(toks, e, nodes + [rest[0]])
    decreases SizeOf(rest), 5
  {
    SizeOfTail(rest);
    LaidStep(toks, pos, rest, ArrowTok);
    SequenceLoopAdvance(toks, pos, nodes, rest[0]);
  }

  /** A printed tree followed by `)`, `,` or the end is read back by
      `parse_expression` as the same tree, consuming exactly its tokens. */
  lemma {:induction false} ExpressionRoundTrip(toks: seq<Token>, pos: nat, n: Node)
    requires ParserInput(toks) && Parsed(n)
    requires At(toks, pos, Print(n))
    requires pos + |Print(n)| < |toks| && Stop(toks[pos + |Print(n)|].ttype)
    ensures ParseExpression(toks, pos) == Ok((n, pos + |Print(n)|))
    decreases Size(n), 1
  {
    var e := pos + |Print(n)|;
    match n
    case Resource(_, _) =>
      assert toks[pos] == Print(n)[0];
      assert Leaves(n) == [n] && FreshLeaf(n);
      assert ParsePrimary(toks, pos) == Ok((n, e));
      ParallelFromPrimary(toks, pos, n, e);
      ConditionalFromParallel(toks, pos, n, e);
      ExpressionFromConditional(toks, pos, n, e);
    case Sequence(cs) =>
      SequenceRoundTrip(toks, pos, cs);
    case Parallel(cs) =>
      ParallelRoundTrip(toks, pos, cs);
      ConditionalFromParallel(toks, pos, n, e);
      ExpressionFromConditional(toks, pos, n, e);
    case Conditional(c, t, f) =>
      ConditionalRoundTrip(toks, pos, c, t, f);
      ExpressionFromConditional(toks, pos, n, e);
  }

  lemma {:induction false} SequenceRoundTrip(toks: seq<Token>, pos: nat, cs: seq<Node>)
    requires ParserInput(toks) && Parsed(Sequence(cs))
    requires At(toks, pos, Print(Sequence(cs)))
    requires pos + |Print(Sequence(cs))| < |toks| && Stop(toks[pos + |Print(Sequence(cs))|].ttype)
    ensures ParseExpression(toks, pos) == Ok((Sequence(cs), pos + |Print(Sequence(cs))|))
    decreases Size(Sequence(cs)), 0
  {
    OperandsLaid(toks, pos, Sequence(cs), ArrowTok);
    var e, end := pos + |Atom(cs[0])|, pos + |Print(Sequence(cs))|;
    OperandRoundTrip(toks, pos, cs[0]);
    SequenceLoopRoundTrip(toks, e, [cs[0]], cs[1..], end);
    SequenceOfParsed(cs);
    SequenceStart(toks, pos, cs, e, end);
  }

  lemma {:induction false} ParallelRoundTrip(toks: seq<Token>, pos: nat, cs: seq<Node>)
    requires ParserInput(toks) && Parsed(Parallel(cs))
    requires At(toks, pos, Print(Parallel(cs)))
    requires pos + |Print(Parallel(cs))| < |toks| && Stop(toks[pos + |Print(Parallel(cs))|].ttype)
    ensures ParseParallel(toks, pos) == Ok((Parallel(cs), pos + |Print(Parallel(cs))|))
    decreases Size(Parallel(cs)), 0
  {
    OperandsLaid(toks, pos, Parallel(cs), ParallelTok);
    var e, end := pos + |Atom(cs[0])|, pos + |Print(Parallel(cs))|;
    PrimaryRoundTrip(toks, pos, cs[0]);
    ParallelLoopRoundTrip(toks, e, [cs[0]], cs[1..], end);
    ParallelOfParsed(cs);
    ParallelStart(toks, pos, cs, e, end);
  }

  /** What the round trip of a printed sequence or parallel starts from:
      its parsed, smaller operands, the first laid at `pos` and the rest
      after it one `op operand` step at a time. */
  lemma OperandsLaid(toks: seq<Token>, pos: nat, n: Node, op: TokenType)
    requires Parsed(n) && ((n.Sequence? && op == ArrowTok) || (n.Parallel? && op == ParallelTok))
    requires At(toks, pos, Print(n)) && pos + |Print(n)| < |toks|
    ensures var cs := n.nodes; var a := Atom(cs[0]);
      && |cs| >= 2 && Parsed(cs[0]) && (forall c :: c in cs[1..] ==> Parsed(c))
      && (forall l :: l in LeavesOf([cs[0]]) ==> FreshLeaf(l))
      && Size(cs[0]) < Size(n) && SizeOf(cs[1..]) < Size(n)
      && At(toks, pos, a) && pos + |a| < |toks| && toks[pos + |a|].ttype == op
      && Laid(toks, pos + |a|, cs[1..], op)
      && |Print(n)| == |a| + Width(cs[1..])
  {
    var cs := n.nodes;
    ParsedParts(n);
    SizeParts(n);
    JoinedLaid(toks, pos, cs, op);
    assert Leaves(cs[0]) == LeavesOf([cs[0]]);
    assert forall c :: c in cs[1..] ==> c in cs;
  }

  /** A printed operand list: the first operand, then the `op operand` steps. */
  lemma JoinedLaid(toks: seq<Token>, pos: nat, cs: seq<Node>, op: TokenType)
    requires op != NameTok && cs != [] && At(toks, pos, Joined(cs, op))
    ensures At(toks, pos, Atom(cs[0])) && Laid(toks, pos + |Atom(cs[0])|, cs[1..], op)
    ensures |Joined(cs, op)| == |Atom(cs[0])| + Width(cs[1..])
  {
    JoinedLayout(toks, pos, cs, op);
    TailLaid(toks, pos + |Atom(cs[0])|, cs[1..], op);
  }

  /** `parse_sequence` is its first operand followed by the `→` loop. */
  lemma SequenceStart(toks: seq<Token>, pos: nat, cs: seq<Node>, e: nat, end: nat)
    requires ParserInput(toks) && Parsed(Sequence(cs)) && |cs| >= 1
    requires ValidPos(toks, pos) && ValidPos(toks, e) && Parsed(cs[0])
    requires ParseConditional(toks, pos) == Ok((cs[0], e))
    requires forall l :: l in LeavesOf([cs[0]]) ==> FreshLeaf(l)
    requires SequenceLoop(toks, e, [cs[0]]) == Ok((Sequence(cs), end))
    ensures ParseExpression(toks, pos) == Ok((Sequence(cs), end))
  {
    assert ParseSequence(toks, pos) == Ok((Sequence(cs), end));
  }

  /** `parse_parallel` is its first operand followed by the `⇄` loop. */
  lemma ParallelStart(toks: seq<Token>, pos: nat, cs: seq<Node>, e: nat, end: nat)
    requires ParserInput(toks) && Parsed(Parallel(cs)) && |cs| >= 1
    requires ValidPos(toks, pos) && ValidPos(toks, e) && Parsed(cs[0])
    requires ParsePrimary(toks, pos) == Ok((cs[0], e))
    requires forall l :: l in LeavesOf([cs[0]]) ==> FreshLeaf(l)
    requires ParallelLoop(toks, e, [cs[0]]) == Ok((Parallel(cs), end))
    ensures ParseParallel(toks, pos) == Ok((Parallel(cs), end))
  {
  }

  lemma SequenceOfParsed(cs: seq<Node>)
    requires Parsed(Sequence(cs))
    ensures |cs| >= 1 && SequenceOf([cs[0]] + cs[1..]) == Sequence(cs)
  {
    assert [cs[0]] + cs[1..] == cs;
    SpliceSequencesNoop(cs);
  }

  lemma ParallelOfParsed(cs: seq<Node>)
    requires Parsed(Parallel(cs))
    ensures |cs| >= 1 && ParallelOf([cs[0]] + cs[1..]) == Parallel(cs)
  {
    assert [cs[0]] + cs[1..] == cs;
    SpliceParallelsNoop(cs);
  }

  /** One `→?( … )` suffix after a condition name, with its branches already read. */
  lemma ConditionalSuffix(toks: seq<Token>, pos: nat, c: string, t: Node, f: Option<Node>, et: nat, ef: nat, e: nat)
    requires ParserInput(toks) && !IsBlank(c) && Parsed(t) && (f.Some? ==> Parsed(f.value))
    requires pos + 2 < |toks| && toks[pos].ttype == ConditionalTok && toks[pos + 1].ttype == LParenTok
    requires ParseExpression(toks, pos + 2) == Ok((t, et)) && et < |toks|
    requires f.None? ==> toks[et].ttype == RParenTok && e == et + 1
    requires f.Some? ==>
      (&& et + 1 < |toks| && toks[et].ttype == CommaTok
       && ParseExpression(toks, et + 1) == Ok((f.value, ef)) && ef < |toks|
       && toks[ef].ttype == RParenTok && e == ef + 1)
    requires e < |toks| && Stop(toks[e].ttype)
    ensures ConditionalLoop(toks, pos, Resource(c, UNKNOWN)) == Ok((Conditional(c, t, f), e))
  {
    var leaf := Resource(c, UNKNOWN);
    assert Leaves(leaf) == [leaf] && Parsed(leaf);
    ParsedConditional(c, t, f);
    assert ConditionalLoop(toks, e, Conditional(c, t, f)) == Ok((Conditional(c, t, f), e));
  }

  /** Where the parts of a printed conditional sit in the token list. */
  lemma ConditionalLayout(toks: seq<Token>, pos: nat, c: string, t: Node, f: Option<Node>)
    requires At(toks, pos, Print(Conditional(c, t, f)))
    ensures var et := pos + 3 + |Print(t)|;
      && toks[pos] == Token(NameTok, c, 0)
      && toks[pos + 1].ttype == ConditionalTok && toks[pos + 2].ttype == LParenTok
      && At(toks, pos + 3, Print(t))
      && (f.None? ==> toks[et].ttype == RParenTok && pos + |Print(Conditional(c, t, f))| == et + 1)
      && (f.Some? ==>
            && toks[et].ttype == CommaTok && At(toks, et + 1, Print(f.value))
            && toks[et + 1 + |Print(f.value)|].ttype == RParenTok
            && pos + |Print(Conditional(c, t, f))| == et + 1 + |Print(f.value)| + 1)
  {
    var n := Conditional(c, t, f);
    var head := [Token(NameTok, c, 0), Sym(ConditionalTok), Sym(LParenTok)];
    var close := (if f.Some? then [Sym(CommaTok)] + Print(f.value) else []) + [Sym(RParenTok)];
    assert Print(n) == head + (Print(t) + close);
    ConditionalHeadAt(toks, pos, c, Print(t) + close);
    AtSplit(toks, pos + 3, Print(t), close);
    ConditionalCloseAt(toks, pos + 3 + |Print(t)|, f);
  }

  /** The three tokens that open a printed conditional. */
  lemma ConditionalHeadAt(toks: seq<Token>, pos: nat, c: string, rest: seq<Token>)
    requires At(toks, pos, [Token(NameTok, c, 0), Sym(ConditionalTok), Sym(LParenTok)] + rest)
    ensures toks[pos] == Token(NameTok, c, 0)
    ensures toks[pos + 1].ttype == ConditionalTok && toks[pos + 2].ttype == LParenTok
    ensures At(toks, pos + 3, rest)
  {
    var head := [Token(NameTok, c, 0), Sym(ConditionalTok), Sym(LParenTok)];
    AtSplit(toks, pos, head, rest);
    AtIndex(toks, pos, head, 0);
    AtIndex(toks, pos, head, 1);
    AtIndex(toks, pos, head, 2);
  }

  /** The tokens that close a printed conditional: `)` alone, or a comma,
      the false branch and `)`. */
  lemma ConditionalCloseAt(toks: seq<Token>, pos: nat, f: Option<Node>)
    requires At(toks, pos, (if f.Some? then [Sym(CommaTok)] + Print(f.value) else []) + [Sym(RParenTok)])
    ensures f.None? ==> toks[pos].ttype == RParenTok
    ensures f.Some? ==>
      && toks[pos].ttype == CommaTok && At(toks, pos + 1, Print(f.value))
      && toks[pos + 1 + |Print(f.value)|].ttype == RParenTok
  {
    var close := (if f.Some? then [Sym(CommaTok)] + Print(f.value) else []) + [Sym(RParenTok)];
    if f.Some? {
      var fs := [Sym(CommaTok)] + Print(f.value);
      AtSplit(toks, pos, fs, [Sym(RParenTok)]);
      AtIndex(toks, pos + |fs|, [Sym(RParenTok)], 0);
      AtSplit(toks, pos, [Sym(CommaTok)], Print(f.value));
      AtIndex(toks, pos, [Sym(CommaTok)], 0);
    } else {
      AtIndex(toks, pos, close, 0);
    }
  }

  /** What the round trip of a printed conditional starts from: its parsed,
      smaller branches, each laid out and followed by the token that ends it. */
  lemma ConditionalParts(toks: seq<Token>, pos: nat, c: string, t: Node, f: Option<Node>)
    requires ParserInput(toks) && Parsed(Conditional(c, t, f))
    requires At(toks, pos, Print(Conditional(c, t, f)))
    requires pos + |Print(Conditional(c, t, f))| < |toks| && Stop(toks[pos + |Print(Conditional(c, t, f))|].ttype)
    ensures var n, et := Conditional(c, t, f), pos + 3 + |Print(t)|;
      && !IsBlank(c) && Parsed(t) && Size(t) < Size(n)
      && pos + 1 < |toks| && toks[pos] == Token(NameTok, c, 0) && toks[pos + 1].ttype == ConditionalTok
      && toks[pos + 2].ttype == LParenTok
      && At(toks, pos + 3, Print(t)) && et < |toks|
      && (f.None? ==> toks[et].ttype == RParenTok && pos + |Print(n)| == et + 1)
      && (f.Some? ==>
            && Parsed(f.value) && Size(f.value) < Size(n)
            && toks[et].ttype == CommaTok && At(toks, et + 1, Print(f.value))
            && et + 1 + |Print(f.value)| < |toks|
            && toks[et + 1 + |Print(f.value)|].ttype == RParenTok
            && pos + |Print(n)| == et + 1 + |Print(f.value)| + 1)
  {
    ParsedParts(Conditional(c, t, f));
    ConditionalLayout(toks, pos, c, t, f);
  }

  lemma {:induction false} ConditionalRoundTrip(toks: seq<Token>, pos: nat, c: string, t: Node, f: Option<Node>)
    requires ParserInput(toks) && Parsed(Conditional(c, t, f))
    requires At(toks, pos, Print(Conditional(c, t, f)))
    requires pos + |Print(Conditional(c, t, f))| < |toks| && Stop(toks[pos + |Print(Conditional(c, t, f))|].ttype)
    ensures ParseConditional(toks, pos) == Ok((Conditional(c, t, f), pos + |Print(Conditional(c, t, f))|))
    decreases Size(Conditional(c, t, f)), 0
  {
    var n := Conditional(c, t, f);
    ConditionalParts(toks, pos, c, t, f);
    var e := pos + |Print(n)|;
    var et := pos + 3 + |Print(t)|;
    ExpressionRoundTrip(toks, pos + 3, t);
    var ef := if f.Some? then et + 1 + |Print(f.value)| else 0;
    if f.Some? {
      ExpressionRoundTrip(toks, et + 1, f.value);
    }
    ConditionalFinish(toks, pos, c, t, f, et, ef, e);
  }

  /** The whole `c →? ( t [, f] )` once both branches are known to parse. */
  lemma ConditionalFinish(toks: seq<Token>, pos: nat, c: string, t: Node, f: Option<Node>, et: nat, ef: nat, e: nat)
    requires ParserInput(toks) && !IsBlank(c) && Parsed(t) && (f.Some? ==> Parsed(f.value))
    requires pos + 3 < |toks| && toks[pos] == Token(NameTok, c, 0)
    requires toks[pos + 1].ttype == ConditionalTok && toks[pos + 2].ttype == LParenTok
    requires ParseExpression(toks, pos + 3) == Ok((t, et)) && et < |toks|
    requires f.None? ==> toks[et].ttype == RParenTok && e == et + 1
    requires f.Some? ==>
      (&& et + 1 < |toks| && toks[et].ttype == CommaTok
       && ParseExpression(toks, et + 1) == Ok((f.value, ef)) && ef < |toks|
       && toks[ef].ttype == RParenTok && e == ef + 1)
    requires e < |toks| && Stop(toks[e].ttype)
    ensures ParseConditional(toks, pos) == Ok((Conditional(c, t, f), e))
  {
    ConditionalHead(toks, pos, c);
    ConditionalSuffix(toks, pos + 1, c, t, f, et, ef, e);
  }

  /** A condition name read as an operand: the `⇄` loop stops at `→?`. */
  lemma ConditionalHead(toks: seq<Token>, pos: nat, c: string)
    requires ParserInput(toks) && !IsBlank(c)
    requires pos + 1 < |toks| && toks[pos] == Token(NameTok, c, 0) && toks[pos + 1].ttype == ConditionalTok
    ensures ParseConditional(toks, pos) == ConditionalLoop(toks, pos + 1, Resource(c, UNKNOWN))
  {
    var leaf := Resource(c, UNKNOWN);
    assert Leaves(leaf) == [leaf] && Parsed(leaf);
    assert ParsePrimary(toks, pos) == Ok((leaf, pos + 1));
    assert ParseParallel(toks, pos) == Ok((leaf, pos + 1));
  }

  /** Printing a parsed tree and parsing the tokens gives back the tree. */
  lemma RoundTrip(n: Node)
    requires Parsed(n)
    ensures ParserInput(Print(n) + [Sym(EofTok)])
    ensures ParseTokens(Print(n) + [Sym(EofTok)]) == Ok(n)
  {
    var toks := Print(n) + [Sym(EofTok)];
    PrintNames(n);
    assert At(toks, 0, Print(n));
    ExpressionRoundTrip(toks, 0, n);
  }

  /** Three operands joined by `→`, none of them a sequence, make one
      three-step sequence. */
  lemma ThreeSteps(toks: seq<Token>, x: Node, i: nat, y: Node, j: nat, z: Node, k: nat)
    requires ParserInput(toks) && i < j < k < |toks|
    requires ParseConditional(toks, 0) == Ok((x, i)) && toks[i].ttype == ArrowTok
    requires ParseConditional(toks, i + 1) == Ok((y, j)) && toks[j].ttype == ArrowTok
    requires ParseConditional(toks, j + 1) == Ok((z, k)) && toks[k].ttype != ArrowTok
    requires !x.Sequence? && !y.Sequence? && !z.Sequence?
    ensures ParseExpression(toks, 0) == Ok((Sequence([x, y, z]), k))
  {
    assert [] + [x] == [x] && [x] + [y] == [x, y] && [x, y] + [z] == [x, y, z];
    LeavesOfSnoc([], x);
    SequenceLoopStep(toks, i, [x], y, j);
    SequenceLoopStep(toks, j, [x, y], z, k);
    SequenceLoopEnd(toks, k, [x, y, z]);
    SpliceSequencesNoop([x, y, z]);
  }

  /** The token list of `A → B ⇄ C → D`. */
  function PrecedenceTokens(a: string, b: string, c: string, d: string): seq<Token> {
    [Token(NameTok, a, 0), Token(ArrowTok, [ARROW_CHAR], 2), Token(NameTok, b, 4),
     Token(ParallelTok, [PARALLEL_CHAR], 6), Token(NameTok, c, 8), Token(ArrowTok, [ARROW_CHAR], 10),
     Token(NameTok, d, 12), Token(EofTok, "", 13)]
  }

  /** `⇄` binds tighter than `→`: `A → B ⇄ C → D` is a three-step sequence
      whose middle step runs B and C in parallel. */
  lemma PrecedenceExample(a: string, b: string, c: string, d: string)
    requires !IsBlank(a) && !IsBlank(b) && !IsBlank(c) && !IsBlank(d)
    ensures ParserInput(PrecedenceTokens(a, b, c, d))
    ensures ParseTokens(PrecedenceTokens(a, b, c, d))
         == Ok(Sequence([Resource(a, UNKNOWN), Parallel([Resource(b, UNKNOWN), Resource(c, UNKNOWN)]), Resource(d, UNKNOWN)]))
  {
    var toks := PrecedenceTokens(a, b, c, d);
    PrecedenceInput(a, b, c, d);
    NameOperand(toks, 0);
    ParallelOperand(toks, 2);
    NameOperand(toks, 6);
    ThreeSteps(toks, Resource(a, UNKNOWN), 1, Parallel([Resource(b, UNKNOWN), Resource(c, UNKNOWN)]), 5, Resource(d, UNKNOWN), 7);
  }

  lemma PrecedenceInput(a: string, b: string, c: string, d: string)
    requires !IsBlank(a) && !IsBlank(b) && !IsBlank(c) && !IsBlank(d)
    ensures ParserInput(PrecedenceTokens(a, b, c, d))
  {
    var toks := PrecedenceTokens(a, b, c, d);
    forall k | 0 <= k < |toks| ensures NameOk(toks[k]) { }
  }

  /** The token list of `(A → B) ⇄ C`. */
  function ParenthesesTokens(a: string, b: string, c: string): seq<Token> {
    [Sym(LParenTok), Token(NameTok, a, 0), Sym(ArrowTok), Token(NameTok, b, 0), Sym(RParenTok),
     Sym(ParallelTok), Token(NameTok, c, 0), Sym(EofTok)]
  }

  /** `(A → B) ⇄ C`: parentheses override the precedence. */
  lemma ParenthesesExample(a: string, b: string, c: string)
    requires !IsBlank(a) && !IsBlank(b) && !IsBlank(c)
    ensures ParserInput(ParenthesesTokens(a, b, c))
    ensures ParseTokens(ParenthesesTokens(a, b, c))
            == Ok(Parallel([Sequence([Resource(a, UNKNOWN), Resource(b, UNKNOWN)]), Resource(c, UNKNOWN)]))
  {
    var ra, rb, rc := Resource(a, UNKNOWN), Resource(b, UNKNOWN), Resource(c, UNKNOWN);
    var q := Sequence([ra, rb]);
    var n := Parallel([q, rc]);
    assert Leaves(ra) == [ra] && Leaves(rb) == [rb] && Leaves(rc) == [rc];
    ParsedPair(ra, rb);
    ParsedPair(q, rc);
    PrintTwo(ra, rb, ArrowTok);
    assert Print(q) == [Token(NameTok, a, 0), Sym(ArrowTok), Token(NameTok, b, 0)];
    PrintTwo(q, rc, ParallelTok);
    assert Print(n) == [Sym(LParenTok)] + Print(q) + [Sym(RParenTok), Sym(ParallelTok), Token(NameTok, c, 0)];
    assert Print(n) + [Sym(EofTok)] == ParenthesesTokens(a, b, c);
    RoundTrip(n);
  }

  /** Two operands joined by one operator. */
  lemma PrintTwo(x: Node, y: Node, op: TokenType)
    requires op != NameTok
    ensures Joined([x, y], op) == Atom(x) + [Sym(op)] + Atom(y)
  {
    JoinedUnfold([x, y], op);
    assert [x, y][1..] == [y];
    TailUnfold([y], op);
    assert [y][1..] == [];
  }

  /** Two parsed operands make a parsed two-step sequence or parallel,
      as long as neither is already one. */
  lemma ParsedPair(x: Node, y: Node)
    requires Parsed(x) && Parsed(y)
    ensures !x.Sequence? && !y.Sequence? ==> Parsed(Sequence([x, y]))
    ensures !x.Parallel? && !y.Parallel? ==> Parsed(Parallel([x, y]))
  {
    LeavesOfPair(x, y);
    assert forall c :: c in [x, y] ==> c == x || c == y;
  }

  lemma LeavesOfPair(x: Node, y: Node)
    ensures LeavesOf([x, y]) == Leaves(x) + Leaves(y)
  {
    assert [x, y] == [x] + [y] && [x] == [] + [x];
    LeavesOfSnoc([x], y);
    LeavesOfSnoc([], x);
  }
}

=== FILE: resources.dfy ===
/** Resolving parsed names against the project (restack_gen/parser.py:
    `get_project_resources` and `validate_ir`). */
module Resources {
  import opened Wrappers
  import opened Text
  import opened IR

  /** Resource name to resource type, as `get_project_resources` returns it. */
  type Table = map<string, string>

  // ---------------------------------------------------------------------
  // get_project_resources
  // ---------------------------------------------------------------------

  /** `"".join(p.capitalize() for p in stem.split("_"))` */
  function Pascal(stem: string): string {
    Concat(CapitalizeAll(Split(stem, '_')))
  }

  function CapitalizeAll(parts: seq<string>): (r: seq<string>)
    ensures |r| == |parts| && forall i :: 0 <= i < |r| ==> r[i] == Capitalize(parts[i])
  {
    seq(|parts|, i requires 0 <= i < |parts| => Capitalize(parts[i]))
  }

  /** The (name, type) registrations for one module file of each kind, in
      registration order. */
  function AgentNames(stem: string): seq<(string, string)> {
    [(Pascal(stem) + "Agent", AGENT), (Pascal(stem), AGENT), (stem, AGENT)]
  }

  function WorkflowNames(stem: string): seq<(string, string)> {
    [(Pascal(stem) + "Workflow", WORKFLOW), (Pascal(stem), WORKFLOW), (stem, WORKFLOW)]
  }

  function FunctionNames(stem: string): seq<(string, string)> {
    [(stem, FUNCTION), (Pascal(stem), FUNCTION)]
  }

  const PACKAGE_INIT: string := "__init__.py"

  /** All registrations for one directory listing; `__init__.py` is skipped. */
  function DirectoryNames(files: seq<string>, names: string -> seq<(string, string)>): seq<(string, string)> {
    if files == [] then []
    else (if files[0] == PACKAGE_INIT then [] else names(Stem(files[0]))) + DirectoryNames(files[1..], names)
  }

  /** Every registration made by a project scan: agents, then workflows, then
      functions, each directory in listing order. */
  function Registrations(agentFiles: seq<string>, workflowFiles: seq<string>, functionFiles: seq<string>)
    : seq<(string, string)>
  {
    DirectoryNames(agentFiles, AgentNames) + DirectoryNames(workflowFiles, WorkflowNames)
    + DirectoryNames(functionFiles, FunctionNames)
  }

  /** `register`: an empty name is ignored and an existing entry is kept. */
  function Register(table: Table, name: string, rtype: string): (r: Table)
    ensures r.Keys == table.Keys + (if name != "" then {name} else {})
    ensures forall k :: k in table ==> r[k] == table[k]
    ensures name != "" && name !in table ==> r[name] == rtype
  {
    if name == "" then table
    else if name in table then table
    else table[name := rtype]
  }

  /** The table after making the registrations in order. The first
      registration of a name decides its type, and only registered,
      non-empty names become keys. */
  function BuildTable(regs: seq<(string, string)>): (r: Table)
    ensures forall k :: k in r ==> k != "" && exists i :: 0 <= i < |regs| && regs[i].0 == k
    ensures forall i :: 0 <= i < |regs| && regs[i].0 != "" ==> regs[i].0 in r
    ensures forall i :: 0 <= i < |regs| && regs[i].0 != "" && (forall j :: 0 <= j < i ==> regs[j].0 != regs[i].0)
              ==> r[regs[i].0] == regs[i].1
    decreases |regs|
  {
    if regs == [] then map[]
    else
      var prefix := regs[..|regs| - 1];
      var last := regs[|regs| - 1];
      var t := BuildTable(prefix);
      assert forall i :: 0 <= i < |regs| - 1 ==> regs[i] == prefix[i];
      Register(t, last.0, last.1)
  }

  /** `get_project_resources` over the three directory listings (the
      `*.py` file names of src/<project>/agents, workflows and functions). */
  function ProjectResources(agentFiles: seq<string>, workflowFiles: seq<string>, functionFiles: seq<string>)
    : Table
  {
    BuildTable(Registrations(agentFiles, workflowFiles, functionFiles))
  }

  lemma {:induction false} DirectoryMember(files: seq<string>, names: string -> seq<(string, string)>, f: string)
    requires f in files && f != PACKAGE_INIT
    ensures forall p :: p in names(Stem(f)) ==> p in DirectoryNames(files, names)
  {
    if files[0] != f {
      DirectoryMember(files[1..], names, f);
    }
  }

  lemma {:induction false} DirectoryTypes(files: seq<string>, names: string -> seq<(string, string)>, rtype: string)
    requires forall stem, p :: p in names(stem) ==> p.1 == rtype
    ensures forall p :: p in DirectoryNames(files, names) ==> p.1 == rtype
  {
    if files != [] {
      DirectoryTypes(files[1..], names, rtype);
    }
  }

  /** The type a name gets is the one its earliest registration gave it. */
  lemma FirstRegistrationWins(regs: seq<(string, string)>, i: nat)
    requires i < |regs| && regs[i].0 != ""
    ensures var k := regs[i].0;
      k in BuildTable(regs)
      && exists j :: 0 <= j <= i && regs[j].0 == k && BuildTable(regs)[k] == regs[j].1
  {
    var k := regs[i].0;
    var j := i;
    while j > 0 && exists m :: 0 <= m < j && regs[m].0 == k
      invariant 0 <= j <= i && regs[j].0 == k
      decreases j
    {
      var m :| 0 <= m < j && regs[m].0 == k;
      j := m;
    }
    assert forall m :: 0 <= m < j ==> regs[m].0 != regs[j].0;
  }

  /** Agents are registered first, so every name an agent module registers
      resolves to "agent", whatever workflows or functions share it. */
  lemma AgentRegistrationWins(agentFiles: seq<string>, workflowFiles: seq<string>, functionFiles: seq<string>,
                              p: (string, string))
    requires p in DirectoryNames(agentFiles, AgentNames) && p.0 != ""
    ensures var table := ProjectResources(agentFiles, workflowFiles, functionFiles);
      p.0 in table && table[p.0] == AGENT
  {
    var agents := DirectoryNames(agentFiles, AgentNames);
    var regs := Registrations(agentFiles, workflowFiles, functionFiles);
    DirectoryTypes(agentFiles, AgentNames, AGENT);
    assert forall m :: 0 <= m < |agents| ==> regs[m] == agents[m];
    var i :| 0 <= i < |agents| && agents[i] == p;
    FirstRegistrationWins(regs, i);
  }

  /** An agent module `s.py` is known as `s` and as `<Pascal(s)>Agent`. */
  lemma AgentNamesWin(agentFiles: seq<string>, workflowFiles: seq<string>, functionFiles: seq<string>, f: string)
    requires f in agentFiles && f != PACKAGE_INIT && Stem(f) != ""
    ensures var table := ProjectResources(agentFiles, workflowFiles, functionFiles);
      && Stem(f) in table && table[Stem(f)] == AGENT
      && Pascal(Stem(f)) + "Agent" in table && table[Pascal(Stem(f)) + "Agent"] == AGENT
  {
    var s := Stem(f);
    DirectoryMember(agentFiles, AgentNames, f);
    assert (s, AGENT) in AgentNames(s) && (Pascal(s) + "Agent", AGENT) in AgentNames(s);
    AgentRegistrationWins(agentFiles, workflowFiles, functionFiles, (s, AGENT));
    AgentRegistrationWins(agentFiles, workflowFiles, functionFiles, (Pascal(s) + "Agent", AGENT));
  }

  /** A name first registered by a later group of registrations gets that
      group's type. */
  lemma LaterGroupWins(before: seq<(string, string)>, group: seq<(string, string)>, i: nat, rtype: string)
    requires i < |group| && group[i].0 != ""
    requires forall p :: p in before ==> p.0 != group[i].0
    requires forall p :: p in group ==> p.1 == rtype
    ensures group[i].0 in BuildTable(before + group) && BuildTable(before + group)[group[i].0] == rtype
  {
    var regs := before + group;
    assert regs[|before| + i] == group[i];
    FirstRegistrationWins(regs, |before| + i);
    assert forall m :: 0 <= m < |before| ==> regs[m] in before;
    var j :| 0 <= j <= |before| + i && regs[j].0 == group[i].0 && BuildTable(regs)[group[i].0] == regs[j].1;
    assert regs[j] == group[j - |before|];
  }

  /** A function module's own name resolves to "function" unless an agent
      or workflow module registered that name first. */
  lemma FunctionNameResolves(agentFiles: seq<string>, workflowFiles: seq<string>, functionFiles: seq<string>, f: string)
    requires f in functionFiles && f != PACKAGE_INIT && Stem(f) != ""
    requires forall p :: p in DirectoryNames(agentFiles, AgentNames) + DirectoryNames(workflowFiles, WorkflowNames)
               ==> p.0 != Stem(f)
    ensures var table := ProjectResources(agentFiles, workflowFiles, functionFiles);
      Stem(f) in table && table[Stem(f)] == FUNCTION
  {
    var before := DirectoryNames(agentFiles, AgentNames) + DirectoryNames(workflowFiles, WorkflowNames);
    var functions := DirectoryNames(functionFiles, FunctionNames);
    DirectoryMember(functionFiles, FunctionNames, f);
    DirectoryTypes(functionFiles, FunctionNames, FUNCTION);
    assert (Stem(f), FUNCTION) in FunctionNames(Stem(f));
    var i :| 0 <= i < |functions| && functions[i] == (Stem(f), FUNCTION);
    LaterGroupWins(before, functions, i, FUNCTION);
  }

  // ---------------------------------------------------------------------
  // validate_ir
  // ---------------------------------------------------------------------

  /** A leaf the table accepts: its name is known and, unless its type is
      still "unknown", the table agrees with it. */
  predicate Resolvable(l: Node, table: Table)
    requires l.Resource?
  {
    l.name in table && (l.rtype == UNKNOWN || table[l.name] == l.rtype)
  }

  /** The message `validate_ir` reports for a leaf the table refuses. */
  function LeafError(l: Node, table: Table): string
    requires l.Resource? && !Resolvable(l, table)
  {
    if l.name !in table then "Resource '" + l.name + "' not found in project"
    else "Resource '" + l.name + "' is a " + table[l.name] + ", not a " + l.rtype
  }

  /** The leaf with the table's type filled in. */
  function Fix(l: Node, table: Table): (r: Node)
    requires l.Resource? && Resolvable(l, table)
    ensures r.Resource? && r.name == l.name && r.rtype == table[l.name]
  {
    Resource(l.name, table[l.name])
  }

  predicate AllResources(ls: seq<Node>) {
    forall i :: 0 <= i < |ls| ==> ls[i].Resource?
  }

  predicate AllResolvable(ls: seq<Node>, table: Table)
    requires AllResources(ls)
  {
    forall i :: 0 <= i < |ls| ==> Resolvable(ls[i], table)
  }

  /** The index of the first refused leaf, or the length when there is none. */
  function FirstBad(ls: seq<Node>, table: Table): (k: nat)
    requires AllResources(ls)
    ensures k <= |ls|
    ensures forall i :: 0 <= i < k ==> Resolvable(ls[i], table)
    ensures k < |ls| ==> !Resolvable(ls[k], table)
  {
    if ls == [] then 0
    else if !Resolvable(ls[0], table) then 0
    else 1 + FirstBad(ls[1..], table)
  }

  function FixAll(ls: seq<Node>, table: Table): (r: seq<Node>)
    requires AllResources(ls) && forall i :: 0 <= i < |ls| ==> Resolvable(ls[i], table)
    ensures |r| == |ls| && forall i :: 0 <= i < |ls| ==> r[i] == Fix(ls[i], table)
  {
    seq(|ls|, i requires 0 <= i < |ls| && ls[i].Resource? && Resolvable(ls[i], table) => Fix(ls[i], table))
  }

  /** The tree with every resource type blanked: its shape and names. */
  function Erase(n: Node): Node {
    match n
    case Resource(name, _) => Resource(name, "")
    case Sequence(cs) => Sequence(seq(|cs|, i requires 0 <= i < |cs| => Erase(cs[i])))
    case Parallel(cs) => Parallel(seq(|cs|, i requires 0 <= i < |cs| => Erase(cs[i])))
    case Conditional(c, t, f) => Conditional(c, Erase(t), if f.Some? then Some(Erase(f.value)) else None)
  }

  /** What validating does to a list of leaves: those before the first
      refused one get the table's type, the rest are left alone, and the
      first refused leaf, if any, is the one reported. */
  predicate LeafOutcome(ls: seq<Node>, table: Table, ls': seq<Node>, error: Option<string>)
    requires AllResources(ls)
  {
    var k := FirstBad(ls, table);
    && ls' == FixAll(ls[..k], table) + ls[k..]
    && (error.None? <==> k == |ls|)
    && (k < |ls| ==> error == Some(LeafError(ls[k], table)))
  }

  /** Validating `n` keeps its shape and names and acts on its leaves as
      `LeafOutcome` says. */
  predicate ValidationOutcome(n: Node, table: Table, tree: Node, error: Option<string>) {
    Erase(tree) == Erase(n) && LeafOutcome(Leaves(n), table, Leaves(tree), error)
  }

  lemma {:induction false} FirstBadAppend(a: seq<Node>, b: seq<Node>, table: Table)
    requires AllResources(a) && AllResources(b)
    ensures AllResources(a + b)
    ensures FirstBad(a + b, table) == if FirstBad(a, table) < |a| then FirstBad(a, table) else |a| + FirstBad(b, table)
  {
    if a == [] {
      assert a + b == b;
    } else {
      assert (a + b)[0] == a[0] && (a + b)[1..] == a[1..] + b;
      if Resolvable(a[0], table) {
        FirstBadAppend(a[1..], b, table);
      }
    }
  }

  lemma FixAllAppend(a: seq<Node>, b: seq<Node>, table: Table)
    requires AllResources(a) && AllResources(b)
    requires forall i :: 0 <= i < |a| ==> Resolvable(a[i], table)
    requires forall i :: 0 <= i < |b| ==> Resolvable(b[i], table)
    ensures AllResources(a + b) && FixAll(a + b, table) == FixAll(a, table) + FixAll(b, table)
  {
  }

  /** When the first part fails, the second is left untouched. */
  lemma OutcomeStop(a: seq<Node>, a': seq<Node>, ea: Option<string>, b: seq<Node>, table: Table)
    requires AllResources(a) && AllResources(b)
    requires LeafOutcome(a, table, a', ea) && ea.Some?
    ensures AllResources(a + b) && LeafOutcome(a + b, table, a' + b, ea)
  {
    FirstBadAppend(a, b, table);
    var ka := FirstBad(a, table);
    assert (a + b)[..ka] == a[..ka];
    assert (a + b)[ka..] == a[ka..] + b;
    assert (a + b)[ka] == a[ka];
  }

  /** When the first part passes, the outcome is the second part's. */
  lemma OutcomeContinue(a: seq<Node>, a': seq<Node>, b: seq<Node>, b': seq<Node>, eb: Option<string>, table: Table)
    requires AllResources(a) && AllResources(b)
    requires LeafOutcome(a, table, a', None) && LeafOutcome(b, table, b', eb)
    ensures AllResources(a + b) && LeafOutcome(a + b, table, a' + b', eb)
  {
    FirstBadAppend(a, b, table);
    ContinueTrees(a, a', b, b', table);
    ContinueError(a, b, eb, table);
  }

  /** The fixed leaves of a passing first part, then the second part's outcome. */
  lemma ContinueTrees(a: seq<Node>, a': seq<Node>, b: seq<Node>, b': seq<Node>, table: Table)
    requires AllResources(a) && AllResources(b) && FirstBad(a, table) == |a|
    requires a' == FixAll(a, table)
    requires var kb := FirstBad(b, table); b' == FixAll(b[..kb], table) + b[kb..]
    ensures AllResources(a + b) && FirstBad(a + b, table) == |a| + FirstBad(b, table)
    ensures var k := FirstBad(a + b, table); a' + b' == FixAll((a + b)[..k], table) + (a + b)[k..]
  {
    FirstBadAppend(a, b, table);
    var kb := FirstBad(b, table);
    var k := |a| + kb;
    var fa, fb := FixAll(a, table), FixAll(b[..kb], table);
    assert (a + b)[..k] == a + b[..kb];
    assert (a + b)[k..] == b[kb..];
    FixAllAppend(a, b[..kb], table);
    assert fa + (fb + b[kb..]) == (fa + fb) + b[kb..];
  }

  /** The error of a passing first part's concatenation is the second part's. */
  lemma ContinueError(a: seq<Node>, b: seq<Node>, eb: Option<string>, table: Table)
    requires AllResources(a) && AllResources(b)
    requires var kb := FirstBad(b, table);
      && (eb.None? <==> kb == |b|) && (kb < |b| ==> eb == Some(LeafError(b[kb], table)))
    ensures var k := |a| + FirstBad(b, table);
      && AllResources(a + b) && (eb.None? <==> k == |a + b|)
      && (k < |a + b| ==> eb == Some(LeafError((a + b)[k], table)))
  {
    var kb := FirstBad(b, table);
    if kb < |b| {
      assert (a + b)[|a| + kb] == b[kb];
    }
  }

  datatype Checked = Checked(tree: Node, error: Option<string>)

  /** `validate_node`: resources are looked up, composites stop at the first
      failing child, a conditional checks its true branch then its false one.
      The in-place type updates are returned as the new tree. */
  function ValidateNode(n: Node, table: Table): (r: Checked)
    ensures ValidationOutcome(n, table, r.tree, r.error)
  {
    match n
    case Resource(_, _) => ValidateLeaf(n, table)
    case Sequence(cs) => Rebuild(n, table, ValidateChildren(cs, table))
    case Parallel(cs) => Rebuild(n, table, ValidateChildren(cs, table))
    case Conditional(c, t, f) =>
      var t' := ValidateNode(t, table);
      var f' := if t'.error.None? && f.Some? then Some(ValidateNode(f.value, table)) else None;
      ValidateBranches(c, t, f, table, t', f')
  }

  /** A Sequence or Parallel, given the result of validating its children. */
  function Rebuild(n: Node, table: Table, children: (seq<Node>, Option<string>)): (r: Checked)
    requires n.Sequence? || n.Parallel?
    requires |children.0| == |n.nodes| && forall i :: 0 <= i < |n.nodes| ==> Erase(children.0[i]) == Erase(n.nodes[i])
    requires LeafOutcome(LeavesOf(n.nodes), table, LeavesOf(children.0), children.1)
    ensures ValidationOutcome(n, table, r.tree, r.error)
  {
    var tree := if n.Sequence? then Sequence(children.0) else Parallel(children.0);
    assert Erase(tree) == Erase(n);
    Checked(tree, children.1)
  }

  /** A leaf: unknown name, or a type the table contradicts, is an error;
      otherwise the table's type is filled in. */
  function ValidateLeaf(n: Node, table: Table): (r: Checked)
    requires n.Resource?
    ensures ValidationOutcome(n, table, r.tree, r.error)
  {
    assert Leaves(n) == [n];
    var name := n.name;
    var t := n.rtype;
    if name !in table then Checked(n, Some("Resource '" + name + "' not found in project"))
    else if t != UNKNOWN && table[name] != t then
      Checked(n, Some("Resource '" + name + "' is a " + table[name] + ", not a " + t))
    else
      assert Leaves(Resource(name, table[name])) == [Resource(name, table[name])];
      Checked(Resource(name, table[name]), None)
  }

  /** A conditional, given the results for its branches: the false branch is
      only looked at when the true branch passed. */
  function ValidateBranches(c: string, t: Node, f: Option<Node>, table: Table, t': Checked, f': Option<Checked>)
    : (r: Checked)
    requires ValidationOutcome(t, table, t'.tree, t'.error)
    requires f'.Some? <==> t'.error.None? && f.Some?
    requires f'.Some? ==> ValidationOutcome(f.value, table, f'.value.tree, f'.value.error)
    ensures ValidationOutcome(Conditional(c, t, f), table, r.tree, r.error)
  {
    var fl := if f.Some? then Leaves(f.value) else [];
    if t'.error.Some? then
      OutcomeStop(Leaves(t), Leaves(t'.tree), t'.error, fl, table);
      Checked(Conditional(c, t'.tree, f), t'.error)
    else if f.None? then
      assert Leaves(t) + [] == Leaves(t) && Leaves(t'.tree) + [] == Leaves(t'.tree);
      Checked(Conditional(c, t'.tree, None), None)
    else
      OutcomeContinue(Leaves(t), Leaves(t'.tree), fl, Leaves(f'.value.tree), f'.value.error, table);
      Checked(Conditional(c, t'.tree, Some(f'.value.tree)), f'.value.error)
  }

  /** The leaves of `[x] + rest`. */
  lemma LeavesOfCons(x: Node, rest: seq<Node>)
    ensures ([x] + rest)[1..] == rest
    ensures LeavesOf([x] + rest) == Leaves(x) + LeavesOf(rest)
  {
    assert ([x] + rest)[1..] == rest;
  }

  /** Replacing the head and the tail of `cs` by trees of the same shape
      keeps every child's shape. */
  lemma EraseCons(x: Node, rest: seq<Node>, cs: seq<Node>)
    requires cs != [] && Erase(x) == Erase(cs[0]) && |rest| == |cs| - 1
    requires forall i :: 0 <= i < |rest| ==> Erase(rest[i]) == Erase(cs[1..][i])
    ensures |[x] + rest| == |cs| && forall i :: 0 <= i < |cs| ==> Erase(([x] + rest)[i]) == Erase(cs[i])
  {
    forall i | 0 <= i < |cs| ensures Erase(([x] + rest)[i]) == Erase(cs[i]) {
      if i > 0 {
        assert ([x] + rest)[i] == rest[i - 1] && cs[i] == cs[1..][i - 1];
      }
    }
  }

  /** The `for child in node.nodes` loop: children after a failure are left as they were. */
  function ValidateChildren(cs: seq<Node>, table: Table): (r: (seq<Node>, Option<string>))
    ensures |r.0| == |cs| && forall i :: 0 <= i < |cs| ==> Erase(r.0[i]) == Erase(cs[i])
    ensures LeafOutcome(LeavesOf(cs), table, LeavesOf(r.0), r.1)
  {
    if cs == [] then ([], None)
    else
      var c := ValidateNode(cs[0], table);
      if c.error.Some? then
        var r := ([c.tree] + cs[1..], c.error);
        LeavesOfCons(c.tree, cs[1..]);
        EraseCons(c.tree, cs[1..], cs);
        OutcomeStop(Leaves(cs[0]), Leaves(c.tree), c.error, LeavesOf(cs[1..]), table);
        r
      else
        var (rest, e) := ValidateChildren(cs[1..], table);
        var r := ([c.tree] + rest, e);
        LeavesOfCons(c.tree, rest);
        EraseCons(c.tree, rest, cs);
        OutcomeContinue(Leaves(cs[0]), Leaves(c.tree), LeavesOf(cs[1..]), LeavesOf(rest), e, table);
        r
  }

  datatype Validation = Validation(valid: bool, error: Option<string>, tree: Node)

  /** `validate_ir`: a table passed in is used as it is; otherwise the
      project is scanned, and a scan that fails is reported as the error
      with the tree untouched. */
  function ValidateIr(ir: Node, resources: Option<Table>, scan: Result<Table, string>): (r: Validation)
    ensures r.valid <==> r.error.None?
    ensures resources.None? && scan.Err? ==> r == Validation(false, Some(scan.error), ir)
    ensures resources.Some? ==> ValidationOutcome(ir, resources.value, r.tree, r.error)
    ensures resources.None? && scan.Ok? ==> ValidationOutcome(ir, scan.value, r.tree, r.error)
  {
    if resources.None? && scan.Err? then Validation(false, Some(scan.error), ir)
    else
      var table := if resources.Some? then resources.value else scan.value;
      var c := ValidateNode(ir, table);
      Validation(c.error.None?, c.error, c.tree)
  }

  /** Validation passes exactly when every leaf is known to the table with a
      compatible type. */
  lemma ValidIffResolvable(n: Node, table: Table)
    ensures ValidateNode(n, table).error.None? <==> AllResolvable(Leaves(n), table)
  {
    var ls := Leaves(n);
    var r := ValidateNode(n, table);
    assert LeafOutcome(ls, table, Leaves(r.tree), r.error);
    var k := FirstBad(ls, table);
    if !AllResolvable(ls, table) {
      var i :| 0 <= i < |ls| && !Resolvable(ls[i], table);
      assert k <= i < |ls|;
    }
  }

  /** After a pass every leaf carries the table's type for its name, so with a
      table of resource kinds the tree has only valid types. */
  lemma ValidatedLeaves(n: Node, table: Table)
    requires ValidateNode(n, table).error.None?
    ensures var ls' := Leaves(ValidateNode(n, table).tree);
            |ls'| == |Leaves(n)| &&
            forall i :: 0 <= i < |ls'| ==> ls'[i] == Resource(Leaves(n)[i].name, table[Leaves(n)[i].name])
    ensures (forall name :: name in table ==> ValidType(table[name])) ==> TypesValid(ValidateNode(n, table).tree)
  {
    var ls := Leaves(n);
    assert FirstBad(ls, table) == |ls|;
    assert ls[..|ls|] == ls && ls[|ls|..] == [];
    var ls' := Leaves(ValidateNode(n, table).tree);
    assert ls' == FixAll(ls, table) + [];
    if forall name :: name in table ==> ValidType(table[name]) {
      forall l | l in ls' ensures ValidType(l.rtype) {
        var i :| 0 <= i < |ls'| && ls'[i] == l;
        assert ls'[i] == Fix(ls[i], table);
      }
    }
  }

  /** The table built from a project scan holds only resource kinds. */
  lemma {:induction false} TableTypes(regs: seq<(string, string)>)
    requires forall i :: 0 <= i < |regs| ==> regs[i].1 in {AGENT, WORKFLOW, FUNCTION}
    ensures forall name :: name in BuildTable(regs) ==> BuildTable(regs)[name] in {AGENT, WORKFLOW, FUNCTION}
  {
    if regs != [] {
      TableTypes(regs[..|regs| - 1]);
      assert regs[..|regs| - 1] + [regs[|regs| - 1]] == regs;
    }
  }

  lemma ScannedTableTypes(agentFiles: seq<string>, workflowFiles: seq<string>, functionFiles: seq<string>)
    ensures var table := ProjectResources(agentFiles, workflowFiles, functionFiles);
            forall name :: name in table ==> table[name] in {AGENT, WORKFLOW, FUNCTION}
  {
    var regs := Registrations(agentFiles, workflowFiles, functionFiles);
    DirectoryTypes(agentFiles, AgentNames, AGENT);
    DirectoryTypes(workflowFiles, WorkflowNames, WORKFLOW);
    DirectoryTypes(functionFiles, FunctionNames, FUNCTION);
    forall i | 0 <= i < |regs| ensures regs[i].1 in {AGENT, WORKFLOW, FUNCTION} {
      assert regs[i] in regs;
    }
    TableTypes(regs);
  }

  /** A tree that passes against a scanned project has every leaf typed as an
      agent, a workflow or a function. */
  lemma ScannedTreeTyped(ir: Node, agentFiles: seq<string>, workflowFiles: seq<string>, functionFiles: seq<string>)
    requires ValidateIr(ir, None, Ok(ProjectResources(agentFiles, workflowFiles, functionFiles))).valid
    ensures var tree := ValidateIr(ir, None, Ok(ProjectResources(agentFiles, workflowFiles, functionFiles))).tree;
            TypesValid(tree) && forall l :: l in Leaves(tree) ==> l.rtype in {AGENT, WORKFLOW, FUNCTION}
  {
    var table := ProjectResources(agentFiles, workflowFiles, functionFiles);
    ScannedTableTypes(agentFiles, workflowFiles, functionFiles);
    ValidatedLeaves(ir, table);
    var ls' := Leaves(ValidateNode(ir, table).tree);
    forall l | l in ls' ensures l.rtype in {AGENT, WORKFLOW, FUNCTION} {
      var i :| 0 <= i < |ls'| && ls'[i] == l;
    }
  }

  /** Two trees with the same shape and names have as many leaves, and are
      equal when their leaves are too: a validated tree is determined by its
      erasure and its leaves. */
  lemma {:induction false} ShapeAndLeavesDetermine(a: Node, b: Node)
    requires Erase(a) == Erase(b)
    ensures |Leaves(a)| == |Leaves(b)|
    ensures Leaves(a) == Leaves(b) ==> a == b
  {
    match a
    case Resource(_, _) =>
      assert b.Resource?;
    case Sequence(xs) =>
      assert b.Sequence?;
      ErasedChildren(xs, b.nodes);
      ShapeAndLeavesOfDetermine(xs, b.nodes);
    case Parallel(xs) =>
      assert b.Parallel?;
      ErasedChildren(xs, b.nodes);
      ShapeAndLeavesOfDetermine(xs, b.nodes);
    case Conditional(c, t, f) =>
      assert b.Conditional?;
      var bt, bf := b.trueBranch, b.falseBranch;
      assert Erase(t) == Erase(bt);
      assert f.Some? <==> bf.Some?;
      assert c == b.condition;
      ShapeAndLeavesDetermine(t, bt);
      if f.Some? {
        assert Erase(f.value) == Erase(bf.value);
        ShapeAndLeavesDetermine(f.value, bf.value);
        SplitEqual(Leaves(t), Leaves(f.value), Leaves(bt), Leaves(bf.value));
      } else {
        assert Leaves(a) == Leaves(t) + [] && Leaves(b) == Leaves(bt) + [];
        assert Leaves(t) + [] == Leaves(t) && Leaves(bt) + [] == Leaves(bt);
        if Leaves(a) == Leaves(b) {
          assert Leaves(t) == Leaves(bt);
          assert b == Conditional(c, bt, None);
        }
      }
  }

  lemma {:induction false} ShapeAndLeavesOfDetermine(xs: seq<Node>, ys: seq<Node>)
    requires |xs| == |ys| && forall i :: 0 <= i < |xs| ==> Erase(xs[i]) == Erase(ys[i])
    ensures |LeavesOf(xs)| == |LeavesOf(ys)|
    ensures LeavesOf(xs) == LeavesOf(ys) ==> xs == ys
  {
    if xs != [] {
      ShapeAndLeavesDetermine(xs[0], ys[0]);
      ShapeAndLeavesOfDetermine(xs[1..], ys[1..]);
      SplitEqual(Leaves(xs[0]), LeavesOf(xs[1..]), Leaves(ys[0]), LeavesOf(ys[1..]));
      if LeavesOf(xs) == LeavesOf(ys) {
        assert xs == [xs[0]] + xs[1..] && ys == [ys[0]] + ys[1..];
      }
    }
  }

  lemma ErasedChildren(xs: seq<Node>, ys: seq<Node>)
    requires Erase(Sequence(xs)) == Erase(Sequence(ys)) || Erase(Parallel(xs)) == Erase(Parallel(ys))
    ensures |xs| == |ys| && forall i :: 0 <= i < |xs| ==> Erase(xs[i]) == Erase(ys[i])
  {
    var ea := seq(|xs|, i requires 0 <= i < |xs| => Erase(xs[i]));
    var eb := seq(|ys|, i requires 0 <= i < |ys| => Erase(ys[i]));
    assert ea == eb;
    forall i | 0 <= i < |xs| ensures Erase(xs[i]) == Erase(ys[i]) {
      assert ea[i] == eb[i];
    }
  }

  lemma SplitEqual<T>(a: seq<T>, b: seq<T>, c: seq<T>, d: seq<T>)
    requires |a| == |c|
    ensures a + b == c + d ==> a == c && b == d
  {
    if a + b == c + d {
      assert a == (a + b)[..|a|] && c == (c + d)[..|a|];
      assert b == (a + b)[|a|..] && d == (c + d)[|a|..];
    }
  }

  /** A tree whose every leaf is resolvable and already carries the
      table's type validates to itself, with no error. */
  lemma FixedTreeUnchanged(n: Node, table: Table)
    requires forall i :: 0 <= i < |Leaves(n)| ==> Resolvable(Leaves(n)[i], table) && Fix(Leaves(n)[i], table) == Leaves(n)[i]
    ensures ValidateNode(n, table) == Checked(n, None)
  {
    var ls := Leaves(n);
    ValidIffResolvable(n, table);
    var r := ValidateNode(n, table);
    assert FirstBad(ls, table) == |ls|;
    assert ls[..|ls|] == ls && ls[|ls|..] == [];
    assert Leaves(r.tree) == FixAll(ls, table) + [];
    assert Leaves(r.tree) == ls;
    ShapeAndLeavesDetermine(r.tree, n);
  }

  /** Validating an already validated tree changes nothing and passes again. */
  lemma ValidateIdempotent(n: Node, table: Table)
    requires ValidateNode(n, table).error.None?
    ensures ValidateNode(ValidateNode(n, table).tree, table) == ValidateNode(n, table)
  {
    var r := ValidateNode(n, table);
    ValidatedLeaves(n, table);
    var ls' := Leaves(r.tree);
    assert forall i :: 0 <= i < |ls'| ==> Resolvable(ls'[i], table) && Fix(ls'[i], table) == ls'[i];
    FixedTreeUnchanged(r.tree, table);
  }
}

=== FILE: runner.dfy ===
/** The `.env` loader and the environment handed to the service process. */
module Runner {
  import opened Wrappers
  import opened Text

  const CONFIG_VARIABLE: string := "RESTACK_CONFIG"

  /** One stripped line of a `.env` file: the `(key, value)` it assigns,
      or `None` when it is blank, a comment, or has no `=`. The line splits
      at its first `=`, and key and value are stripped again. */
  function ParseStripped(s: string): (r: Option<(string, string)>)
    ensures r.None? <==> s == [] || s[0] == '#' || '=' !in s
  {
    if s == [] || StartsWith(s, "#") then None
    else
      match SplitOnce(s, '=')
      case None => None
      case Some((k, v)) =>
        assert s == k + "=" + v;
        Some((Strip(k), Strip(v)))
  }

  /** A line that is not a comment splits at its first `=`: everything
      after it, later `=` included, is the value. */
  lemma ParseStrippedSplits(s: string, key: string, value: string)
    requires s == key + "=" + value && '=' !in key
    requires s[0] != '#'
    ensures ParseStripped(s) == Some((Strip(key), Strip(value)))
  {
    SplitOnceAt(s, '=', key, value);
  }

  /** One raw line, newline included, as the file iterator yields it. */
  function ParseEnvLine(line: string): Option<(string, string)> {
    ParseStripped(Strip(line))
  }

  /** A string with no whitespace at either end is its own strip. */
  lemma StripUnchanged(s: string)
    requires s == [] || (!IsSpace(s[0]) && !IsSpace(s[|s| - 1]))
    ensures Strip(s) == s
  {
    assert TrimLeft(s) == s;
    assert TrimRight(s) == s;
  }

  /** What each line assigns, in file order. */
  function Assignments(lines: seq<string>): (r: seq<Option<(string, string)>>)
    ensures |r| == |lines| && forall i :: 0 <= i < |lines| ==> r[i] == ParseEnvLine(lines[i])
  {
    seq(|lines|, i requires 0 <= i < |lines| => ParseEnvLine(lines[i]))
  }

  /** The assignments applied in order to an empty map. */
  function Apply(assignments: seq<Option<(string, string)>>): (r: map<string, string>)
    ensures forall k :: k in r ==> Some((k, r[k])) in assignments
  {
    if assignments == [] then map[]
    else
      var m := Apply(assignments[..|assignments| - 1]);
      assert forall k :: k in m ==> Some((k, m[k])) in assignments;
      match assignments[|assignments| - 1]
      case None => m
      case Some((k, v)) => m[k := v]
  }

  /** `load_env_file` with the file's lines passed in; `None` is a missing
      file. Every loaded pair comes from some line of the file. */
  function LoadEnvFile(file: Option<seq<string>>): (r: map<string, string>)
    ensures file.None? ==> r == map[]
    ensures file.Some? ==> forall k :: k in r ==> exists i :: 0 <= i < |file.value| && ParseEnvLine(file.value[i]) == Some((k, r[k]))
  {
    match file
    case None => map[]
    case Some(lines) =>
      var r := Apply(Assignments(lines));
      assert forall k :: k in r ==> Some((k, r[k])) in Assignments(lines);
      r
  }

  /** Assignment `i` sets key `k`. */
  predicate Assigns(assignments: seq<Option<(string, string)>>, i: int, k: string) {
    0 <= i < |assignments| && assignments[i].Some? && assignments[i].value.0 == k
  }

  /** A key is loaded when some line assigns it, and its value is the one
      the LAST such line gives: later duplicates overwrite earlier ones. */
  lemma {:induction false} LastAssignmentWins(assignments: seq<Option<(string, string)>>, k: string, i: int)
    requires Assigns(assignments, i, k)
    requires forall j :: i < j < |assignments| ==> !Assigns(assignments, j, k)
    ensures k in Apply(assignments)
    ensures Apply(assignments)[k] == assignments[i].value.1
  {
    var init := assignments[..|assignments| - 1];
    if i < |assignments| - 1 {
      forall j | i < j < |init| ensures !Assigns(init, j, k) {
        assert init[j] == assignments[j];
        assert !Assigns(assignments, j, k);
      }
      assert init[i] == assignments[i];
      LastAssignmentWins(init, k, i);
      assert !Assigns(assignments, |assignments| - 1, k);
    }
  }

  /** The same at the level of the file: a key's value is the one its last
      assigning line gives. */
  lemma LoadEnvFileLastWins(lines: seq<string>, k: string, i: int)
    requires 0 <= i < |lines| && ParseEnvLine(lines[i]).Some? && ParseEnvLine(lines[i]).value.0 == k
    requires forall j :: i < j < |lines| ==> ParseEnvLine(lines[j]).None? || ParseEnvLine(lines[j]).value.0 != k
    ensures k in LoadEnvFile(Some(lines))
    ensures LoadEnvFile(Some(lines))[k] == ParseEnvLine(lines[i]).value.1
  {
    var a := Assignments(lines);
    assert forall j :: i < j < |a| ==> !Assigns(a, j, k);
    LastAssignmentWins(a, k, i);
  }

  /** A key no line assigns is not loaded. */
  lemma {:induction false} UnassignedAbsent(assignments: seq<Option<(string, string)>>, k: string)
    requires forall j :: 0 <= j < |assignments| ==> !Assigns(assignments, j, k)
    ensures k !in Apply(assignments)
  {
    if assignments != [] {
      var init := assignments[..|assignments| - 1];
      forall j | 0 <= j < |init| ensures !Assigns(init, j, k) {
        assert init[j] == assignments[j];
        assert !Assigns(assignments, j, k);
      }
      UnassignedAbsent(init, k);
      assert !Assigns(assignments, |assignments| - 1, k);
    }
  }

  /** A line that is not a comment splits at its first `=`, so the value
      keeps every later `=`. */
  lemma ValueKeepsLaterEquals(line: string, key: string, value: string)
    requires Strip(line) == key + "=" + value && '=' !in key
    requires key == [] || key[0] != '#'
    ensures ParseEnvLine(line) == Some((Strip(key), Strip(value)))
  {
    var s := Strip(line);
    assert s[0] == if key == [] then '=' else key[0];
    ParseStrippedSplits(s, key, value);
  }

  /** An empty value is kept as the empty string. */
  lemma EmptyValueKept(line: string, key: string)
    requires Strip(line) == key + "=" && '=' !in key
    requires key == [] || key[0] != '#'
    ensures ParseEnvLine(line) == Some((Strip(key), ""))
  {
    assert Strip(line) == key + "=" + "";
    ValueKeepsLaterEquals(line, key, "");
    StripUnchanged("");
  }

  /** Comment lines are skipped even when they contain `=`. */
  lemma CommentSkipped()
    ensures ParseEnvLine("#A=b") == None
  {
    StripUnchanged("#A=b");
  }

  /** Python's truth value of the optional `config_path`. */
  predicate Truthy(configPath: Option<string>) {
    configPath.Some? && configPath.value != ""
  }

  /** The service's environment: the process environment, overridden by
      the `.env` assignments, with `RESTACK_CONFIG` set last when a config
      path is given. */
  function ServiceEnvironment(osEnv: map<string, string>, envVars: map<string, string>, configPath: Option<string>): (r: map<string, string>)
    ensures r.Keys == osEnv.Keys + envVars.Keys + (if Truthy(configPath) then {CONFIG_VARIABLE} else {})
    ensures Truthy(configPath) ==> r[CONFIG_VARIABLE] == configPath.value
    ensures forall k :: k in envVars && (k != CONFIG_VARIABLE || !Truthy(configPath)) ==> r[k] == envVars[k]
    ensures forall k :: k in osEnv && k !in envVars && (k != CONFIG_VARIABLE || !Truthy(configPath)) ==> r[k] == osEnv[k]
  {
    var env := osEnv + envVars;
    if Truthy(configPath) then env[CONFIG_VARIABLE := configPath.value] else env
  }

  /** Without a config path, a `RESTACK_CONFIG` the process had survives
      unless the `.env` file sets it; with one, neither source matters. */
  lemma ConfigPrecedence(osEnv: map<string, string>, envVars: map<string, string>, configPath: Option<string>)
    requires CONFIG_VARIABLE in osEnv
    ensures !Truthy(configPath) && CONFIG_VARIABLE !in envVars ==>
      ServiceEnvironment(osEnv, envVars, configPath)[CONFIG_VARIABLE] == osEnv[CONFIG_VARIABLE]
    ensures Truthy(configPath) ==>
      ServiceEnvironment(osEnv, envVars, configPath)[CONFIG_VARIABLE] == configPath.value
    ensures ServiceEnvironment(osEnv, envVars, Some("")) == ServiceEnvironment(osEnv, envVars, None)
  {
  }
}

=== FILE: stats.dfy ===
/** `restack stats`: which files are counted, the category each one falls
    into, and the per-category and overall totals. The directory walk and
    the file reads are replaced by a list of entries. */
module Stats {
  import opened Wrappers
  import opened Text

  datatype Category =
    | Test | Client | Config | Server
    | Agent | Workflow | Function | Common | Tool
    | RootConfig | Template | Other

  /** The key the report uses for each category. */
  function CategoryKey(c: Category): string {
    match c
    case Test => "test"
    case Client => "client"
    case Config => "config"
    case Server => "server"
    case Agent => "agent"
    case Workflow => "workflow"
    case Function => "function"
    case Common => "common"
    case Tool => "tool"
    case RootConfig => "root_config"
    case Template => "template"
    case Other => "other"
  }

  /** Every category, once each. */
  const ALL_CATEGORIES: seq<Category> :=
    [Test, Client, Config, Server, Agent, Workflow, Function, Common, Tool, RootConfig, Template, Other]

  lemma CategoryKeysDistinct(a: Category, b: Category)
    ensures CategoryKey(a) == CategoryKey(b) <==> a == b
    ensures a in ALL_CATEGORIES
  {
  }

  const COUNTED_SUFFIXES: set<string> := {".py", ".yaml", ".md", ".toml", ".j2"}
  const ROOT_CONFIG_NAMES: set<string> := {"pyproject.toml", "Makefile", "README.md"}

  /** The scan only looks at files whose suffix is one of five. */
  predicate Counted(parts: seq<string>)
    requires |parts| >= 1
  {
    Suffix(parts[|parts| - 1]) in COUNTED_SUFFIXES
  }

  /** A name without a dot has no suffix, so it is never counted: the
      `Makefile` listed among the root configuration files can never be
      categorised. */
  lemma {:induction false} NoDotNotCounted(parts: seq<string>)
    requires |parts| >= 1 && '.' !in parts[|parts| - 1]
    ensures !Counted(parts)
  {
  }

  lemma MakefileNeverCounted(parts: seq<string>)
    requires |parts| >= 1 && parts[|parts| - 1] == "Makefile"
    ensures !Counted(parts)
  {
    NoDotNotCounted(parts);
  }

  /** The five directories under `src/<project>/` that have their own
      category. */
  function SourceCategory(dir: string): (r: Option<Category>)
    ensures r.Some? ==> r.value in {Agent, Workflow, Function, Common, Tool}
  {
    if dir == "agents" then Some(Agent)
    else if dir == "workflows" then Some(Workflow)
    else if dir == "functions" then Some(Function)
    else if dir == "common" then Some(Common)
    else if dir == "tools" then Some(Tool)
    else None
  }

  /** The four top-level directories that decide a category by themselves. */
  function TopCategory(first: string): (r: Option<Category>)
    ensures r == Some(Test) <==> first == "tests"
    ensures r == Some(Client) <==> first == "client"
    ensures r == Some(Config) <==> first == "config"
    ensures r == Some(Server) <==> first == "server"
    ensures r.Some? ==> r.value in {Test, Client, Config, Server}
  {
    if first == "tests" then Some(Test)
    else if first == "client" then Some(Client)
    else if first == "config" then Some(Config)
    else if first == "server" then Some(Server)
    else None
  }

  predicate TopLevelDecides(first: string) {
    TopCategory(first).Some?
  }

  predicate UnderSource(parts: seq<string>) {
    |parts| > 2 && parts[0] == "src"
  }

  /** The last two rules of the chain: root-configuration names, then
      "template" anywhere in the path. */
  function Fallback(parts: seq<string>): (r: Category)
    requires |parts| >= 1
    ensures r in {RootConfig, Template, Other}
    ensures r == RootConfig <==> parts[|parts| - 1] in ROOT_CONFIG_NAMES
    ensures r == Template <==> parts[|parts| - 1] !in ROOT_CONFIG_NAMES && Contains(Join(parts, "/"), "template")
  {
    if parts[|parts| - 1] in ROOT_CONFIG_NAMES then RootConfig
    else if Contains(Join(parts, "/"), "template") then Template
    else Other
  }

  /** The category decision chain for a path relative to the project root,
      given as its parts. */
  function Categorise(parts: seq<string>, project: string): Category
    requires |parts| >= 1
  {
    match TopCategory(parts[0])
    case Some(c) => c
    case None =>
      if UnderSource(parts) then
        if parts[1] == project then
          match SourceCategory(parts[2])
          case Some(c) => c
          case None => Other
        else Other
      else Fallback(parts)
  }

  /** Each category's condition, both ways: the four top-level directories
      decide first, then `src/<project>/<dir>`, then the root-configuration
      names. */
  lemma CategoriseSpec(parts: seq<string>, project: string)
    requires |parts| >= 1
    ensures Categorise(parts, project) == Test <==> parts[0] == "tests"
    ensures Categorise(parts, project) == Client <==> parts[0] == "client"
    ensures Categorise(parts, project) == Config <==> parts[0] == "config"
    ensures Categorise(parts, project) == Server <==> parts[0] == "server"
    ensures Categorise(parts, project) in {Agent, Workflow, Function, Common, Tool} <==>
      UnderSource(parts) && parts[1] == project && SourceCategory(parts[2]) == Some(Categorise(parts, project))
    ensures Categorise(parts, project) == RootConfig <==>
      !TopLevelDecides(parts[0]) && !UnderSource(parts) && parts[|parts| - 1] in ROOT_CONFIG_NAMES
  {
  }

  /** A path outside those rules and not a root-configuration name is a
      template exactly when "template" occurs in it. */
  lemma CategoriseTemplate(parts: seq<string>, project: string)
    requires |parts| >= 1
    ensures Categorise(parts, project) == Template <==>
      !TopLevelDecides(parts[0]) && !UnderSource(parts) && parts[|parts| - 1] !in ROOT_CONFIG_NAMES
      && Contains(Join(parts, "/"), "template")
  {
  }

  /** A path under `src/` with more than two parts never reaches the
      root-configuration or template rules, whatever its name. */
  lemma SourceNeverFallsThrough(parts: seq<string>, project: string)
    requires UnderSource(parts)
    ensures Categorise(parts, project) !in {RootConfig, Template, Test, Client, Config, Server}
    ensures parts[1] != project ==> Categorise(parts, project) == Other
  {
  }

  /** Outside the four top-level directories and `src/`, a README.md or
      pyproject.toml is root configuration at any depth. */
  lemma RootConfigAnyDepth(parts: seq<string>, project: string)
    requires |parts| >= 1 && !TopLevelDecides(parts[0]) && !UnderSource(parts)
    requires parts[|parts| - 1] in {"README.md", "pyproject.toml"}
    ensures Counted(parts)
    ensures Categorise(parts, project) == RootConfig
  {
    var name := parts[|parts| - 1];
    if name == "README.md" {
      assert name == "README" + ['.'] + "md";
      LastIndexOfAt("README", '.', "md");
      assert name[6..] == ".md";
    } else {
      assert name == "pyproject" + ['.'] + "toml";
      LastIndexOfAt("pyproject", '.', "toml");
      assert name[9..] == ".toml";
    }
  }

  /** One file the walk found: its path relative to the root, and its line
      count, `None` when reading it failed. */
  datatype Entry = Entry(parts: seq<string>, lines: Option<nat>)

  datatype Tally = Tally(files: nat, lines: nat)

  predicate WellFormed(entries: seq<Entry>) {
    forall k :: 0 <= k < |entries| ==> |entries[k].parts| >= 1
  }

  /** The entry is counted: its suffix is one of the five and it could be
      read. */
  predicate Tallied(e: Entry)
  {
    |e.parts| >= 1 && Counted(e.parts) && e.lines.Some?
  }

  function Bump(results: map<Category, Tally>, c: Category, lines: nat): (r: map<Category, Tally>)
    ensures r.Keys == results.Keys + {c}
    ensures forall k :: k in results && k != c ==> r[k] == results[k]
    ensures c in results ==> r[c] == Tally(results[c].files + 1, results[c].lines + lines)
    ensures c !in results ==> r[c] == Tally(1, lines)
  {
    var t := if c in results then results[c] else Tally(0, 0);
    results[c := Tally(t.files + 1, t.lines + lines)]
  }

  /** Entry `e` is tallied, and tallied under category `c`. */
  predicate FallsIn(e: Entry, project: string, c: Category) {
    Tallied(e) && Categorise(e.parts, project) == c
  }

  /** Some entry of the list passes `test`. */
  predicate SeenBy(entries: seq<Entry>, test: Entry -> bool) {
    exists k :: 0 <= k < |entries| && test(entries[k])
  }

  /** Some entry of the list is tallied under category `c`. */
  predicate Seen(entries: seq<Entry>, project: string, c: Category) {
    SeenBy(entries, e => FallsIn(e, project, c))
  }

  /** An entry passes in a list exactly when one before the last does or
      the last one does. */
  lemma SeenBySnoc(entries: seq<Entry>, test: Entry -> bool)
    requires entries != []
    ensures SeenBy(entries, test) <==> SeenBy(entries[..|entries| - 1], test) || test(entries[|entries| - 1])
  {
    var init := entries[..|entries| - 1];
    if SeenBy(init, test) {
      var k :| 0 <= k < |init| && test(init[k]);
      assert init[k] == entries[k];
    }
    if SeenBy(entries, test) {
      var k :| 0 <= k < |entries| && test(entries[k]);
      if k < |init| {
        assert init[k] == entries[k];
      }
    }
  }

  /** The per-category results of scanning `entries` in order. A category
      appears only once a file has fallen into it. */
  function Scan(entries: seq<Entry>, project: string): (r: map<Category, Tally>)
    requires WellFormed(entries)
    ensures forall c :: c in r <==> Seen(entries, project, c)
  {
    if entries == [] then map[]
    else
      var init := entries[..|entries| - 1];
      var e := entries[|entries| - 1];
      assert WellFormed(init) by {
        forall k | 0 <= k < |init| ensures |init[k].parts| >= 1 {
          assert init[k] == entries[k];
        }
      }
      var m := Scan(init, project);
      assert forall c :: Seen(entries, project, c) <==> Seen(init, project, c) || FallsIn(e, project, c) by {
        forall c ensures Seen(entries, project, c) <==> Seen(init, project, c) || FallsIn(e, project, c) {
          SeenBySnoc(entries, e => FallsIn(e, project, c));
        }
      }
      if Tallied(e) then Bump(m, Categorise(e.parts, project), e.lines.value) else m
  }

  /** Reference counts for one category: the entries tallied under `c`,
      and their lines, counted directly from the list. */
  function FilesFalling(entries: seq<Entry>, project: string, c: Category): nat {
    if entries == [] then 0
    else
      FilesFalling(entries[..|entries| - 1], project, c)
      + (if FallsIn(entries[|entries| - 1], project, c) then 1 else 0)
  }

  function LinesFalling(entries: seq<Entry>, project: string, c: Category): nat {
    if entries == [] then 0
    else
      var e := entries[|entries| - 1];
      LinesFalling(entries[..|entries| - 1], project, c) + (if FallsIn(e, project, c) then e.lines.value else 0)
  }

  function FilesIn(results: map<Category, Tally>, c: Category): nat {
    if c in results then results[c].files else 0
  }

  function LinesIn(results: map<Category, Tally>, c: Category): nat {
    if c in results then results[c].lines else 0
  }

  /** `sum(r["total_files"] for r in results.values())`. */
  function SumFiles(results: map<Category, Tally>, cats: seq<Category>): nat {
    if cats == [] then 0 else FilesIn(results, cats[0]) + SumFiles(results, cats[1..])
  }

  /** `sum(r["total_lines"] for r in results.values())`. */
  function SumLines(results: map<Category, Tally>, cats: seq<Category>): nat {
    if cats == [] then 0 else LinesIn(results, cats[0]) + SumLines(results, cats[1..])
  }

  /** The tallied entries and their lines, counted directly. */
  function TalliedFiles(entries: seq<Entry>): nat {
    if entries == [] then 0
    else TalliedFiles(entries[..|entries| - 1]) + (if Tallied(entries[|entries| - 1]) then 1 else 0)
  }

  function TalliedLines(entries: seq<Entry>): nat {
    if entries == [] then 0
    else
      var e := entries[|entries| - 1];
      TalliedLines(entries[..|entries| - 1]) + (if Tallied(e) then e.lines.value else 0)
  }

  /** Bumping category `c` adds one file and `lines` lines to every sum over
      a list that holds `c` once, and nothing to one that does not. */
  lemma {:induction false} SumsAfterBump(results: map<Category, Tally>, c: Category, lines: nat, cats: seq<Category>)
    requires forall i, j :: 0 <= i < j < |cats| ==> cats[i] != cats[j]
    ensures SumFiles(Bump(results, c, lines), cats) == SumFiles(results, cats) + (if c in cats then 1 else 0)
    ensures SumLines(Bump(results, c, lines), cats) == SumLines(results, cats) + (if c in cats then lines else 0)
  {
    if cats != [] {
      DistinctTail(cats);
      SumsAfterBump(results, c, lines, cats[1..]);
      assert c in cats <==> c == cats[0] || c in cats[1..];
    }
  }

  /** A list without repeats: its head is not in its tail, which has no
      repeats either. */
  lemma DistinctTail(cats: seq<Category>)
    requires cats != [] && forall i, j :: 0 <= i < j < |cats| ==> cats[i] != cats[j]
    ensures cats[0] !in cats[1..]
    ensures forall i, j :: 0 <= i < j < |cats[1..]| ==> cats[1..][i] != cats[1..][j]
  {
    assert forall j :: 0 <= j < |cats[1..]| ==> cats[1..][j] == cats[j + 1];
  }

  /** Nothing scanned, nothing summed. */
  lemma {:induction false} SumsOfNothing(cats: seq<Category>)
    ensures SumFiles(map[], cats) == 0 && SumLines(map[], cats) == 0
  {
    if cats != [] {
      SumsOfNothing(cats[1..]);
    }
  }

  /** The order of `ALL_CATEGORIES` lists each category once. */
  lemma AllCategoriesDistinct()
    ensures forall i, j :: 0 <= i < j < |ALL_CATEGORIES| ==> ALL_CATEGORIES[i] != ALL_CATEGORIES[j]
  {
  }

  /** One step of the scan. */
  lemma ScanStep(entries: seq<Entry>, project: string)
    requires WellFormed(entries) && entries != []
    ensures var init, e := entries[..|entries| - 1], entries[|entries| - 1];
      WellFormed(init) &&
      Scan(entries, project) == if Tallied(e) then Bump(Scan(init, project), Categorise(e.parts, project), e.lines.value)
                                else Scan(init, project)
  {
  }

  /** Each category's totals in the scan are the files that fall in it and
      their lines; a category the scan leaves out has none. */
  lemma ScanTallies(entries: seq<Entry>, project: string, c: Category)
    requires WellFormed(entries)
    ensures FilesIn(Scan(entries, project), c) == FilesFalling(entries, project, c)
    ensures LinesIn(Scan(entries, project), c) == LinesFalling(entries, project, c)
    ensures c in Scan(entries, project) ==>
      Scan(entries, project)[c] == Tally(FilesFalling(entries, project, c), LinesFalling(entries, project, c))
  {
    ScanCounts(entries, project, c);
  }

  lemma {:induction false} ScanCounts(entries: seq<Entry>, project: string, c: Category)
    requires WellFormed(entries)
    ensures FilesIn(Scan(entries, project), c) == FilesFalling(entries, project, c)
    ensures LinesIn(Scan(entries, project), c) == LinesFalling(entries, project, c)
  {
    if entries != [] {
      var init := entries[..|entries| - 1];
      var e := entries[|entries| - 1];
      ScanStep(entries, project);
      ScanCounts(init, project, c);
      CountsStep(Scan(init, project), e, project, c);
      FallingStep(entries, project, c);
    }
  }

  /** The reference counts of a list are those of all but its last entry,
      plus what the last entry adds. */
  lemma FallingStep(entries: seq<Entry>, project: string, c: Category)
    requires entries != []
    ensures var init, e := entries[..|entries| - 1], entries[|entries| - 1];
      FilesFalling(entries, project, c) == FilesFalling(init, project, c) + (if FallsIn(e, project, c) then 1 else 0) &&
      LinesFalling(entries, project, c) == LinesFalling(init, project, c) + (if FallsIn(e, project, c) then e.lines.value else 0)
  {
  }

  /** One more entry adds to category `c`'s counts exactly what it adds to
      the reference counts. */
  lemma CountsStep(m: map<Category, Tally>, e: Entry, project: string, c: Category)
    requires |e.parts| >= 1
    ensures var m' := if Tallied(e) then Bump(m, Categorise(e.parts, project), e.lines.value) else m;
      FilesIn(m', c) == FilesIn(m, c) + (if FallsIn(e, project, c) then 1 else 0) &&
      LinesIn(m', c) == LinesIn(m, c) + (if FallsIn(e, project, c) then e.lines.value else 0)
  {
    if Tallied(e) {
      BumpCounts(m, Categorise(e.parts, project), e.lines.value, c);
    }
  }

  /** Bumping category `d` adds one file and `lines` lines to `d`'s counts
      and nothing to any other category's. */
  lemma BumpCounts(results: map<Category, Tally>, d: Category, lines: nat, c: Category)
    ensures FilesIn(Bump(results, d, lines), c) == FilesIn(results, c) + (if c == d then 1 else 0)
    ensures LinesIn(Bump(results, d, lines), c) == LinesIn(results, c) + (if c == d then lines else 0)
  {
  }

  /** The overall totals equal the number of counted readable files and
      their lines: every such file lands in exactly one category. */
  lemma {:induction false} TotalsCountEveryFile(entries: seq<Entry>, project: string)
    requires WellFormed(entries)
    ensures SumFiles(Scan(entries, project), ALL_CATEGORIES) == TalliedFiles(entries)
    ensures SumLines(Scan(entries, project), ALL_CATEGORIES) == TalliedLines(entries)
  {
    if entries != [] {
      var init := entries[..|entries| - 1];
      var e := entries[|entries| - 1];
      ScanStep(entries, project);
      TotalsCountEveryFile(init, project);
      if Tallied(e) {
        var c := Categorise(e.parts, project);
        CategoryKeysDistinct(c, c);
        AllCategoriesDistinct();
        assert c in ALL_CATEGORIES;
        SumsAfterBump(Scan(init, project), c, e.lines.value, ALL_CATEGORIES);
      }
    } else {
      SumsOfNothing(ALL_CATEGORIES);
    }
  }

  datatype Report = Report(results: map<Category, Tally>, totalFiles: nat, totalLines: nat)

  const STATS_ERROR: string :=
    "Could not determine project name/structure. Expected src/{project}/common/settings.py to exist."

  /** `run_stats_report` without the floating-point sizes. The project name
      is whatever the walk found under `src/`; none is an error. */
  function RunStatsReport(projectName: Option<string>, entries: seq<Entry>): (r: Result<Report, string>)
    requires WellFormed(entries)
    ensures projectName.None? || projectName.value == "" <==> r.Err?
    ensures r.Err? ==> r.error == STATS_ERROR
    ensures r.Ok? ==> r.value.totalFiles == TalliedFiles(entries) && r.value.totalLines == TalliedLines(entries)
    ensures r.Ok? ==> r.value.results == Scan(entries, projectName.value)
  {
    match projectName
    case None => Err(STATS_ERROR)
    case Some(project) =>
      if project == "" then Err(STATS_ERROR)
      else
        var results := Scan(entries, project);
        TotalsCountEveryFile(entries, project);
        Ok(Report(results, SumFiles(results, ALL_CATEGORIES), SumLines(results, ALL_CATEGORIES)))
  }
}

=== FILE: text.dfy ===
/** The Python `str` builtins the model relies on, restricted to ASCII
    (plus whatever other code points pass through untouched). */
module Text {
  import opened Wrappers

  /** `str.isspace` on an ASCII character: the six C whitespace characters
      and the four information separators U+001C..U+001F. */
  predicate IsSpace(c: char) {
    c == ' ' || c == '\t' || c == '\n' || c == '\r' || c == '\U{0b}' || c == '\U{0c}'
    || ('\U{1c}' <= c <= '\U{1f}')
  }

  predicate IsDigit(c: char) { '0' <= c <= '9' }
  predicate IsLower(c: char) { 'a' <= c <= 'z' }
  predicate IsUpper(c: char) { 'A' <= c <= 'Z' }
  predicate IsAlnum(c: char) { IsDigit(c) || IsLower(c) || IsUpper(c) }

  /** A string made only of whitespace (the empty string included). */
  predicate IsBlank(s: string) {
    forall i :: 0 <= i < |s| ==> IsSpace(s[i])
  }

  function LowerChar(c: char): (r: char)
    ensures !IsUpper(r)
    ensures IsUpper(c) ==> IsLower(r) && r as int == c as int + 32
    ensures !IsUpper(c) ==> r == c
  {
    if IsUpper(c) then (c as int + 32) as char else c
  }

  function UpperChar(c: char): (r: char)
    ensures !IsLower(r)
    ensures IsLower(c) ==> IsUpper(r) && r as int + 32 == c as int
    ensures !IsLower(c) ==> r == c
  {
    if IsLower(c) then (c as int - 32) as char else c
  }

  /** `str.lower` */
  function Lower(s: string): (r: string)
    ensures |r| == |s|
    ensures forall i :: 0 <= i < |s| ==> r[i] == LowerChar(s[i])
  {
    if s == [] then [] else [LowerChar(s[0])] + Lower(s[1..])
  }

  lemma LowerNoUpper(s: string)
    requires forall i :: 0 <= i < |s| ==> !IsUpper(s[i])
    ensures Lower(s) == s
  {
  }

  /** `str.capitalize`: first character upper-cased, the rest lower-cased. */
  function Capitalize(s: string): (r: string)
    ensures |r| == |s|
    ensures |s| > 0 ==> r[0] == UpperChar(s[0]) && r[1..] == Lower(s[1..])
  {
    if s == [] then [] else [UpperChar(s[0])] + Lower(s[1..])
  }

  /** Drops leading whitespace. */
  function TrimLeft(s: string): (r: string)
    ensures |r| <= |s| && r == s[|s| - |r|..]
    ensures r == [] || !IsSpace(r[0])
    ensures IsBlank(s[..|s| - |r|])
  {
    if s != [] && IsSpace(s[0]) then
      var r := TrimLeft(s[1..]);
      assert s[..|s| - |r|] == [s[0]] + s[1..][..|s| - 1 - |r|];
      r
    else s
  }

  /** Drops trailing whitespace. */
  function TrimRight(s: string): (r: string)
    ensures |r| <= |s| && r == s[..|r|]
    ensures r == [] || !IsSpace(r[|r| - 1])
    ensures IsBlank(s[|r|..])
  {
    if s != [] && IsSpace(s[|s| - 1]) then
      var r := TrimRight(s[..|s| - 1]);
      assert s[|r|..] == s[..|s| - 1][|r|..] + [s[|s| - 1]];
      r
    else s
  }

  /** `str.strip()` with no argument. */
  function Strip(s: string): (r: string)
    ensures r == [] || (!IsSpace(r[0]) && !IsSpace(r[|r| - 1]))
    ensures exists i, j :: 0 <= i <= j <= |s| && r == s[i..j] && IsBlank(s[..i]) && IsBlank(s[j..])
  {
    var l := TrimLeft(s);
    var r := TrimRight(l);
    StripSlices(s, l, r);
    r
  }

  lemma StripSlices(s: string, l: string, r: string)
    requires |l| <= |s| && l == s[|s| - |l|..] && IsBlank(s[..|s| - |l|])
    requires |r| <= |l| && r == l[..|r|] && IsBlank(l[|r|..])
    ensures var i, j := |s| - |l|, |s| - |l| + |r|;
            0 <= i <= j <= |s| && r == s[i..j] && IsBlank(s[..i]) && IsBlank(s[j..])
  {
    var i, j := |s| - |l|, |s| - |l| + |r|;
    assert r == s[i..j];
    assert l[|r|..] == s[j..];
  }

  /** Stripping leaves nothing exactly when the string is blank. */
  lemma StripEmptyIffBlank(s: string)
    ensures Strip(s) == [] <==> IsBlank(s)
  {
    var i, j :| 0 <= i <= j <= |s| && Strip(s) == s[i..j] && IsBlank(s[..i]) && IsBlank(s[j..]);
    if Strip(s) == [] {
      assert i == j;
      forall k | 0 <= k < |s| ensures IsSpace(s[k]) {
        if k < i { assert s[k] == s[..i][k]; } else { assert s[k] == s[j..][k - j]; }
      }
    } else {
      assert !IsSpace(s[i]);
    }
  }

  predicate StartsWith(s: string, prefix: string) {
    |prefix| <= |s| && s[..|prefix|] == prefix
  }

  predicate EndsWith(s: string, suffix: string) {
    |suffix| <= |s| && s[|s| - |suffix|..] == suffix
  }

  /** Python's `needle in haystack` for strings. */
  predicate Contains(haystack: string, needle: string)
    decreases |haystack|
  {
    StartsWith(haystack, needle) || (|haystack| > 0 && Contains(haystack[1..], needle))
  }

  /** `sep.join(parts)` */
  function Join(parts: seq<string>, sep: string): string {
    if |parts| == 0 then ""
    else if |parts| == 1 then parts[0]
    else parts[0] + sep + Join(parts[1..], sep)
  }

  lemma JoinTwo(a: string, b: string, sep: string)
    ensures Join([a, b], sep) == a + sep + b
  {
    assert [a, b][1..] == [b];
  }

  lemma JoinCons(a: string, parts: seq<string>, sep: string)
    requires |parts| >= 1
    ensures Join([a] + parts, sep) == a + sep + Join(parts, sep)
  {
    assert ([a] + parts)[1..] == parts;
  }

  /** Plain concatenation of a list of strings (`"".join(parts)`). */
  function Concat(parts: seq<string>): string {
    if parts == [] then "" else parts[0] + Concat(parts[1..])
  }

  lemma {:induction false} ConcatAppend(a: seq<string>, b: seq<string>)
    ensures Concat(a + b) == Concat(a) + Concat(b)
  {
    if a != [] {
      assert (a + b)[0] == a[0];
      assert (a + b)[1..] == a[1..] + b;
      ConcatAppend(a[1..], b);
    } else {
      assert a + b == b;
    }
  }

  /** First index of `c` in `s`. */
  function IndexOf(s: string, c: char): (i: nat)
    requires c in s
    ensures i < |s| && s[i] == c && c !in s[..i]
  {
    if s[0] == c then 0 else 1 + IndexOf(s[1..], c)
  }

  /** `s.rfind(c)`: the last index of `c` in `s`, or -1. */
  function LastIndexOf(s: string, c: char): (i: int)
    ensures -1 <= i < |s|
    ensures i >= 0 ==> s[i] == c
    ensures forall j :: i < j < |s| ==> s[j] != c
  {
    if s == [] then -1
    else if s[|s| - 1] == c then |s| - 1
    else LastIndexOf(s[..|s| - 1], c)
  }

  /** The last `c` is the one followed by no other. */
  lemma {:induction false} LastIndexOfAt(a: string, c: char, b: string)
    requires c !in b
    ensures LastIndexOf(a + [c] + b, c) == |a|
    decreases |b|
  {
    var s := a + [c] + b;
    if b != [] {
      assert s[..|s| - 1] == a + [c] + b[..|b| - 1];
      assert b[|b| - 1] in b;
      LastIndexOfAt(a, c, b[..|b| - 1]);
    } else {
      assert s[|s| - 1] == c;
    }
  }

  // ---------------------------------------------------------------------
  // File names: `PurePath.stem` and `PurePath.suffix`
  // ---------------------------------------------------------------------

  /** Where a file name's suffix starts: its last dot, unless that dot is
      the first or the last character; -1 when the name has no suffix. */
  function SuffixStart(name: string): (i: int)
    ensures i == -1 || (0 < i < |name| - 1 && name[i] == '.')
    ensures forall j :: i < j < |name| && 0 < i ==> name[j] != '.'
  {
    var i := LastIndexOf(name, '.');
    if 0 < i < |name| - 1 then i else -1
  }

  /** `PurePath.stem`: the name without its suffix. */
  function Stem(name: string): (r: string)
    ensures |r| <= |name| && r == name[..|r|]
    ensures r == "" <==> name == ""
  {
    var i := SuffixStart(name);
    if i > 0 then name[..i] else name
  }

  /** `PurePath.suffix`: the last dot and what follows it, or nothing. */
  function Suffix(name: string): (r: string)
    ensures Stem(name) + r == name
    ensures r != [] ==> r[0] == '.' && '.' !in r[1..] && |r| >= 2 && Stem(name) != ""
  {
    var i := SuffixStart(name);
    if i > 0 then
      assert name[..i] + name[i..] == name;
      assert name[i..][1..] == name[i + 1..];
      name[i..]
    else []
  }

  /** A non-empty stem, a dot and a non-empty extension without dots split
      back into that stem and `.` plus that extension; so a name has a
      suffix exactly when it can be written this way. */
  lemma StemAndSuffix(a: string, b: string)
    requires a != "" && b != "" && '.' !in b
    ensures Stem(a + "." + b) == a
    ensures Suffix(a + "." + b) == "." + b
  {
    LastIndexOfAt(a, '.', b);
    var name := a + "." + b;
    assert name[..|a|] == a && name[|a|..] == "." + b;
  }

  /** `s.split(c)` for a one-character separator. */
  function Split(s: string, c: char): (r: seq<string>)
    ensures |r| >= 1
    ensures forall k :: 0 <= k < |r| ==> c !in r[k]
    ensures Join(r, [c]) == s
    decreases |s|
  {
    if c !in s then [s]
    else
      var i := IndexOf(s, c);
      var rest := Split(s[i + 1..], c);
      assert s == s[..i] + [c] + s[i + 1..];
      [s[..i]] + rest
  }

  /** `s.split(c, 1)` read as a pair: `None` when `c` does not occur. */
  function SplitOnce(s: string, c: char): (r: Option<(string, string)>)
    ensures r.None? <==> c !in s
    ensures r.Some? ==> s == r.value.0 + [c] + r.value.1 && c !in r.value.0
  {
    if c !in s then None
    else
      var i := IndexOf(s, c);
      assert s == s[..i] + [c] + s[i + 1..];
      Some((s[..i], s[i + 1..]))
  }

  /** Any split of `s` at a first `c` is the one `SplitOnce` finds. */
  lemma SplitOnceAt(s: string, c: char, a: string, b: string)
    requires s == a + [c] + b && c !in a
    ensures SplitOnce(s, c) == Some((a, b))
  {
    assert s[|a|] == c;
    var r := SplitOnce(s, c).value;
    assert forall i :: 0 <= i < |a| ==> s[i] == a[i];
    assert forall i :: 0 <= i < |r.0| ==> s[i] == r.0[i];
    assert |r.0| == |a|;
    assert a == s[..|a|] == r.0;
    assert b == s[|a| + 1..] == r.1;
  }

  function Spaces(n: nat): (r: string)
    ensures |r| == n && forall i :: 0 <= i < n ==> r[i] == ' '
  {
    seq(n, _ => ' ')
  }

  function DigitChar(d: nat): (c: char)
    requires d < 10
    ensures IsDigit(c)
  {
    "0123456789"[d]
  }

  /** `str(n)` for a natural number. */
  function NatToString(n: nat): (r: string)
    ensures |r| >= 1 && forall i :: 0 <= i < |r| ==> IsDigit(r[i])
  {
    if n < 10 then [DigitChar(n)] else NatToString(n / 10) + [DigitChar(n % 10)]
  }

  /** `str(i)` for an integer. */
  function IntToString(i: int): string {
    if i < 0 then "-" + NatToString(-i) else NatToString(i)
  }

  // ---------------------------------------------------------------------
  // Python string ordering (code-point lexicographic) and sorting
  // ---------------------------------------------------------------------

  /** `a < b` on Python strings. */
  predicate StrLess(a: string, b: string)
    decreases |a|
  {
    if |a| == 0 then |b| > 0
    else if |b| == 0 then false
    else if a[0] != b[0] then a[0] < b[0]
    else StrLess(a[1..], b[1..])
  }

  predicate StrLessEq(a: string, b: string) {
    a == b || StrLess(a, b)
  }

  lemma {:induction false} StrLessIrreflexive(a: string)
    ensures !StrLess(a, a)
    decreases |a|
  {
    if |a| > 0 {
      StrLessIrreflexive(a[1..]);
    }
  }

  lemma {:induction false} StrLessTransitive(a: string, b: string, c: string)
    requires StrLess(a, b) && StrLess(b, c)
    ensures StrLess(a, c)
    decreases |a|
  {
    if |a| > 0 && |b| > 0 && |c| > 0 && a[0] == b[0] && b[0] == c[0] {
      StrLessTransitive(a[1..], b[1..], c[1..]);
    }
  }

  lemma {:induction false} StrLessTotal(a: string, b: string)
    ensures a == b || StrLess(a, b) || StrLess(b, a)
    decreases |a|
  {
    if |a| > 0 && |b| > 0 && a[0] == b[0] {
      StrLessTotal(a[1..], b[1..]);
      if a[1..] == b[1..] {
        assert a == [a[0]] + a[1..] && b == [b[0]] + b[1..];
      }
    }
  }

  lemma {:induction false} StrLessAsymmetric(a: string, b: string)
    requires StrLess(a, b)
    ensures !StrLess(b, a)
  {
    if StrLess(b, a) {
      StrLessTransitive(a, b, a);
      StrLessIrreflexive(a);
    }
  }

  lemma StrLessFacts()
    ensures forall a, b, c :: StrLess(a, b) && StrLess(b, c) ==> StrLess(a, c)
    ensures forall a, b :: StrLess(a, b) ==> !StrLess(b, a)
    ensures forall a :: !StrLess(a, a)
  {
    forall a, b, c | StrLess(a, b) && StrLess(b, c) ensures StrLess(a, c) {
      StrLessTransitive(a, b, c);
    }
    forall a, b | StrLess(a, b) ensures !StrLess(b, a) {
      StrLessAsymmetric(a, b);
    }
    forall a ensures !StrLess(a, a) {
      StrLessIrreflexive(a);
    }
  }

  predicate Sorted(s: seq<string>) {
    forall i, j :: 0 <= i < j < |s| ==> StrLessEq(s[i], s[j])
  }

  predicate StrictlySorted(s: seq<string>) {
    forall i, j :: 0 <= i < j < |s| ==> StrLess(s[i], s[j])
  }

  /** Inserts `x` into a sorted list, keeping duplicates. */
  function Insert(x: string, s: seq<string>): (r: seq<string>)
    requires Sorted(s)
    ensures Sorted(r)
    ensures multiset(r) == multiset(s) + multiset{x}
  {
    if s == [] then [x]
    else if StrLessEq(x, s[0]) then
      StrLessFacts();
      [x] + s
    else
      StrLessTotal(x, s[0]);
      var t := Insert(x, s[1..]);
      StrLessFacts();
      assert s == [s[0]] + s[1..];
      assert forall k :: 0 <= k < |t| ==> StrLessEq(s[0], t[k]) by {
        forall k | 0 <= k < |t| ensures StrLessEq(s[0], t[k]) {
          assert t[k] in multiset(t);
        }
      }
      [s[0]] + t
  }

  /** `sorted(names)` */
  function Sort(s: seq<string>): (r: seq<string>)
    ensures Sorted(r)
    ensures multiset(r) == multiset(s)
  {
    if s == [] then []
    else
      assert s == [s[0]] + s[1..];
      Insert(s[0], Sort(s[1..]))
  }

  /** Inserts `x` into a strictly sorted list unless it is already present. */
  function InsertDistinct(x: string, s: seq<string>): (r: seq<string>)
    requires StrictlySorted(s)
    ensures StrictlySorted(r)
    ensures forall e :: e in r <==> e == x || e in s
  {
    if s == [] then [x]
    else if x == s[0] then s
    else if StrLess(x, s[0]) then
      StrLessFacts();
      [x] + s
    else
      StrLessTotal(x, s[0]);
      var t := InsertDistinct(x, s[1..]);
      StrLessFacts();
      assert forall k :: 0 <= k < |t| ==> StrLess(s[0], t[k]) by {
        forall k | 0 <= k < |t| ensures StrLess(s[0], t[k]) {
          assert t[k] in t;
          if t[k] != x {
            var j :| 0 <= j < |s[1..]| && s[1..][j] == t[k];
            assert s[j + 1] == t[k];
          }
        }
      }
      [s[0]] + t
  }

  /** `sorted(set(names))` */
  function SortDistinct(s: seq<string>): (r: seq<string>)
    ensures StrictlySorted(r)
    ensures forall e :: e in r <==> e in s
  {
    if s == [] then [] else InsertDistinct(s[0], SortDistinct(s[1..]))
  }

  predicate IsMinimum(m: string, st: set<string>) {
    m in st && forall y :: y in st ==> StrLessEq(m, y)
  }

  lemma {:induction false} MinimumExists(st: set<string>)
    requires st != {}
    ensures exists m :: IsMinimum(m, st)
    decreases st
  {
    var x :| x in st;
    if st == {x} {
      assert IsMinimum(x, st);
    } else {
      MinimumExists(st - {x});
      var m :| IsMinimum(m, st - {x});
      StrLessTotal(x, m);
      StrLessFacts();
      if StrLess(x, m) {
        forall y | y in st ensures StrLessEq(x, y) {
          if y != x {
            assert y in st - {x};
          }
        }
        assert IsMinimum(x, st);
      } else {
        assert IsMinimum(m, st);
      }
    }
  }

  /** `sorted(st)` for a set of strings. */
  function SetToSorted(st: set<string>): (r: seq<string>)
    ensures StrictlySorted(r)
    ensures forall e :: e in r <==> e in st
    decreases st
  {
    if st == {} then []
    else
      MinimumExists(st);
      StrLessFacts();
      var m :| IsMinimum(m, st);
      var rest := SetToSorted(st - {m});
      [m] + rest
  }
}

=== FILE: validator.dfy ===
/** Structural analysis of a pipeline tree (restack_gen/validator.py): the
    resource set, the cycle and unreachable-node checks, the execution
    order, the dependency map and the graph metrics. */
module Validator {
  import opened Wrappers
  import opened Text
  import opened IR

  // ---------------------------------------------------------------------
  // The resource set
  // ---------------------------------------------------------------------

  /** `_collect_resources`: every leaf name, false branch included. */
  function CollectResources(n: Node): set<string> {
    match n
    case Resource(name, _) => {name}
    case Sequence(cs) => CollectAll(cs)
    case Parallel(cs) => CollectAll(cs)
    case Conditional(_, t, f) => CollectResources(t) + (if f.Some? then CollectResources(f.value) else {})
  }

  function CollectAll(cs: seq<Node>): set<string> {
    if cs == [] then {} else CollectResources(cs[0]) + CollectAll(cs[1..])
  }

  /** The resource set is exactly the set of leaf names; condition strings
      never enter it. */
  lemma {:induction false} CollectIsLeafNames(n: Node)
    ensures forall x :: x in CollectResources(n) <==> x in LeafNames(n)
  {
    match n
    case Resource(_, _) =>
    case Sequence(cs) => CollectAllIsLeafNames(cs);
    case Parallel(cs) => CollectAllIsLeafNames(cs);
    case Conditional(_, t, f) =>
      CollectIsLeafNames(t);
      var fl := if f.Some? then Leaves(f.value) else [];
      NamesAppend(Leaves(t), fl);
      if f.Some? {
        CollectIsLeafNames(f.value);
      }
  }

  lemma {:induction false} CollectAllIsLeafNames(cs: seq<Node>)
    ensures forall x :: x in CollectAll(cs) <==> x in Names(LeavesOf(cs))
  {
    if cs != [] {
      CollectIsLeafNames(cs[0]);
      CollectAllIsLeafNames(cs[1..]);
      NamesAppend(Leaves(cs[0]), LeavesOf(cs[1..]));
    }
  }

  // ---------------------------------------------------------------------
  // _check_cycles
  // ---------------------------------------------------------------------

  /** The `visited` and `rec_stack` sets `has_cycle` shares across its calls. */
  datatype CycleState = CycleState(visited: set<string>, stack: set<string>)

  /** `has_cycle`: `Err(name)` is the ValidationError raised for a leaf met
      while its name is on the recursion stack. */
  function HasCycle(n: Node, s: CycleState): Result<(bool, CycleState), string> {
    match n
    case Resource(name, _) =>
      if name in s.stack then Err(name)
      else if name in s.visited then Ok((false, s))
      else Ok((false, CycleState(s.visited + {name}, (s.stack + {name}) - {name})))
    case Sequence(cs) => AnyCycle(cs, s)
    case Parallel(cs) => AnyCycle(cs, s)
    case Conditional(_, t, f) =>
      var p :- HasCycle(t, s);
      if p.0 then Ok(p)
      else if f.Some? then HasCycle(f.value, p.1)
      else Ok((false, p.1))
  }

  /** The `for child in node.nodes` loop of `has_cycle`. */
  function AnyCycle(cs: seq<Node>, s: CycleState): Result<(bool, CycleState), string> {
    if cs == [] then Ok((false, s))
    else
      var p :- HasCycle(cs[0], s);
      if p.0 then Ok(p) else AnyCycle(cs[1..], p.1)
  }

  /** `_check_cycles`. */
  function CheckCycles(root: Node): Outcome<string> {
    match HasCycle(root, CycleState({}, {}))
    case Ok(_) => Pass
    case Err(name) => Fail(name)
  }

  /** A leaf is pushed and popped with nothing in between, so the stack is
      always empty and the walk only records the visited names. */
  lemma {:induction false} NoCycleEver(n: Node, visited: set<string>)
    ensures HasCycle(n, CycleState(visited, {})) == Ok((false, CycleState(visited + CollectResources(n), {})))
  {
    match n
    case Resource(name, _) =>
      assert ({} + {name}) - {name} == {};
      if name in visited {
        assert visited + {name} == visited;
      }
    case Sequence(cs) => NoCycleInAny(cs, visited);
    case Parallel(cs) => NoCycleInAny(cs, visited);
    case Conditional(_, t, f) =>
      NoCycleEver(t, visited);
      if f.Some? {
        NoCycleEver(f.value, visited + CollectResources(t));
        assert visited + CollectResources(t) + CollectResources(f.value) == visited + CollectResources(n);
      } else {
        assert visited + CollectResources(t) == visited + CollectResources(n);
      }
  }

  lemma {:induction false} NoCycleInAny(cs: seq<Node>, visited: set<string>)
    ensures AnyCycle(cs, CycleState(visited, {})) == Ok((false, CycleState(visited + CollectAll(cs), {})))
  {
    if cs != [] {
      NoCycleEver(cs[0], visited);
      NoCycleInAny(cs[1..], visited + CollectResources(cs[0]));
      assert AnyCycle(cs, CycleState(visited, {})) == AnyCycle(cs[1..], CycleState(visited + CollectResources(cs[0]), {}));
      assert visited + CollectResources(cs[0]) + CollectAll(cs[1..]) == visited + CollectAll(cs);
    } else {
      assert visited + CollectAll(cs) == visited;
    }
  }

  /** `_check_cycles` never raises. */
  lemma CheckCyclesPasses(root: Node)
    ensures CheckCycles(root) == Pass
  {
    NoCycleEver(root, {});
  }

  // ---------------------------------------------------------------------
  // _check_unreachable_nodes
  // ---------------------------------------------------------------------

  /** `mark_reachable`: the names the walk from the root reaches. */
  function MarkReachable(n: Node): set<string> {
    match n
    case Resource(name, _) => {name}
    case Sequence(cs) => MarkAll(cs)
    case Parallel(cs) => MarkAll(cs)
    case Conditional(_, t, f) => MarkReachable(t) + (if f.Some? then MarkReachable(f.value) else {})
  }

  function MarkAll(cs: seq<Node>): set<string> {
    if cs == [] then {} else MarkReachable(cs[0]) + MarkAll(cs[1..])
  }

  const UNREACHABLE_PREFIX: string := "Unreachable nodes detected: "

  /** `_check_unreachable_nodes` against the resource set recorded when the
      validator was built. */
  function CheckUnreachable(root: Node, allResources: set<string>): (r: Outcome<string>)
    ensures r.Fail? <==> !(allResources <= MarkReachable(root))
  {
    var unreachable := allResources - MarkReachable(root);
    if unreachable != {} then
      Fail(UNREACHABLE_PREFIX + Join(SetToSorted(unreachable), ", "))
    else
      assert allResources <= MarkReachable(root);
      Pass
  }

  /** The reachability walk mirrors the collection walk. */
  lemma {:induction false} MarkIsCollect(n: Node)
    ensures MarkReachable(n) == CollectResources(n)
  {
    match n
    case Resource(_, _) =>
    case Sequence(cs) => MarkAllIsCollectAll(cs);
    case Parallel(cs) => MarkAllIsCollectAll(cs);
    case Conditional(_, t, f) =>
      MarkIsCollect(t);
      if f.Some? {
        MarkIsCollect(f.value);
      }
  }

  lemma {:induction false} MarkAllIsCollectAll(cs: seq<Node>)
    ensures MarkAll(cs) == CollectAll(cs)
  {
    if cs != [] {
      MarkIsCollect(cs[0]);
      MarkAllIsCollectAll(cs[1..]);
    }
  }

  /** On the tree the validator was built from, nothing is unreachable. */
  lemma CheckUnreachablePasses(root: Node)
    ensures CheckUnreachable(root, CollectResources(root)) == Pass
  {
    MarkIsCollect(root);
  }

  /** `validate`: the cycle check, then the unreachable check. */
  function Validate(root: Node): Outcome<string> {
    match CheckCycles(root)
    case Fail(e) => Fail(e)
    case Pass => CheckUnreachable(root, CollectResources(root))
  }

  /** `validate_pipeline`: build a validator for the tree and validate it. */
  function ValidatePipeline(root: Node): Outcome<string> {
    Validate(root)
  }

  /** `validate_pipeline` never raises, whatever the tree. */
  lemma ValidatePipelinePasses(root: Node)
    ensures ValidatePipeline(root) == Pass
  {
    CheckCyclesPasses(root);
    CheckUnreachablePasses(root);
  }

  // ---------------------------------------------------------------------
  // get_execution_order
  // ---------------------------------------------------------------------

  /** The `if node.name not in order` append. */
  function AddNew(order: seq<string>, x: string): seq<string> {
    if x in order then order else order + [x]
  }

  /** `traverse`: a depth-first walk, true branch before false branch, that
      appends each leaf name the first time it is met. */
  function Traverse(n: Node, order: seq<string>): seq<string> {
    match n
    case Resource(name, _) => AddNew(order, name)
    case Sequence(cs) => TraverseAll(cs, order)
    case Parallel(cs) => TraverseAll(cs, order)
    case Conditional(_, t, f) =>
      var o := Traverse(t, order);
      if f.Some? then Traverse(f.value, o) else o
  }

  function TraverseAll(cs: seq<Node>, order: seq<string>): seq<string> {
    if cs == [] then order else TraverseAll(cs[1..], Traverse(cs[0], order))
  }

  /** `get_execution_order`. */
  function ExecutionOrder(root: Node): seq<string> {
    Traverse(root, [])
  }

  predicate Distinct(xs: seq<string>) {
    forall i, j :: 0 <= i < j < |xs| ==> xs[i] != xs[j]
  }

  /** The position of the first occurrence of `x`. */
  function FirstIndex(xs: seq<string>, x: string): (k: nat)
    requires x in xs
    ensures k < |xs| && xs[k] == x && x !in xs[..k]
  {
    if xs[0] == x then 0
    else
      var k := FirstIndex(xs[1..], x);
      assert xs[..k + 1] == [xs[0]] + xs[1..][..k];
      1 + k
  }

  /** The reference definition: each element kept at its first occurrence,
      built from the back. */
  function Dedup(xs: seq<string>): seq<string> {
    if xs == [] then []
    else
      var init := xs[..|xs| - 1];
      var last := xs[|xs| - 1];
      if last in init then Dedup(init) else Dedup(init) + [last]
  }

  lemma {:induction false} DedupFacts(xs: seq<string>)
    ensures Distinct(Dedup(xs))
    ensures forall x :: x in Dedup(xs) <==> x in xs
    ensures forall i, j :: 0 <= i < j < |Dedup(xs)| ==> FirstIndex(xs, Dedup(xs)[i]) < FirstIndex(xs, Dedup(xs)[j])
    decreases |xs|
  {
    if xs != [] {
      var init := xs[..|xs| - 1];
      var last := xs[|xs| - 1];
      DedupFacts(init);
      assert xs == init + [last];
      forall x | x in init ensures FirstIndex(xs, x) == FirstIndex(init, x) {
        FirstIndexPrefix(init, [last], x);
      }
      if last !in init {
        assert FirstIndex(xs, last) == |xs| - 1;
      }
    }
  }

  lemma FirstIndexPrefix(a: seq<string>, b: seq<string>, x: string)
    requires x in a
    ensures x in a + b && FirstIndex(a + b, x) == FirstIndex(a, x)
  {
    var k := FirstIndex(a + b, x);
    var j := FirstIndex(a, x);
    assert (a + b)[j] == x;
    assert (a + b)[..j] == a[..j];
  }

  /** The walk as a left fold of `AddNew` over a list of names. */
  function AddAll(order: seq<string>, xs: seq<string>): seq<string>
    decreases |xs|
  {
    if xs == [] then order else AddAll(AddNew(order, xs[0]), xs[1..])
  }

  lemma {:induction false} AddAllAppend(order: seq<string>, a: seq<string>, b: seq<string>)
    ensures AddAll(order, a + b) == AddAll(AddAll(order, a), b)
    decreases |a|
  {
    if a == [] {
      assert a + b == b;
    } else {
      assert (a + b)[0] == a[0] && (a + b)[1..] == a[1..] + b;
      AddAllAppend(AddNew(order, a[0]), a[1..], b);
    }
  }

  lemma {:induction false} AddAllMembers(order: seq<string>, xs: seq<string>)
    ensures forall x :: x in AddAll(order, xs) <==> x in order || x in xs
    decreases |xs|
  {
    if xs != [] {
      AddAllMembers(AddNew(order, xs[0]), xs[1..]);
      assert xs == [xs[0]] + xs[1..];
    }
  }

  /** Folding from the front gives the reference built from the back. */
  lemma {:induction false} AddAllIsDedup(xs: seq<string>)
    ensures AddAll([], xs) == Dedup(xs)
    decreases |xs|
  {
    if xs != [] {
      var init := xs[..|xs| - 1];
      var last := xs[|xs| - 1];
      assert xs == init + [last];
      AddAllAppend([], init, [last]);
      AddAllIsDedup(init);
      AddAllMembers([], init);
    }
  }

  lemma {:induction false} TraverseIsAddAll(n: Node, order: seq<string>)
    ensures Traverse(n, order) == AddAll(order, LeafNames(n))
  {
    match n
    case Resource(_, _) =>
    case Sequence(cs) => TraverseAllIsAddAll(cs, order);
    case Parallel(cs) => TraverseAllIsAddAll(cs, order);
    case Conditional(_, t, f) =>
      TraverseIsAddAll(t, order);
      var fl := if f.Some? then Leaves(f.value) else [];
      NamesAppend(Leaves(t), fl);
      AddAllAppend(order, LeafNames(t), Names(fl));
      if f.Some? {
        TraverseIsAddAll(f.value, Traverse(t, order));
      }
  }

  lemma {:induction false} TraverseAllIsAddAll(cs: seq<Node>, order: seq<string>)
    ensures TraverseAll(cs, order) == AddAll(order, Names(LeavesOf(cs)))
  {
    if cs != [] {
      TraverseIsAddAll(cs[0], order);
      TraverseAllIsAddAll(cs[1..], Traverse(cs[0], order));
      NamesAppend(Leaves(cs[0]), LeavesOf(cs[1..]));
      AddAllAppend(order, LeafNames(cs[0]), Names(LeavesOf(cs[1..])));
    }
  }

  /** `get_execution_order` lists every resource once, in order of first
      appearance in the depth-first walk, and covers the resource set. */
  lemma ExecutionOrderSpec(root: Node)
    ensures ExecutionOrder(root) == Dedup(LeafNames(root))
    ensures Distinct(ExecutionOrder(root))
    ensures forall x :: x in ExecutionOrder(root) <==> x in CollectResources(root)
    ensures var r := ExecutionOrder(root);
            forall i, j :: 0 <= i < j < |r| ==>
              r[i] in LeafNames(root) && r[j] in LeafNames(root) &&
              FirstIndex(LeafNames(root), r[i]) < FirstIndex(LeafNames(root), r[j])
  {
    TraverseIsAddAll(root, []);
    AddAllIsDedup(LeafNames(root));
    DedupFacts(LeafNames(root));
    CollectIsLeafNames(root);
  }

  // ---------------------------------------------------------------------
  // get_dependencies
  // ---------------------------------------------------------------------

  /** For each resource name, the names it depends on (duplicates kept). */
  type Deps = map<string, seq<string>>

  /** The NameError `build_deps` raises on its first Conditional: the name
      `next_preds` is never bound. */
  const NEXT_PREDS_ERROR: string := "name 'next_preds' is not defined"

  /** `build_deps`: a leaf's list is extended by its predecessors; a
      Sequence gives each child the incoming predecessors plus the earlier
      direct Resource children; a Parallel gives every child the incoming
      predecessors; a Conditional raises before doing anything. A leaf
      missing from the map is the KeyError Python would raise. */
  function BuildDeps(n: Node, preds: seq<string>, deps: Deps): Result<Deps, string> {
    match n
    case Resource(name, _) =>
      if name in deps then Ok(deps[name := deps[name] + preds]) else Err("KeyError: " + name)
    case Sequence(cs) => SequenceDeps(cs, preds, deps)
    case Parallel(cs) => ParallelDeps(cs, preds, deps)
    case Conditional(_, _, _) => Err(NEXT_PREDS_ERROR)
  }

  /** The Sequence loop: `current_preds` grows by each direct Resource child
      after that child is handled. */
  function SequenceDeps(cs: seq<Node>, current: seq<string>, deps: Deps): Result<Deps, string> {
    if cs == [] then Ok(deps)
    else
      var d :- BuildDeps(cs[0], current, deps);
      SequenceDeps(cs[1..], if cs[0].Resource? then current + [cs[0].name] else current, d)
  }

  function ParallelDeps(cs: seq<Node>, preds: seq<string>, deps: Deps): Result<Deps, string> {
    if cs == [] then Ok(deps)
    else
      var d :- BuildDeps(cs[0], preds, deps);
      ParallelDeps(cs[1..], preds, d)
  }

  function EmptyDeps(names: set<string>): (r: Deps)
    ensures r.Keys == names && forall x :: x in r ==> r[x] == []
  {
    map x | x in names :: []
  }

  /** `get_dependencies`: an empty list for every resource, then `build_deps`
      from the root with no predecessors. */
  function GetDependencies(root: Node): Result<Deps, string> {
    BuildDeps(root, [], EmptyDeps(CollectResources(root)))
  }

  /** The names of the direct Resource children, in order. */
  function DirectNames(cs: seq<Node>): seq<string> {
    if cs == [] then []
    else
      var last := cs[|cs| - 1];
      DirectNames(cs[..|cs| - 1]) + (if last.Resource? then [last.name] else [])
  }

  /** The reference: every leaf occurrence, in walk order, with the
      predecessor list it receives; child `i` of a Sequence receives the
      incoming list plus the direct Resource children before it. */
  function Occurrences(n: Node, preds: seq<string>): seq<(string, seq<string>)>
    decreases n, 0
  {
    match n
    case Resource(name, _) => [(name, preds)]
    case Sequence(cs) => SequenceOccurrences(cs, preds, 0)
    case Parallel(cs) => ParallelOccurrences(cs, preds)
    case Conditional(_, _, _) => []
  }

  function SequenceOccurrences(cs: seq<Node>, preds: seq<string>, i: nat): seq<(string, seq<string>)>
    requires i <= |cs|
    decreases cs, |cs| - i
  {
    if i == |cs| then []
    else Occurrences(cs[i], preds + DirectNames(cs[..i])) + SequenceOccurrences(cs, preds, i + 1)
  }

  function ParallelOccurrences(cs: seq<Node>, preds: seq<string>): seq<(string, seq<string>)>
    decreases cs, 0
  {
    if cs == [] then [] else Occurrences(cs[0], preds) + ParallelOccurrences(cs[1..], preds)
  }

  /** Each occurrence appends its predecessor list to its name's entry. */
  function Extend(deps: Deps, occ: seq<(string, seq<string>)>): Deps
    decreases |occ|
  {
    if occ == [] then deps
    else
      var x := occ[0].0;
      Extend(if x in deps then deps[x := deps[x] + occ[0].1] else deps, occ[1..])
  }

  lemma {:induction false} ExtendAppend(deps: Deps, a: seq<(string, seq<string>)>, b: seq<(string, seq<string>)>)
    ensures Extend(deps, a + b) == Extend(Extend(deps, a), b)
    decreases |a|
  {
    if a == [] {
      assert a + b == b;
    } else {
      assert (a + b)[0] == a[0] && (a + b)[1..] == a[1..] + b;
      var x := a[0].0;
      ExtendAppend(if x in deps then deps[x := deps[x] + a[0].1] else deps, a[1..], b);
    }
  }

  lemma {:induction false} ExtendKeys(deps: Deps, occ: seq<(string, seq<string>)>)
    ensures Extend(deps, occ).Keys == deps.Keys
    decreases |occ|
  {
    if occ != [] {
      var x := occ[0].0;
      ExtendKeys(if x in deps then deps[x := deps[x] + occ[0].1] else deps, occ[1..]);
    }
  }

  lemma {:induction false} CollectAllMember(cs: seq<Node>, k: nat)
    requires k < |cs|
    ensures CollectResources(cs[k]) <= CollectAll(cs)
  {
    if k > 0 {
      CollectAllMember(cs[1..], k - 1);
    }
  }

  lemma NoConditionalChildren(n: Node)
    requires (n.Sequence? || n.Parallel?) && !HasConditional(n)
    requires CollectResources(n) <= CollectAll(n.nodes)
    ensures forall k :: 0 <= k < |n.nodes| ==> !HasConditional(n.nodes[k])
  {
    forall k | 0 <= k < |n.nodes| ensures !HasConditional(n.nodes[k]) {
      assert n.nodes[k] in n.nodes;
    }
  }

  /** On a tree without a Conditional whose names all have entries,
      `build_deps` performs exactly the reference's extensions. */
  lemma {:induction false} DepsMatchOccurrences(n: Node, preds: seq<string>, deps: Deps)
    requires !HasConditional(n) && CollectResources(n) <= deps.Keys
    ensures BuildDeps(n, preds, deps) == Ok(Extend(deps, Occurrences(n, preds)))
    decreases n, 1
  {
    match n
    case Resource(_, _) =>
    case Sequence(cs) =>
      NoConditionalChildren(n);
      forall k | 0 <= k < |cs| ensures CollectResources(cs[k]) <= deps.Keys {
        CollectAllMember(cs, k);
      }
      assert cs[0..] == cs && cs[..0] == [];
      assert preds + DirectNames(cs[..0]) == preds;
      SequenceDepsMatch(cs, preds, 0, deps);
    case Parallel(cs) =>
      NoConditionalChildren(n);
      forall k | 0 <= k < |cs| ensures CollectResources(cs[k]) <= deps.Keys {
        CollectAllMember(cs, k);
      }
      ParallelDepsMatch(cs, preds, deps);
  }

  lemma {:induction false} SequenceDepsMatch(cs: seq<Node>, preds: seq<string>, i: nat, deps: Deps)
    requires i <= |cs|
    requires forall k :: i <= k < |cs| ==> !HasConditional(cs[k]) && CollectResources(cs[k]) <= deps.Keys
    ensures SequenceDeps(cs[i..], preds + DirectNames(cs[..i]), deps) == Ok(Extend(deps, SequenceOccurrences(cs, preds, i)))
    decreases cs, |cs| - i
  {
    if i < |cs| {
      var cur := preds + DirectNames(cs[..i]);
      var occ := Occurrences(cs[i], cur);
      DepsMatchOccurrences(cs[i], cur, deps);
      var d := Extend(deps, occ);
      ExtendKeys(deps, occ);
      SequenceDepsMatch(cs, preds, i + 1, d);
      assert cs[..i + 1][..i] == cs[..i];
      var next := if cs[i].Resource? then cur + [cs[i].name] else cur;
      assert next == preds + DirectNames(cs[..i + 1]);
      assert cs[i..][0] == cs[i] && cs[i..][1..] == cs[i + 1..];
      ExtendAppend(deps, occ, SequenceOccurrences(cs, preds, i + 1));
    }
  }

  lemma {:induction false} ParallelDepsMatch(cs: seq<Node>, preds: seq<string>, deps: Deps)
    requires forall k :: 0 <= k < |cs| ==> !HasConditional(cs[k]) && CollectResources(cs[k]) <= deps.Keys
    ensures ParallelDeps(cs, preds, deps) == Ok(Extend(deps, ParallelOccurrences(cs, preds)))
    decreases cs, 1
  {
    if cs != [] {
      var occ := Occurrences(cs[0], preds);
      DepsMatchOccurrences(cs[0], preds, deps);
      ExtendKeys(deps, occ);
      ParallelDepsMatch(cs[1..], preds, Extend(deps, occ));
      ExtendAppend(deps, occ, ParallelOccurrences(cs[1..], preds));
    }
  }

  /** Any Conditional makes `build_deps` raise the `next_preds` NameError. */
  lemma {:induction false} DepsFailOnConditional(n: Node, preds: seq<string>, deps: Deps)
    requires HasConditional(n) && CollectResources(n) <= deps.Keys
    ensures BuildDeps(n, preds, deps) == Err(NEXT_PREDS_ERROR)
    decreases n, 1
  {
    match n
    case Sequence(cs) =>
      forall k | 0 <= k < |cs| ensures CollectResources(cs[k]) <= deps.Keys {
        CollectAllMember(cs, k);
      }
      SequenceDepsFail(cs, preds, deps);
    case Parallel(cs) =>
      forall k | 0 <= k < |cs| ensures CollectResources(cs[k]) <= deps.Keys {
        CollectAllMember(cs, k);
      }
      ParallelDepsFail(cs, preds, deps);
    case Conditional(_, _, _) =>
  }

  lemma {:induction false} SequenceDepsFail(cs: seq<Node>, current: seq<string>, deps: Deps)
    requires exists c :: c in cs && HasConditional(c)
    requires forall k :: 0 <= k < |cs| ==> CollectResources(cs[k]) <= deps.Keys
    ensures SequenceDeps(cs, current, deps) == Err(NEXT_PREDS_ERROR)
    decreases cs, 0
  {
    if HasConditional(cs[0]) {
      DepsFailOnConditional(cs[0], current, deps);
    } else {
      DepsMatchOccurrences(cs[0], current, deps);
      var occ := Occurrences(cs[0], current);
      ExtendKeys(deps, occ);
      var c :| c in cs && HasConditional(c);
      assert c in cs[1..];
      SequenceDepsFail(cs[1..], if cs[0].Resource? then current + [cs[0].name] else current, Extend(deps, occ));
    }
  }

  lemma {:induction false} ParallelDepsFail(cs: seq<Node>, preds: seq<string>, deps: Deps)
    requires exists c :: c in cs && HasConditional(c)
    requires forall k :: 0 <= k < |cs| ==> CollectResources(cs[k]) <= deps.Keys
    ensures ParallelDeps(cs, preds, deps) == Err(NEXT_PREDS_ERROR)
    decreases cs, 0
  {
    if HasConditional(cs[0]) {
      DepsFailOnConditional(cs[0], preds, deps);
    } else {
      DepsMatchOccurrences(cs[0], preds, deps);
      var occ := Occurrences(cs[0], preds);
      ExtendKeys(deps, occ);
      var c :| c in cs && HasConditional(c);
      assert c in cs[1..];
      ParallelDepsFail(cs[1..], preds, Extend(deps, occ));
    }
  }

  /** `get_dependencies` fails exactly on trees with a Conditional; otherwise
      its keys are the resource set and its lists are the reference's. */
  lemma GetDependenciesSpec(root: Node)
    ensures GetDependencies(root).Err? <==> HasConditional(root)
    ensures GetDependencies(root).Err? ==> GetDependencies(root).error == NEXT_PREDS_ERROR
    ensures GetDependencies(root).Ok? ==>
              GetDependencies(root).value.Keys == CollectResources(root) &&
              GetDependencies(root).value == Extend(EmptyDeps(CollectResources(root)), Occurrences(root, []))
  {
    var deps := EmptyDeps(CollectResources(root));
    if HasConditional(root) {
      DepsFailOnConditional(root, [], deps);
    } else {
      DepsMatchOccurrences(root, [], deps);
      ExtendKeys(deps, Occurrences(root, []));
    }
  }

  /** In `A -> (B <-> C) -> D` the leaf after the Parallel depends on `A`
      only: a Sequence records direct Resource siblings, not the leaves of
      a composite sibling. */
  lemma DependenciesExample()
    ensures var root := Sequence([Resource("A", AGENT), Parallel([Resource("B", AGENT), Resource("C", AGENT)]),
                                  Resource("D", AGENT)]);
            GetDependencies(root) == Ok(map["A" := [], "B" := ["A"], "C" := ["A"], "D" := ["A"]])
  {
    var a, b, c, d := Resource("A", AGENT), Resource("B", AGENT), Resource("C", AGENT), Resource("D", AGENT);
    var p := Parallel([b, c]);
    var root := Sequence([a, p, d]);
    assert [c][1..] == [] && [d][1..] == [];
    assert [b, c][1..] == [c] && [a, p, d][1..] == [p, d] && [p, d][1..] == [d];
    assert CollectAll([c]) == {"C"} && CollectAll([d]) == {"D"};
    assert CollectAll([b, c]) == {"B", "C"};
    assert CollectAll([p, d]) == {"B", "C", "D"};
    assert CollectAll([a, p, d]) == {"A", "B", "C", "D"};
    assert CollectResources(root) == {"A", "B", "C", "D"};
    var deps0 := EmptyDeps({"A", "B", "C", "D"});
    assert deps0.Keys == {"A", "B", "C", "D"};
    assert "A" in deps0 && "B" in deps0 && "C" in deps0 && "D" in deps0;
    assert deps0["A"] == [] && deps0["B"] == [] && deps0["C"] == [] && deps0["D"] == [];
    var deps1 := deps0["A" := []];
    assert deps0["A"] + [] == [];
    assert BuildDeps(a, [], deps0) == Ok(deps1);
    var deps2 := deps1["B" := ["A"]];
    var deps3 := deps2["C" := ["A"]];
    assert "B" in deps1 && deps1["B"] + ["A"] == ["A"];
    assert BuildDeps(b, ["A"], deps1) == Ok(deps2);
    assert "C" in deps2 && deps2["C"] + ["A"] == ["A"];
    assert BuildDeps(c, ["A"], deps2) == Ok(deps3);
    assert ParallelDeps([c], ["A"], deps2) == Ok(deps3);
    assert ParallelDeps([b, c], ["A"], deps1) == Ok(deps3);
    var deps4 := deps3["D" := ["A"]];
    assert "D" in deps3 && deps3["D"] + ["A"] == ["A"];
    assert BuildDeps(d, ["A"], deps3) == Ok(deps4);
    assert SequenceDeps([d], ["A"], deps3) == Ok(deps4);
    assert SequenceDeps([p, d], ["A"], deps1) == Ok(deps4);
    assert [] + [a.name] == ["A"];
    assert SequenceDeps([a, p, d], [], deps0) == Ok(deps4);
    assert deps4 == map["A" := [], "B" := ["A"], "C" := ["A"], "D" := ["A"]];
  }

  // ---------------------------------------------------------------------
  // get_graph_metrics
  // ---------------------------------------------------------------------

  /** The four entries of the metrics dict. */
  datatype Metrics = Metrics(totalResources: nat, maxDepth: nat, parallelSections: nat, conditionalBranches: nat)

  function Max(a: nat, b: nat): nat {
    if a >= b then a else b
  }

  /** `analyze`: record the depth reached, count Parallel and Conditional
      nodes, and descend one level into the children. */
  function Analyze(n: Node, depth: nat, m: Metrics): Metrics {
    var m1 := m.(maxDepth := Max(m.maxDepth, depth));
    match n
    case Resource(_, _) => m1
    case Parallel(cs) => AnalyzeAll(cs, depth + 1, m1.(parallelSections := m1.parallelSections + 1))
    case Conditional(_, t, f) =>
      var m2 := Analyze(t, depth + 1, m1.(conditionalBranches := m1.conditionalBranches + 1));
      if f.Some? then Analyze(f.value, depth + 1, m2) else m2
    case Sequence(cs) => AnalyzeAll(cs, depth + 1, m1)
  }

  function AnalyzeAll(cs: seq<Node>, depth: nat, m: Metrics): Metrics {
    if cs == [] then m else AnalyzeAll(cs[1..], depth, Analyze(cs[0], depth, m))
  }

  /** `get_graph_metrics`. */
  function GraphMetrics(root: Node): Metrics {
    Analyze(root, 0, Metrics(|CollectResources(root)|, 0, 0, 0))
  }

  /** Reference: the height of the tree, a single leaf having height 0. */
  function Height(n: Node): nat {
    match n
    case Resource(_, _) => 0
    case Sequence(cs) => if cs == [] then 0 else 1 + MaxHeight(cs)
    case Parallel(cs) => if cs == [] then 0 else 1 + MaxHeight(cs)
    case Conditional(_, t, f) => 1 + (if f.Some? then Max(Height(t), Height(f.value)) else Height(t))
  }

  function MaxHeight(cs: seq<Node>): nat {
    if cs == [] then 0 else Max(Height(cs[0]), MaxHeight(cs[1..]))
  }

  /** Reference: the number of Parallel nodes. */
  function ParallelCount(n: Node): nat {
    match n
    case Resource(_, _) => 0
    case Sequence(cs) => ParallelCountAll(cs)
    case Parallel(cs) => 1 + ParallelCountAll(cs)
    case Conditional(_, t, f) => ParallelCount(t) + (if f.Some? then ParallelCount(f.value) else 0)
  }

  function ParallelCountAll(cs: seq<Node>): nat {
    if cs == [] then 0 else ParallelCount(cs[0]) + ParallelCountAll(cs[1..])
  }

  /** Reference: the number of Conditional nodes. */
  function ConditionalCount(n: Node): nat {
    match n
    case Resource(_, _) => 0
    case Sequence(cs) => ConditionalCountAll(cs)
    case Parallel(cs) => ConditionalCountAll(cs)
    case Conditional(_, t, f) => 1 + ConditionalCount(t) + (if f.Some? then ConditionalCount(f.value) else 0)
  }

  function ConditionalCountAll(cs: seq<Node>): nat {
    if cs == [] then 0 else ConditionalCount(cs[0]) + ConditionalCountAll(cs[1..])
  }

  /** One `analyze` call from `depth` raises the recorded depth to
      `depth + Height(n)` and adds the node counts. */
  lemma {:induction false} AnalyzeSpec(n: Node, depth: nat, m: Metrics)
    ensures Analyze(n, depth, m) ==
            Metrics(m.totalResources, Max(m.maxDepth, depth + Height(n)),
                    m.parallelSections + ParallelCount(n), m.conditionalBranches + ConditionalCount(n))
  {
    var m1 := m.(maxDepth := Max(m.maxDepth, depth));
    match n
    case Resource(_, _) =>
    case Sequence(cs) =>
      AnalyzeAllSpec(cs, depth + 1, m1);
    case Parallel(cs) =>
      AnalyzeAllSpec(cs, depth + 1, m1.(parallelSections := m1.parallelSections + 1));
    case Conditional(_, t, f) =>
      var m2 := Analyze(t, depth + 1, m1.(conditionalBranches := m1.conditionalBranches + 1));
      AnalyzeSpec(t, depth + 1, m1.(conditionalBranches := m1.conditionalBranches + 1));
      if f.Some? {
        AnalyzeSpec(f.value, depth + 1, m2);
      }
  }

  lemma {:induction false} AnalyzeAllSpec(cs: seq<Node>, depth: nat, m: Metrics)
    ensures AnalyzeAll(cs, depth, m) ==
            Metrics(m.totalResources, if cs == [] then m.maxDepth else Max(m.maxDepth, depth + MaxHeight(cs)),
                    m.parallelSections + ParallelCountAll(cs), m.conditionalBranches + ConditionalCountAll(cs))
  {
    if cs != [] {
      AnalyzeSpec(cs[0], depth, m);
      AnalyzeAllSpec(cs[1..], depth, Analyze(cs[0], depth, m));
    }
  }

  /** `get_graph_metrics` reports the resource count, the tree height and
      the numbers of Parallel and Conditional nodes. */
  lemma GraphMetricsSpec(root: Node)
    ensures GraphMetrics(root) ==
            Metrics(|CollectResources(root)|, Height(root), ParallelCount(root), ConditionalCount(root))
  {
    AnalyzeSpec(root, 0, Metrics(|CollectResources(root)|, 0, 0, 0));
  }
}

=== FILE: wrappers.dfy ===
/** Failure-compatible result types shared by every module of the model.
    Python exceptions become `Err` values; Python `None` becomes `None`. */
module Wrappers {

  datatype Option<+T> = None | Some(value: T) {
    predicate IsFailure() {
      None?
    }

    function PropagateFailure<U>(): Option<U>
      requires None?
    {
      None
    }

    function Extract(): T
      requires Some?
    {
      value
    }
  }

  /** Either a value or the error the Python code would raise. */
  datatype Result<+T, +E> = Ok(value: T) | Err(error: E) {
    predicate IsFailure() {
      Err?
    }

    function PropagateFailure<U>(): Result<U, E>
      requires Err?
    {
      Err(error)
    }

    function Extract(): T
      requires Ok?
    {
      value
    }
  }

  /** Pass/fail without a value, for checks that only raise. */
  datatype Outcome<+E> = Pass | Fail(error: E) {
    predicate IsFailure() {
      Fail?
    }

    function PropagateFailure(): Outcome<E>
      requires Fail?
    {
      this
    }
  }
}
